=== FILE: README.md ===
# rpg-app in Dafny

A model of the server-side core of rpg-app, a FastAPI application for a
tabletop role-playing group. It has two kinds of account: a game master
(`role = "master"`) and players (`role = "player"`).

- **Login and sessions.** Users log in with a username and password. A
  login gives a signed `rpg_session` cookie that lasts fourteen days.
- **Password changes.** An account created or reset by the master must
  change its password at the next login (`force_password_change`).
- **The master's dashboard.** The master creates, deletes and resets
  players.
- **Character sheets.** Each player edits one character sheet. The master
  can view and edit any player's sheet.
- **The card catalogue.** A logged-in user can browse it, filtered by type,
  rarity and weapon class and sorted by name.
- **Two scripts.** One seeds the two initial accounts with a local PBKDF2
  digest format. The other imports weapon cards from a folder tree of
  images.

Every handler is a pure function. It takes the request (session cookie,
`X-Forwarded-Proto` header, URL scheme, clock), the form fields and the
database contents (`Models.Store`). It returns the response (status,
redirect target or page, cookie effect) and the database contents its
transaction commits (`Http.Outcome`).

The abstract parameters are:
- the session signer: itsdangerous, `Session.Signer`;
- the password hasher: passlib, `Session.PassHasher`;
- PBKDF2-HMAC-SHA256: `Digest.Kdf`;
- the random salts and `secrets.choice` draws;
- Unicode accent stripping and `str.title`;
- the directory listing the importer walks.

The lemmas that rely on a signer or hasher round trip take it as a
precondition (`Session.SignerRoundTrips`, `Session.SignerExpires`,
`Session.HasherRoundTrips`).

Modules, following the program's structure:

| module | file | models |
|---|---|---|
| `Wrappers` | wrappers.dfy | `Option` and `Result` |
| `Text` | text.dfy | Python's `strip`, `lower`, `upper`, `split`, `endswith`, `replace`, `(v or default)` |
| `Decimal`, `Hex` | decimal.dfy, hex.dfy | `str(n)`/`int(s)`, `bytes.hex()`/`bytes.fromhex()` |
| `Digest` | digest.dfy | the `pbkdf2_sha256$…` digest of app/seed.py |
| `Models` | models.dfy | the three tables of app/models.py and their constraints |
| `Http` | http.dfy | requests, responses, pages |
| `Session` | session.dfy | app/auth.py |
| `Access` | access.dfy | app/deps.py and the routers' user and role checks |
| `AuthRoutes` | auth_routes.dfy | app/routers/auth.py |
| `MasterRoutes` | master_routes.dfy | app/routers/master.py |
| `Sheet`, `PlayerRoutes` | sheet.dfy, player_routes.dfy | app/routers/player.py |
| `Catalog` | catalog.dfy | app/routers/cards.py |
| `CardImport` | card_import.dfy | import_cards.py |
| `Seed` | seed.dfy | app/seed.py |
| `Lifecycle` | lifecycle.dfy | all writing routes as one state machine over the password-change flag |

## Model

| member | source | states |
|---|---|---|
| Text.OrElse | app/routers/player.py:46-51 | `(v or default)`: a missing or empty value gives the default, any other value is kept |
| Text.SplitMax | app/seed.py:22 | `split("$", 3)` gives one to four parts, and no part before the last holds a separator |
| Text.SplitMaxLength | app/seed.py:22 | the number of parts is one more than the number of separators, capped at four |
| Decimal.Format | app/seed.py:17 | `str(n)` is a non-empty run of ASCII digits with no leading zero |
| Decimal.ParseFormat | app/seed.py:25 | `int(str(n)) == n` for every count of at most 4300 digits: the recorded iteration count reads back as written |
| Decimal.TooManyDigitsRefused | app/seed.py:25 | `int()` refuses a run of more than 4300 digits (leading zeros counted, underscores not), whatever its value |
| Decimal.FormatLength | app/seed.py:17 | a number below 10^k is written with at most k digits, so every accepted iteration count is within the limit |
| Hex.Encode | app/seed.py:17 | `bytes.hex()` writes two lower-case hex digits per byte |
| Hex.Decode | app/seed.py:26 | `bytes.fromhex()` yields at most one byte per two characters, or fails |
| Hex.DecodeEncode | app/seed.py:26 | `bytes.fromhex(b.hex()) == b` |
| Hex.EncodeInjective | app/seed.py:28 | distinct derived keys have distinct hex forms |
| Digest.HashPassword | app/seed.py:14-17 | the digest splits into exactly four fields: `pbkdf2_sha256`, the decimal iteration count, 32 hex digits of salt, the hex of the derived key |
| Digest.ParseHashed | app/seed.py:20-26 | parsing a digest gives back the iteration count, salt and key it was made with |
| Digest.VerifyHashed | app/seed.py:14-28 | round trip: a password verifies against its own digest, whatever the salt |
| Digest.VerifyRejectsOtherKey | app/seed.py:27-28 | a password whose derived key differs does not verify |
| Digest.MalformedDigestRejected | app/seed.py:21-30 | fewer than three `$`, a wrong tag, a non-integer, over-long (more than 4300 digits) or refused iteration count, or non-hex salt all verify false, never raise |
| Digest.UpperCaseKeyRejected | app/seed.py:28 | a key field that is not lower-case hex never matches `dk.hex()` |
| Models.NewCharacter | app/models.py:30-49 | a new character takes every declared column default and is within the sheet bounds |
| Models.EmptyStoreValid | app/models.py:8-28 | the empty database meets the schema's constraints |
| Models.UsernamesUnique | app/models.py:12 | no two users share a username |
| Models.GetUser | app/deps.py:11 | lookup by primary key finds exactly the stored row |
| Models.FindByName | app/routers/auth.py:36 | lookup by username finds a row iff one has exactly that name, and returns that row |
| Models.CharacterOf | app/routers/player.py:31 | lookup by `user_id` finds the user's one character, if any |
| Models.InsertUser | app/routers/master.py:95-102 | an insert adds one row under a fresh key, keeps the constraints and changes no other row |
| Models.FindAfterInsert | app/models.py:12 | after an insert, the new name finds the new row and every other name finds what it found before |
| Models.UpdateUser | app/routers/auth.py:115-117 | a write-back replaces one row, keeps every key and every other row |
| Models.FindAfterUpdate | app/models.py:12 | a write-back does not change what any name finds, except the row's own new contents |
| Models.DeleteUser | app/models.py:17-21 | deleting a user deletes its character too (cascade) and nothing else |
| Models.InsertCharacter | app/routers/player.py:33-36 | a user without a character gets one with defaults and a fresh key |
| Models.UpdateCharacter | app/models.py:28 | a character write-back keeps its owner and every other character |
| Models.KeysUniqueSatisfiesConstraint | app/models.py:81-83 | distinct identities satisfy `uq_card_identity` |
| Models.NullClassNotConstrained | app/models.py:67-83 | NULL `class_type` rows are not constrained by `uq_card_identity` |
| Session.IsHttps | app/auth.py:24-31 | with no or an empty forwarded-proto header, HTTPS iff the scheme lower-cased is `https` |
| Session.FirstHopNormalised | app/auth.py:28-30 | with a forwarded-proto header, HTTPS iff its first comma-separated element, trimmed and lower-cased, is `https` |
| Session.PaddedUpperHttpsFirst | app/auth.py:28-30 | a first hop of `" HTTPS "` counts as HTTPS, whatever follows the comma |
| Session.HeaderOverridesScheme | app/auth.py:28-30 | a non-empty header decides alone; the scheme is ignored |
| Session.FirstHopDecides | app/auth.py:30 | only the text before the first comma counts |
| Session.HttpsFirstInChain | app/auth.py:30 | `https, …` is HTTPS whatever follows |
| Session.HttpFirstInChain | app/auth.py:30 | `http, …` is not, whatever follows |
| Session.SetSession | app/auth.py:34-47 | cookie `rpg_session`, HTTP-only, same-site lax, 1209600 s, path `/`, secure iff HTTPS |
| Session.ClearSession | app/auth.py:50-51 | logging out deletes a cookie |
| Session.ClearMatchesSet | app/auth.py:39-51 | the deleted cookie has the name and path the session cookie is set with |
| Session.ReadSession | app/auth.py:54-62 | no cookie or an empty one is no session; a session read is one the serializer accepted with the fourteen-day age limit |
| Session.SessionExpires | app/auth.py:34-62 | a session read more than fourteen days after it was set is gone, given the serializer refuses expired tokens |
| Session.RefusedTokenIsAnonymous | app/auth.py:58-62 | a token the serializer refuses, for a bad signature or its age, gives no session |
| Session.SessionRoundTrip | app/auth.py:34-60 | a session set for a user reads back as that user for fourteen days |
| Session.ClearedSessionIsAnonymous | app/auth.py:50-57 | after the session is cleared, it reads as no session |
| Access.SessionUserId | app/routers/auth.py:15-17 | a session id counts only if it is truthy (0 is no session) |
| Access.LoggedUser | app/routers/auth.py:14-18 | the caller is the stored user the session names, if any |
| Access.DeletedUserIsAnonymous | app/deps.py:11-13 | a valid token for a deleted account identifies nobody |
| Access.GetCurrentUser | app/deps.py:7-14 | every failure of `get_current_user` is a 401 |
| Access.CurrentUserAgreesWithLoggedUser | app/deps.py:7-14 | the dependency succeeds iff the routers' helper finds a user, and with the same user |
| Access.RoleChecksNested | app/deps.py:17 | the exact check implies the case-insensitive one, which implies the trimmed one |
| Access.CaselessMasterIsTrimmed | app/routers/master.py:24 | a role that lower-cases to `master` has no surrounding whitespace |
| Access.RoleChecksDiffer | app/routers/auth.py:62-63 | `Master` passes the routers but not app/deps.py; ` master` passes only `/me` |
| Access.RequireMaster | app/deps.py:16-19 | success only for the logged user with role exactly `master` |
| Access.UnauthenticatedBeforeForbidden | app/deps.py:7-19 | 401 iff no user; 403 iff a user whose role is not exactly `master` |
| Access.RequireMasterCaseless | app/routers/master.py:19-26 | the logged user iff its lower-cased role is `master` |
| Access.DepsMasterIsRouterMaster | app/deps.py:16-19 | whoever app/deps.py admits as master, the routers admit too |
| AuthRoutes.Login | app/routers/auth.py:29-50 | a login never changes the database |
| AuthRoutes.LoginDoesNotRevealUsernames | app/routers/auth.py:36-43 | an unknown username and a wrong password get the identical 401 answer |
| AuthRoutes.LoginEstablishesSession | app/routers/auth.py:45-50 | success is a 303 to `/me` whose cookie identifies exactly that user |
| AuthRoutes.Me | app/routers/auth.py:53-66 | anonymous callers go to `/login`; a pending change goes to `/change-password` before the role is looked at; otherwise `/master` iff the role trimmed and lower-cased is `master`, else `/player`; always a 303 with cookies untouched |
| AuthRoutes.MeAgreesWithMasterGate | app/routers/auth.py:59-64 | for a role without padding, `/me` goes to `/master` iff the master routes admit the user |
| AuthRoutes.PaddedMasterRoleBounces | app/routers/auth.py:62-64 | role ` master` is sent to `/master` and turned away there |
| AuthRoutes.ChangePasswordForm | app/routers/auth.py:69-81 | an anonymous caller is sent to `/login`; a logged user with a pending change gets the form with a 200, and only such a user ever gets it |
| AuthRoutes.ChangePassword | app/routers/auth.py:84-124 | an anonymous caller is sent to `/login` with the store unchanged; any submission keeps the set of users and every character, and keeps the constraints |
| AuthRoutes.NothingPendingGoesToMe | app/routers/auth.py:69-96 | with nothing pending, both change-password routes redirect to `/me` and change nothing |
| AuthRoutes.RejectedChangeKeepsAccount | app/routers/auth.py:98-113 | short (checked first) or mismatched passwords answer 400 and change nothing |
| AuthRoutes.AcceptedChangeClearsFlag | app/routers/auth.py:115-124 | success clears the flag, stores a hash of the trimmed password, reissues the session, touches no other account |
| AuthRoutes.Logout | app/routers/auth.py:127-131 | logout is a 303 to `/login` that clears the session |
| AuthRoutes.LogoutEndsSession | app/routers/auth.py:127-131 | after logout every handler sees an anonymous caller |
| MasterRoutes.AlphabetChar | app/routers/master.py:30 | every alphabet position is an ASCII letter or digit |
| MasterRoutes.TempAlphabetIsAlnum | app/routers/master.py:30 | the alphabet holds exactly the ASCII letters and digits |
| MasterRoutes.GenerateTempPassword | app/routers/master.py:29-31 | the password has the requested length and only letters and digits |
| MasterRoutes.EveryAlnumCanBeDrawn | app/routers/master.py:29-31 | every letter or digit can appear at every position |
| MasterRoutes.PlayersBelow | app/routers/master.py:43-48 | the players below an id, each a stored user with role `player`, in ascending id order, none missing |
| MasterRoutes.Players | app/routers/master.py:43-48 | the dashboard lists exactly the users with role `player`, by ascending id |
| MasterRoutes.MasterDashboard | app/routers/master.py:37-59 | the dashboard is shown iff the caller passes the master check |
| MasterRoutes.CreatePlayer | app/routers/master.py:65-109 | creation never changes or removes an existing user or character |
| MasterRoutes.CreatedPlayerMustChangePassword | app/routers/master.py:95-109 | success adds one player (trimmed name, flag set, verifiable hash) and one character named in capitals |
| MasterRoutes.CreatePlayerRejects | app/routers/master.py:76-93 | a blank name is ignored, a taken name answers 400, neither changes anything |
| MasterRoutes.DeletePlayer | app/routers/master.py:115-143 | deletion only removes rows |
| MasterRoutes.DeleteRemovesOnlyThePlayer | app/routers/master.py:121-143 | an id outside SQLite's 64-bit integer range answers 500 with nothing changed; a player and its character are removed and nothing else; a missing id is ignored; other roles answer 400 |
| MasterRoutes.MasterCannotDeleteSelf | app/routers/master.py:125-137 | the master's own account cannot be deleted |
| MasterRoutes.ResetPlayerPassword | app/routers/master.py:149-176 | a reset changes at most the target user |
| MasterRoutes.ResetForcesChange | app/routers/master.py:155-176 | an id outside SQLite's 64-bit integer range answers 500 with nothing changed; a player target gets the flag and a hash the shown temporary password verifies; other targets change nothing |
| MasterRoutes.NonMasterChangesNothing | app/routers/master.py:37-153 | without a master session every master route redirects to `/login` and changes nothing |
| Sheet.Clamp | app/routers/player.py:40-41 | the result lies in `[lo, hi]` and equals `v` when `v` does |
| Sheet.ClampIdempotent | app/routers/player.py:40-41 | clamping twice is clamping once |
| Sheet.Personality | app/routers/player.py:60 | the result is a known personality, the input itself when it is one |
| Sheet.ApplyCharacterForm | app/routers/player.py:44-75 | the sheet ends within bounds: attributes 1..100, hit and hero points 0..999, a known personality |
| Sheet.SubmittedValuesKept | app/routers/player.py:44-75 | non-blank name and level trimmed, other short texts trimmed, personality whitelisted, free texts verbatim |
| Sheet.SubmittedNumbersClamped | app/routers/player.py:62-71 | each of the eight numbers is kept when in range, else set to the bound it overshot, and a missing one takes the column default |
| Sheet.ApplyIdempotent | app/routers/player.py:44-75 | submitting the same form twice is submitting it once |
| Sheet.BlankFieldsKeepNameAndLevel | app/routers/player.py:46-59 | an empty or whitespace-only name or level keeps the old value; a missing age clears it |
| Sheet.ResubmitKeepsSheet | app/routers/player.py:44-75 | resubmitting a sheet unedited changes nothing |
| Sheet.GetOrCreateCharacter | app/routers/player.py:30-37 | the user ends with a character, and every other character is unchanged |
| Sheet.GetOrCreateIdempotent | app/routers/player.py:30-37 | an existing character is returned as is; a created one has the defaults and the name in capitals; a second call finds it |
| PlayerRoutes.PlayerSheet | app/routers/player.py:78-93 | viewing a sheet never changes the users |
| PlayerRoutes.PlayerUpdate | app/routers/player.py:96-156 | updating a sheet never changes the users |
| PlayerRoutes.OwnSheetRoutesGuarded | app/routers/player.py:78-128 | anonymous callers go to `/login`, masters to `/master`, neither changes anything |
| PlayerRoutes.UpdateTouchesOnlyOwnSheet | app/routers/player.py:130-156 | a player's update changes only that player's character, and keeps it within bounds |
| PlayerRoutes.PlayerTarget | app/routers/player.py:166-168 | the target exists iff the id is a user whose lower-cased role is `player` |
| PlayerRoutes.PlayerSheetForMaster | app/routers/player.py:160-175 | the master's view never changes the users |
| PlayerRoutes.PlayerUpdateForMaster | app/routers/player.py:179-240 | the master's update never changes the users |
| PlayerRoutes.MasterSheetRoutesGuarded | app/routers/player.py:160-240 | non-masters go to `/login`, an id outside SQLite's 64-bit integer range answers 500, bad targets go to `/master`, all unchanged; otherwise only the target's character changes |
| PlayerRoutes.MasterIsNeverATarget | app/routers/player.py:206-212 | the master's own account is never a target of the master's sheet routes |
| Catalog.Select | app/routers/cards.py:51-64 | parameters are trimmed and lower-cased; a recognised class forces the type `arma` |
| Catalog.Filter | app/routers/cards.py:60-76 | exactly the rows passing every recognised filter, none added |
| Catalog.FilterCounts | app/routers/cards.py:60-76 | each matching row is kept as often as the table holds it, others dropped |
| Catalog.LexLeTotal | app/routers/cards.py:79-82 | the collation compares any two names |
| Catalog.LexLeAntisymmetric | app/routers/cards.py:79-82 | names that compare both ways are equal |
| Catalog.LexLeTransitive | app/routers/cards.py:79-82 | the collation is transitive |
| Catalog.Insert | app/routers/cards.py:79-82 | inserting keeps every row |
| Catalog.InsertOrdered | app/routers/cards.py:79-82 | inserting into an ordered list keeps it ordered |
| Catalog.Sort | app/routers/cards.py:79-84 | the result is a permutation of the input, ordered by `order_name` ascending or descending |
| Catalog.OrderedPairwise | app/routers/cards.py:79-82 | adjacent order implies order between any two positions |
| Catalog.OrderedKeysUnique | app/routers/cards.py:79-84 | two ordered arrangements of the same rows show the same sequence of names |
| Catalog.CardsCatalog | app/routers/cards.py:44-100 | anonymous callers, and only they, go to `/login`; others get the 200 catalogue |
| Catalog.CatalogContents | app/routers/cards.py:50-100 | the page lists exactly the matching rows, with multiplicity, ordered, descending iff `sort` is `za` |
| Catalog.ClassFilterForcesWeapons | app/routers/cards.py:63-76 | a recognised class shows only weapons of that class, whatever `type` says |
| Catalog.UnrecognisedFiltersListEverything | app/routers/cards.py:56-76 | with no recognised filter every row is listed |
| Catalog.ListingIgnoresTableOrder | app/routers/cards.py:79-84 | the names shown do not depend on the table's row order |
| CardImport.OrderKey | import_cards.py:38-39 | the order key is trimmed and has no capital letter |
| CardImport.OrderKeyIsNormal | import_cards.py:38-39 | lower-casing and trimming an order key again changes nothing; two names share a key iff their accent-free, lower-cased, trimmed forms agree |
| CardImport.LastIndex | import_cards.py:96 | the position of the last occurrence, or none |
| CardImport.Stem | import_cards.py:96 | `splitext(...)[0]` is a prefix of the name |
| CardImport.StemOfPng | import_cards.py:93-96 | a `.png` name with more than dots before the extension loses exactly the extension |
| CardImport.DotsOnlyKeepName | import_cards.py:96 | a name of only dots and the extension is all stem |
| CardImport.ImagePath | import_cards.py:103 | the image path always ends in `.png` |
| CardImport.FindKey | import_cards.py:47-54 | the first row with the identity, or none iff no row has it |
| CardImport.Apply | import_cards.py:55-71 | refresh the found row's name, order key and image path, or append a new row with a fresh id |
| CardImport.UpsertCard | import_cards.py:42-71 | created iff the identity was absent; the first row with the identity (or the new last row) carries the name, `order_key(name)` and the image path, and keeps its id; every other row is unchanged; `uq_card_identity` keeps holding, duplicate NULL-class rows allowed |
| CardImport.ApplyKeepsConstraint | import_cards.py:42-71 | an upsert after a search keeps `uq_card_identity` |
| CardImport.ApplyKeepsIdsFresh | import_cards.py:60-71 | a new row's id is fresh |
| CardImport.KeySetOfApply | import_cards.py:42-71 | the identities after an upsert are those before plus the one upserted |
| CardImport.Folders | import_cards.py:85-86 | one folder per class and rarity of the two lists |
| CardImport.WalkScansOnlyFixedFolders | import_cards.py:85-91 | the walk visits exactly the names listed in existing folders of the two fixed lists |
| CardImport.PngCount | import_cards.py:93 | no `.png` names iff the count is zero |
| CardImport.Commit | import_cards.py:123-134 | the commit succeeds iff the session satisfies `uq_card_identity`, reporting created plus updated |
| CardImport.Visit | import_cards.py:91-117 | a visit adds a row and counts a creation iff the name is `.png` and the query found nothing |
| CardImport.WalkAsWritten | import_cards.py:74-120 | the rows present before the run stay in place |
| CardImport.WalkAsWrittenKeys | import_cards.py:74-120 | as written, the walk appends one identity per `.png` name the committed rows lack, repeats included |
| CardImport.ImportAsWritten | import_cards.py:74-134 | a committed run satisfies `uq_card_identity`, reports the `.png` count, and appends one row per `.png` entry whose identity the table lacked before the run, repeats included |
| CardImport.ImportAsWrittenTwiceCreatesNothing | import_cards.py:74-134 | run again over a table it committed, the as-written import commits and adds no row |
| CardImport.NewKeysCover | import_cards.py:91-113 | every `.png` entry's identity is in the starting table or among the rows the as-written walk adds |
| CardImport.WalkFlushed | import_cards.py:74-120 | the corrected walk keeps `uq_card_identity`; processed equals the `.png` count; identities grow by those of the `.png` names |
| CardImport.VisitFlushed | import_cards.py:91-117 | one corrected visit creates iff the name is `.png` and its identity is new |
| CardImport.ImportWeapons | import_cards.py:74-134 | on any table meeting `uq_card_identity` the corrected run commits, keeps the constraint and reports the count of `.png` names |
| CardImport.ImportKeepsUnclassedRows | import_cards.py:47-113 | rows without a class, which the weapon walk never looks up, come out of the corrected run unchanged |
| CardImport.RepeatedKeyBreaksConstraint | app/models.py:81-83 | two rows with one identity and a class break the unique index |
| CardImport.SameStemTwiceRejected | import_cards.py:91-127 | as written, two `.png` names with one stem in a folder, new to the table, make the commit fail |
| CardImport.RepeatRejected | import_cards.py:74-127 | as written, any repeated new identity among the `.png` entries makes the commit fail |
| CardImport.UpperCaseExtensionCollides | import_cards.py:93-96 | `a.png` and `a.PNG` are both imported, under the same stem |
| CardImport.SameStemTwiceMerged | import_cards.py:47-71 | corrected, such a folder commits, holding the card |
| CardImport.KnownKeysCreateNothing | import_cards.py:105-117 | a walk over identities already present creates no row |
| CardImport.ImportTwiceCreatesNothing | import_cards.py:74-134 | a second run creates no card and keeps the set of identities |
| Seed.UpsertUser | app/seed.py:33-71 | after an upsert the account is settled: present with the role, and the password (if any) verifies |
| Seed.BlankUsernameIgnored | app/seed.py:41-43 | a blank or whitespace username changes nothing |
| Seed.NewUserInserted | app/seed.py:47-55 | a new name is inserted once, trimmed, with the role, flag and a verifying digest; nothing else changes |
| Seed.ExistingUserUpdated | app/seed.py:57-71 | the role is set; digest and flag change only when a non-empty password does not verify |
| Seed.SettledUpsertIsNoop | app/seed.py:57-71 | an upsert of a settled account changes nothing, whatever salt it draws |
| Seed.UpsertKeepsOthers | app/seed.py:45-71 | an upsert leaves every other name's account untouched |
| Seed.SeedUsers | app/seed.py:74-94 | after seeding, the player account is settled |
| Seed.SeedUsersIdempotent | app/seed.py:74-94 | seeding twice is seeding once when the two usernames differ once trimmed |
| Seed.DefaultSeedIdempotent | app/seed.py:75-79 | with the default environment, seeding twice is seeding once |
| Lifecycle.OnlyOwnChangeClearsFlag | app/routers/auth.py:95-116 | only the account's own accepted password change clears its flag |
| Lifecycle.OnlyMasterSetsFlag | app/routers/master.py:95-162 | only a master's creation of the account or reset of its password sets the flag |
| Lifecycle.RolesAndNamesAreFixed | app/models.py:12-14 | no route changes a role or a username |
| Lifecycle.OnlyDeletionRemoves | app/routers/master.py:139-141 | only the deletion of an account removes it |
| Lifecycle.RunKeepsAccount | app/routers/master.py:115-143 | across any run without its deletion, an account survives with its role and name |
| Lifecycle.NewAccountsPending | app/routers/master.py:95-100 | every account a route creates has a pending password change |
| Lifecycle.PendingChangeSurvives | app/routers/auth.py:115-116 | a pending change survives any run with no password-change submission |

## Left out

- app/db.py, app/config.py and app/main.py are not part of this model. They are engine and session construction, environment reading and router mounting. The one fact used from app/db.py is that sessions do not autoflush (see Findings).
- create_master.py and cleanup_cards.py are not part of this model. They are one-shot scripts whose rules are covered by `Seed` and `Models`.
- `slugify` in import_cards.py is never called, so it is not modelled.
- `login_page` only renders a template, so it is not modelled.
- Templates and markup are not modelled. A page is its template name plus the values passed to it.
- FastAPI's 422 answer for a form field that does not parse as an integer is not modelled. Integer fields arrive already parsed.
- The cryptography is not modelled: passlib's `CryptContext`, itsdangerous's `URLSafeTimedSerializer`, PBKDF2-HMAC and the timing behaviour of `hmac.compare_digest`. Each is a parameter. Properties that need a round trip require it.
- `secrets.token_bytes` and `secrets.choice` are not modelled; salts and draws are parameters.
- passlib cannot identify the digests app/seed.py writes. Logging in against a seeded account therefore makes `verify` raise, which the model shows as a 500 (`None` from `PassHasher.verify`). The model does not assume which answer passlib gives.
- Unicode case mapping is not modelled: `lower` and `upper` are ASCII-only. `order_key` and `username.upper()` differ from Python on non-ASCII letters.
- `unicodedata` NFD accent stripping and `str.title` are not modelled; they are parameters of `CardImport`.
- `int()` accepts only ASCII digits here. Python also accepts other Unicode decimal digits in a digest's iteration field.
- `int()`'s digit limit is CPython's default of 4300 (`Decimal.MaxStrDigits`, from Python 3.11). A different `PYTHONINTMAXSTRDIGITS` setting, or an older interpreter without the limit, is not modelled. `str()` has the same limit, but every number the model formats is an accepted iteration count or a stored id, both far shorter.
- The database is taken to be the default SQLite one. A path id outside SQLite's 64-bit INTEGER range makes the sqlite3 driver raise `OverflowError`, which the model answers with a 500. Ids the app stores itself are assumed to be in that range, and so are session ids, which only the app signs. Key allocation past the largest INTEGER is not modelled.
- Column lengths such as `String(50)` are not modelled, and neither are the database errors they can cause.
- Key allocation is a counter that never reuses a key (PostgreSQL sequences). SQLite without `AUTOINCREMENT` can reuse the highest deleted id. A fourteen-day session token of a deleted player could then name the next player created. The lifecycle lemmas do not rely on keys never being reused.
- The `User` column defaults (`role = "player"`, `force_password_change = True`) are not exercised: every insert passes both explicitly.
- The second `POST /player/{user_id}/update` handler (app/routers/player.py:241-309) is not modelled. The framework always dispatches to the first one. The shadowed copy differs: it sends non-masters to `/player` and does not check that the target is a player.
- `_get_or_create_character` commits on its own before the update commits again. The model shows one final state per request.
- Seed.SeedUsers: the second upsert is modelled as seeing the first one's insert. With autoflush off and both usernames equal, the session would hold two new users, and their commit would fail on the unique username. app/seed.py itself never commits, and nothing in the repository calls `seed_users`.
- Seed.SeedUsers: the contract states that only the player account is settled. With equal usernames the admin account is overwritten, so the admin account's state is stated only by `Seed.SeedUsersIdempotent` under distinct names.
- The database collation is taken to be code-point order (SQLite's `BINARY`). Rows with equal `order_name` come out in an order SQL leaves unspecified. The model fixes one and proves that only the names shown are independent of it (`Catalog.ListingIgnoresTableOrder`).
- The order `os.listdir` returns names in is taken as given by the listing parameter. `os.path.isdir` is "the folder is a key of the listing".
- The importer's `print` output is not modelled.
- CardImport.ImagePath: it always ends in lower-case `.png`, even for a file named `x.PNG`. The model keeps this; the path then names a file that does not exist on a case-sensitive file system.
- Concurrency is not modelled. Two first visits racing to create a character rest on the unique `user_id` index, which `Models.Valid` represents.

## Findings

| source | as written | input that shows it | evidently intended | confidence | as-written member | corrected member |
|---|---|---|---|---|---|---|
| import_cards.py:47-71 | `upsert_card` queries the database while the session does not autoflush (app/db.py:25-30), so it never sees cards added earlier in the same run; two files with one identity both insert | folder `armas/combatente/comum` holding `a.png` and `a.PNG`, on an empty table: two rows with identity (`arma`, `comum`, `combatente`, `a`), the commit fails on `uq_card_identity` and nothing is imported | one card per identity and a committed run | not executed | CardImport.ImportAsWritten, CardImport.SameStemTwiceRejected | CardImport.ImportWeapons, CardImport.SameStemTwiceMerged |

=== FILE: access.dfy ===
/**
 * Who is calling, and may they: the session-to-user lookups and the role
 * checks of app/deps.py and of the routers. The routers and app/deps.py
 * normalise the role differently, and the model keeps each check as written.
 */
module Access {
  import opened Wrappers
  import Text
  import Models
  import Http
  import Session

  /** The session's user id, when it is truthy: Python's `if not user_id` treats 0 like no session. */
  function SessionUserId(signer: Session.Signer, req: Http.Request): (r: Option<int>)
    ensures r.Some? <==> Session.ReadSession(signer, req).Some? && Session.ReadSession(signer, req).value != 0
    ensures r.Some? ==> r.value == Session.ReadSession(signer, req).value
  {
    match Session.ReadSession(signer, req)
    case None => None
    case Some(id) => if id == 0 then None else Some(id)
  }

  /**
   * `_get_logged_user` of the routers: the user row the session names, if
   * the session is valid, its id truthy and the row still exists.
   */
  function LoggedUser(signer: Session.Signer, req: Http.Request, st: Models.Store): (r: Option<Models.User>)
    ensures r.Some? <==> SessionUserId(signer, req).Some? && SessionUserId(signer, req).value in st.users
    ensures r.Some? ==> r.value == st.users[SessionUserId(signer, req).value]
  {
    match SessionUserId(signer, req)
    case None => None
    case Some(id) => Models.GetUser(st, id)
  }

  /** A valid token for a deleted account identifies nobody. */
  lemma DeletedUserIsAnonymous(signer: Session.Signer, req: Http.Request, st: Models.Store, id: int)
    requires Models.Valid(st) && id in st.users
    requires Session.ReadSession(signer, req) == Some(id)
    ensures LoggedUser(signer, req, Models.DeleteUser(st, id)).None?
  {
  }

  /**
   * `get_current_user`: the stored user the session names, or 401 when the
   * session is missing, invalid, falsy or names no user.
   */
  function GetCurrentUser(signer: Session.Signer, req: Http.Request, st: Models.Store): (r: Result<Models.User>)
    ensures r.Failure? ==> r.status == 401
  {
    match LoggedUser(signer, req, st)
    case None => Failure(401)
    case Some(u) => Success(u)
  }

  /** The dependency and the routers' helper resolve a session to the same user, and fail on the same requests. */
  lemma CurrentUserAgreesWithLoggedUser(signer: Session.Signer, req: Http.Request, st: Models.Store)
    ensures GetCurrentUser(signer, req, st).Success? <==> LoggedUser(signer, req, st).Some?
    ensures GetCurrentUser(signer, req, st).Success? ==> GetCurrentUser(signer, req, st).value == LoggedUser(signer, req, st).value
  {
  }

  // ---------------------------------------------------------------------------
  // role checks

  /** `user.role != "master"` in app/deps.py: case-sensitive, no trimming. */
  predicate IsMasterExact(role: string) {
    role == Models.MasterRole
  }

  /** `(role or "").lower() == "master"` in the master and player routers. */
  predicate IsMasterCaseless(role: string) {
    Text.Lower(role) == Models.MasterRole
  }

  /** `(role or "").strip().lower() == "master"` at `/me`. */
  predicate IsMasterLoose(role: string) {
    Text.Lower(Text.Strip(role)) == Models.MasterRole
  }

  /** `(role or "").lower() == "player"`, how the master routes recognise a player account. */
  predicate IsPlayerCaseless(role: string) {
    Text.Lower(role) == Models.PlayerRole
  }

  /** Each check accepts everything the stricter one does. */
  lemma RoleChecksNested(role: string)
    ensures IsMasterExact(role) ==> IsMasterCaseless(role)
    ensures IsMasterCaseless(role) ==> IsMasterLoose(role)
  {
    if IsMasterExact(role) {
      MasterRoleIsLowered();
    }
    if IsMasterCaseless(role) {
      CaselessMasterIsTrimmed(role);
    }
  }

  lemma MasterRoleIsLowered()
    ensures Text.Lower(Models.MasterRole) == Models.MasterRole
  {
    assert Text.IsLowered(Models.MasterRole);
    Text.LowerOfLowered(Models.MasterRole);
  }

  /** A role that lower-cases to `"master"` starts with `m` and ends with `r`, so trimming leaves it alone. */
  lemma CaselessMasterIsTrimmed(role: string)
    requires IsMasterCaseless(role)
    ensures Text.Strip(role) == role
  {
    assert |role| == 6;
    assert Text.LowerChar(role[0]) == 'm';
    assert Text.LowerChar(role[5]) == 'r';
  }

  /** ... and the converse fails: `"Master"` passes the routers but not app/deps.py, `" master"` passes only `/me`. */
  lemma RoleChecksDiffer()
    ensures IsMasterCaseless("Master") && !IsMasterExact("Master")
    ensures IsMasterLoose(" master") && !IsMasterCaseless(" master")
  {
    assert Text.Lower("Master")[0] == 'm';
    assert Text.Lower("Master") == "master";
    assert Text.Strip(" master") == "master" by {
      assert Text.LeadingCount(" master", Text.IsSpace) == 1 by {
        assert " master"[1..] == "master";
      }
    }
    assert Text.IsLowered("master");
    Text.LowerOfLowered("master");
    assert Text.Lower(" master")[0] == ' ';
  }

  /**
   * `require_master`: 401 exactly when `get_current_user` fails, which it
   * does before any role is looked at; then 403 unless the role is exactly
   * `"master"`.
   */
  function RequireMaster(signer: Session.Signer, req: Http.Request, st: Models.Store): (r: Result<Models.User>)
    ensures r.Success? ==> IsMasterExact(r.value.role) && LoggedUser(signer, req, st) == Some(r.value)
  {
    var u :- GetCurrentUser(signer, req, st);
    if !IsMasterExact(u.role) then Failure(403) else Success(u)
  }

  /** Authentication is checked before authorization: an anonymous caller gets 401, never 403. */
  lemma UnauthenticatedBeforeForbidden(signer: Session.Signer, req: Http.Request, st: Models.Store)
    ensures RequireMaster(signer, req, st) == Failure(401) <==> LoggedUser(signer, req, st).None?
    ensures RequireMaster(signer, req, st) == Failure(403)
            <==> LoggedUser(signer, req, st).Some? && !IsMasterExact(LoggedUser(signer, req, st).value.role)
  {
  }

  /**
   * `_require_master` of app/routers/master.py and app/routers/player.py:
   * the logged user when its lower-cased role is `"master"`, else `None`.
   */
  function RequireMasterCaseless(signer: Session.Signer, req: Http.Request, st: Models.Store): (r: Option<Models.User>)
    ensures r.Some? ==> r == LoggedUser(signer, req, st) && IsMasterCaseless(r.value.role)
    ensures r.None? ==> LoggedUser(signer, req, st).None? || !IsMasterCaseless(LoggedUser(signer, req, st).value.role)
  {
    var me :- LoggedUser(signer, req, st);
    if IsMasterCaseless(me.role) then Some(me) else None
  }

  /** Whoever app/deps.py admits as master, the routers admit too. */
  lemma DepsMasterIsRouterMaster(signer: Session.Signer, req: Http.Request, st: Models.Store)
    ensures RequireMaster(signer, req, st).Success?
            ==> RequireMasterCaseless(signer, req, st) == Some(RequireMaster(signer, req, st).value)
  {
    if RequireMaster(signer, req, st).Success? {
      RoleChecksNested(RequireMaster(signer, req, st).value.role);
    }
  }
}

=== FILE: auth_routes.dfy ===
/**
 * The account routes of app/routers/auth.py: logging in, the `/me`
 * dispatcher, the forced password change and logging out. Each handler is
 * a function from the request and the store to the response and the store
 * its transaction commits.
 */
module AuthRoutes {
  import opened Wrappers
  import Text
  import Models
  import Http
  import Session
  import Access

  const BadCredentials := "Usuário ou senha incorretos."
  const PasswordTooShort := "A senha deve ter pelo menos 8 caracteres."
  const PasswordsDiffer := "As senhas não conferem."
  const MinPasswordLength := 8

  /** The single answer to every failed login, whatever went wrong. */
  const LoginRejected := Http.Render(401, Http.LoginPage, Http.ErrorNotice(BadCredentials))

  /**
   * `POST /login`: the user with exactly this username, if its password
   * verifies, gets a session and a redirect to `/me`. A stored hash passlib
   * cannot identify makes `verify` raise, and the request fails with 500.
   */
  function Login(hasher: Session.PassHasher, signer: Session.Signer, req: Http.Request, st: Models.Store,
                 username: string, password: string): (o: Http.Outcome)
    requires Models.Valid(st)
    ensures o.store == st
  {
    match Models.FindByName(st, username)
    case None => Http.Outcome(LoginRejected, st)
    case Some(u) =>
      match hasher.verify(password, u.passwordHash)
      case None => Http.Outcome(Http.ServerError, st)
      case Some(ok) =>
        if !ok then Http.Outcome(LoginRejected, st)
        else Http.Outcome(Http.Response(303, Http.Redirect("/me"), Session.SetSession(signer, req, u.id)), st)
  }

  /** An unknown username and a wrong password are indistinguishable to the client. */
  lemma LoginDoesNotRevealUsernames(hasher: Session.PassHasher, signer: Session.Signer, req: Http.Request, st: Models.Store,
                                    unknown: string, known: string, password: string, guess: string)
    requires Models.Valid(st)
    requires Models.FindByName(st, unknown).None?
    requires Models.FindByName(st, known).Some?
    requires hasher.verify(guess, Models.FindByName(st, known).value.passwordHash) == Some(false)
    ensures Login(hasher, signer, req, st, unknown, password).response
            == Login(hasher, signer, req, st, known, guess).response
            == Http.Render(401, Http.LoginPage, Http.ErrorNotice(BadCredentials))
  {
  }

  /**
   * A successful login answers 303 to `/me` with a session for exactly the
   * user named, and a request carrying that cookie within fourteen days is
   * that user's.
   */
  lemma LoginEstablishesSession(hasher: Session.PassHasher, signer: Session.Signer, req: Http.Request, st: Models.Store,
                                username: string, password: string, later: Http.Request)
    requires Models.Valid(st)
    requires Models.FindByName(st, username).Some?
    requires hasher.verify(password, Models.FindByName(st, username).value.passwordHash) == Some(true)
    requires later.sessionCookie == Session.NextCookie(Login(hasher, signer, req, st, username, password).response.cookie, req.sessionCookie)
    requires req.now <= later.now <= req.now + Session.SessionMaxAge
    requires Session.SignerRoundTrips(signer, Models.FindByName(st, username).value.id, req.now, later.now)
    ensures Login(hasher, signer, req, st, username, password).response.status == 303
    ensures Login(hasher, signer, req, st, username, password).response.body == Http.Redirect("/me")
    ensures Access.LoggedUser(signer, later, st) == Models.FindByName(st, username)
  {
    var u := Models.FindByName(st, username).value;
    Session.SessionRoundTrip(signer, req, u.id, later);
  }

  /**
   * `GET /me`: anonymous callers to `/login`; a pending password change
   * first, before the role is looked at; then `/master` for a role that is
   * `"master"` once trimmed and lower-cased, and `/player` for anything else.
   */
  function Me(signer: Session.Signer, req: Http.Request, st: Models.Store): (r: Http.Response)
    ensures r.status == 303 && r.cookie == Http.KeepCookies
    ensures Access.LoggedUser(signer, req, st).None? ==> r == Http.SeeOther("/login")
    ensures Access.LoggedUser(signer, req, st).Some? && Access.LoggedUser(signer, req, st).value.forcePasswordChange
            ==> r == Http.SeeOther("/change-password")
    ensures Access.LoggedUser(signer, req, st).Some? && !Access.LoggedUser(signer, req, st).value.forcePasswordChange
            ==> && (r == Http.SeeOther("/master") <==> Access.IsMasterLoose(Access.LoggedUser(signer, req, st).value.role))
                && (r == Http.SeeOther("/master") || r == Http.SeeOther("/player"))
  {
    match Access.LoggedUser(signer, req, st)
    case None => Http.SeeOther("/login")
    case Some(u) =>
      if u.forcePasswordChange then Http.SeeOther("/change-password")
      else if Access.IsMasterLoose(u.role) then Http.SeeOther("/master")
      else Http.SeeOther("/player")
  }

  /**
   * `/me` sends a user to `/master` exactly when the master routes will admit
   * them, as long as the stored role carries no surrounding whitespace.
   */
  lemma MeAgreesWithMasterGate(signer: Session.Signer, req: Http.Request, st: Models.Store)
    requires Access.LoggedUser(signer, req, st).Some?
    requires !Access.LoggedUser(signer, req, st).value.forcePasswordChange
    requires Text.Strip(Access.LoggedUser(signer, req, st).value.role) == Access.LoggedUser(signer, req, st).value.role
    ensures Me(signer, req, st) == Http.SeeOther("/master") <==> Access.RequireMasterCaseless(signer, req, st).Some?
  {
  }

  /** With a role of `" master"`, `/me` sends the user to `/master`, which turns them away. */
  lemma PaddedMasterRoleBounces(signer: Session.Signer, req: Http.Request, st: Models.Store)
    requires Access.LoggedUser(signer, req, st).Some?
    requires !Access.LoggedUser(signer, req, st).value.forcePasswordChange
    requires Access.LoggedUser(signer, req, st).value.role == " master"
    ensures Me(signer, req, st) == Http.SeeOther("/master")
    ensures Access.RequireMasterCaseless(signer, req, st).None?
  {
    Access.RoleChecksDiffer();
  }

  /** `GET /change-password`: the form only while a change is pending. */
  function ChangePasswordForm(signer: Session.Signer, req: Http.Request, st: Models.Store): (r: Http.Response)
    ensures Access.LoggedUser(signer, req, st).None? ==> r == Http.SeeOther("/login")
    ensures Access.LoggedUser(signer, req, st).Some? && Access.LoggedUser(signer, req, st).value.forcePasswordChange
            ==> r == Http.Render(200, Http.ChangePasswordPage, Http.NoNotice)
    ensures r.body.Page? ==> Access.LoggedUser(signer, req, st).Some? && Access.LoggedUser(signer, req, st).value.forcePasswordChange
  {
    match Access.LoggedUser(signer, req, st)
    case None => Http.SeeOther("/login")
    case Some(u) =>
      if !u.forcePasswordChange then Http.SeeOther("/me")
      else Http.Render(200, Http.ChangePasswordPage, Http.NoNotice)
  }

  /**
   * `POST /change-password`: for a user with a pending change, both fields
   * trimmed; fewer than eight characters, then a mismatch, answer 400;
   * otherwise the trimmed password is hashed with `salt`, the flag cleared,
   * and the session reissued.
   */
  function ChangePassword(hasher: Session.PassHasher, signer: Session.Signer, req: Http.Request, st: Models.Store,
                          newPassword: string, confirmPassword: string, salt: Session.Salt): (o: Http.Outcome)
    requires Models.Valid(st)
    ensures Models.Valid(o.store)
    ensures Access.LoggedUser(signer, req, st).None? ==> o == Http.Outcome(Http.SeeOther("/login"), st)
    ensures o.store.users.Keys == st.users.Keys && o.store.characters == st.characters
  {
    match Access.LoggedUser(signer, req, st)
    case None => Http.Outcome(Http.SeeOther("/login"), st)
    case Some(u) =>
      if !u.forcePasswordChange then Http.Outcome(Http.SeeOther("/me"), st)
      else
        var pw := Text.Strip(newPassword);
        var confirm := Text.Strip(confirmPassword);
        if |pw| < MinPasswordLength then
          Http.Outcome(Http.Render(400, Http.ChangePasswordPage, Http.ErrorNotice(PasswordTooShort)), st)
        else if pw != confirm then
          Http.Outcome(Http.Render(400, Http.ChangePasswordPage, Http.ErrorNotice(PasswordsDiffer)), st)
        else
          var st' := Models.UpdateUser(st, u.(passwordHash := hasher.hash(pw, salt), forcePasswordChange := false));
          Http.Outcome(Http.Response(303, Http.Redirect("/me"), Session.SetSession(signer, req, u.id)), st')
  }

  /** Both change-password routes send a user with nothing pending back to `/me`, changing nothing. */
  lemma NothingPendingGoesToMe(hasher: Session.PassHasher, signer: Session.Signer, req: Http.Request, st: Models.Store,
                               newPassword: string, confirmPassword: string, salt: Session.Salt)
    requires Models.Valid(st)
    requires Access.LoggedUser(signer, req, st).Some? && !Access.LoggedUser(signer, req, st).value.forcePasswordChange
    ensures ChangePasswordForm(signer, req, st) == Http.SeeOther("/me")
    ensures ChangePassword(hasher, signer, req, st, newPassword, confirmPassword, salt) == Http.Outcome(Http.SeeOther("/me"), st)
  {
  }

  /** A rejected submission answers 400 and changes no account; the length check comes before the match check. */
  lemma RejectedChangeKeepsAccount(hasher: Session.PassHasher, signer: Session.Signer, req: Http.Request, st: Models.Store,
                                   newPassword: string, confirmPassword: string, salt: Session.Salt)
    requires Models.Valid(st)
    requires Access.LoggedUser(signer, req, st).Some? && Access.LoggedUser(signer, req, st).value.forcePasswordChange
    ensures var o := ChangePassword(hasher, signer, req, st, newPassword, confirmPassword, salt);
            && (|Text.Strip(newPassword)| < MinPasswordLength
                ==> o == Http.Outcome(Http.Render(400, Http.ChangePasswordPage, Http.ErrorNotice(PasswordTooShort)), st))
            && (|Text.Strip(newPassword)| >= MinPasswordLength && Text.Strip(newPassword) != Text.Strip(confirmPassword)
                ==> o == Http.Outcome(Http.Render(400, Http.ChangePasswordPage, Http.ErrorNotice(PasswordsDiffer)), st))
  {
  }

  /**
   * An accepted submission clears the flag, stores a hash the trimmed
   * password verifies against, reissues the session for the same id, and
   * touches no other account.
   */
  lemma AcceptedChangeClearsFlag(hasher: Session.PassHasher, signer: Session.Signer, req: Http.Request, st: Models.Store,
                                 newPassword: string, confirmPassword: string, salt: Session.Salt)
    requires Models.Valid(st)
    requires Access.LoggedUser(signer, req, st).Some? && Access.LoggedUser(signer, req, st).value.forcePasswordChange
    requires |Text.Strip(newPassword)| >= MinPasswordLength && Text.Strip(newPassword) == Text.Strip(confirmPassword)
    requires Session.HasherRoundTrips(hasher, Text.Strip(newPassword), salt)
    ensures var u := Access.LoggedUser(signer, req, st).value;
            var o := ChangePassword(hasher, signer, req, st, newPassword, confirmPassword, salt);
            && o.response == Http.Response(303, Http.Redirect("/me"), Session.SetSession(signer, req, u.id))
            && !o.store.users[u.id].forcePasswordChange
            && hasher.verify(Text.Strip(newPassword), o.store.users[u.id].passwordHash) == Some(true)
            && o.store.users[u.id].role == u.role && o.store.users[u.id].username == u.username
            && (forall id :: id in st.users && id != u.id ==> o.store.users[id] == st.users[id])
  {
  }

  /** `GET /logout`: always the same answer, clearing the session, whoever asks. */
  function Logout(): (r: Http.Response)
    ensures r.status == 303 && r.body == Http.Redirect("/login")
    ensures r.cookie == Session.ClearSession()
  {
    Http.Response(303, Http.Redirect("/login"), Session.ClearSession())
  }

  /** After logging out, every handler sees an anonymous caller. */
  lemma LogoutEndsSession(signer: Session.Signer, current: Option<string>, later: Http.Request, st: Models.Store)
    requires later.sessionCookie == Session.NextCookie(Logout().cookie, current)
    ensures Access.LoggedUser(signer, later, st).None?
    ensures Me(signer, later, st) == Http.SeeOther("/login")
  {
  }
}

=== FILE: card_import.dfy ===
/**
 * The weapon-card importer of import_cards.py: every `.png` file under
 * `app/static/cards/armas/<class>/<rarity>/` becomes or refreshes one row
 * of the `cards` table, keyed by `uq_card_identity`.
 *
 * The directory tree is a parameter: a map from each (class, rarity)
 * folder that exists to the names `os.listdir` returns for it. Unicode
 * normalisation and `str.title` are parameters too.
 */
module CardImport {
  import opened Wrappers
  import Text
  import Models

  const ImageExt := ".png"
  const WeaponType := "arma"
  const ImageRoot := "/static/cards/armas/"
  const RarityOrder: seq<string> := ["comum", "incomum", "rara", "epica", "lendaria", "mitica"]
  const WeaponClasses: seq<string> := ["combatente", "potencializador", "estrategico", "especialista"]

  /** `strip_accents`: NFD decomposition with the combining marks dropped. */
  type AccentStripper = string -> string

  /** Python's `str.title`. */
  type TitleCase = string -> string

  /** `order_key(name)`: accents dropped, lower-cased, trimmed. */
  function OrderKey(stripAccents: AccentStripper, name: string): (r: string)
    ensures Text.Strip(r) == r
    ensures Text.IsLowered(r)
  {
    Text.StripIdempotent(Text.Lower(stripAccents(name)));
    Text.LowerIsLowered(stripAccents(name));
    Text.StripKeepsLowered(Text.Lower(stripAccents(name)));
    Text.Strip(Text.Lower(stripAccents(name)))
  }

  /**
   * An order key is already in normal form: lower-casing and trimming it
   * again changes nothing, so two names share a key exactly when their
   * accent-free, lower-cased, trimmed forms agree.
   */
  lemma OrderKeyIsNormal(stripAccents: AccentStripper, a: string, b: string)
    ensures Text.Strip(Text.Lower(OrderKey(stripAccents, a))) == OrderKey(stripAccents, a)
    ensures OrderKey(stripAccents, a) == OrderKey(stripAccents, b)
            <==> Text.Strip(Text.Lower(stripAccents(a))) == Text.Strip(Text.Lower(stripAccents(b)))
  {
    Text.LowerOfLowered(OrderKey(stripAccents, a));
  }

  // ---------------------------------------------------------------------------
  // file names

  /** `fname.lower().endswith(".png")`. */
  predicate IsPng(fname: string) {
    Text.EndsWith(Text.Lower(fname), ImageExt)
  }

  /** The position of the last `c` in `s`, as `str.rfind`. */
  function LastIndex(s: string, c: char): (r: Option<nat>)
    ensures r.Some? ==> r.value < |s| && s[r.value] == c && c !in s[r.value + 1..]
    ensures r.None? ==> c !in s
  {
    if s == [] then None
    else if s[|s| - 1] == c then Some(|s| - 1)
    else LastIndex(s[..|s| - 1], c)
  }

  /**
   * `os.path.splitext(p)[0]` on POSIX: the text before the last dot of the
   * last path component, unless only dots precede that dot (`".png"` is
   * all stem).
   */
  function Stem(p: string): (r: string)
    ensures |r| <= |p| && r == p[..|r|]
  {
    var start := match LastIndex(p, '/') case Some(k) => k + 1 case None => 0;
    match LastIndex(p, '.')
    case None => p
    case Some(dot) =>
      if start <= dot && exists i :: start <= i < dot && p[i] != '.' then p[..dot] else p
  }

  /** A `.png` name whose first part holds more than dots loses exactly its four-character extension. */
  lemma StemOfPng(fname: string)
    requires IsPng(fname) && '/' !in fname
    requires exists i :: 0 <= i < |fname| - 4 && fname[i] != '.'
    ensures Stem(fname) == fname[..|fname| - 4]
  {
    var n := |fname|;
    assert Text.Lower(fname)[n - 4] == '.';
    assert fname[n - 4] == '.';
    forall k | n - 4 < k < n ensures fname[k] != '.' {
      assert Text.Lower(fname)[k] == ImageExt[k - (n - 4)];
    }
    assert '.' !in fname[n - 3..];
    LastIndexOfSuffix(fname, n - 4, '.');
  }

  lemma LastIndexOfSuffix(s: string, k: nat, c: char)
    requires k < |s| && s[k] == c && c !in s[k + 1..]
    ensures LastIndex(s, c) == Some(k)
    decreases |s|
  {
    if k < |s| - 1 {
      assert s[|s| - 1] in s[k + 1..];
      assert s[..|s| - 1][k + 1..] == s[k + 1..|s| - 1];
      LastIndexOfSuffix(s[..|s| - 1], k, c);
    }
  }

  /** A name made of dots and `.png` keeps its whole name as the stem: `".png"` gives the slug `".png"`. */
  lemma DotsOnlyKeepName(fname: string)
    requires '/' !in fname
    requires forall i :: 0 <= i < |fname| - 4 ==> fname[i] == '.'
    requires IsPng(fname)
    ensures Stem(fname) == fname
  {
  }

  /** `slug.replace("_", " ").strip().title()`. */
  function DisplayName(title: TitleCase, slug: string): string {
    title(Text.Strip(Text.ReplaceChar(slug, '_', ' ')))
  }

  /** `/static/cards/armas/{class}/{rarity}/{slug}.png`, whatever the case of the file's own extension. */
  function ImagePath(classType: string, rarity: string, slug: string): (r: string)
    ensures Text.EndsWith(r, ImageExt)
  {
    ImageRoot + classType + "/" + rarity + "/" + slug + ImageExt
  }

  // ---------------------------------------------------------------------------
  // upsert

  /** The first row with the given identity, as `.first()` returns it. */
  function FindKey(rows: seq<Models.Card>, key: Models.CardKey): (r: Option<nat>)
    ensures r.Some? ==> r.value < |rows| && Models.KeyOf(rows[r.value]) == key
    ensures r.Some? ==> forall i :: 0 <= i < r.value ==> Models.KeyOf(rows[i]) != key
    ensures r.None? ==> forall i :: 0 <= i < |rows| ==> Models.KeyOf(rows[i]) != key
  {
    if rows == [] then None
    else if Models.KeyOf(rows[0]) == key then Some(0)
    else match FindKey(rows[1..], key)
      case None => None
      case Some(k) => Some(k + 1)
  }

  /** What `upsert_card` does once its query has answered `found`: refresh that row, or add a new one. */
  function Apply(t: Models.CardTable, found: Option<nat>, key: Models.CardKey, name: string, orderName: string, imagePath: string)
    : (r: (Models.CardTable, bool))
    requires found.Some? ==> found.value < |t.rows| && Models.KeyOf(t.rows[found.value]) == key
    ensures r.1 <==> found.None?
    ensures |r.0.rows| == |t.rows| + (if r.1 then 1 else 0)
    ensures r.0.nextId == t.nextId + (if r.1 then 1 else 0)
    ensures forall i :: 0 <= i < |t.rows| && Some(i) != found ==> r.0.rows[i] == t.rows[i]
    ensures var k := if r.1 then |t.rows| else found.value;
            && Models.KeyOf(r.0.rows[k]) == key
            && r.0.rows[k].name == name && r.0.rows[k].orderName == orderName && r.0.rows[k].imagePath == imagePath
            && (r.1 ==> r.0.rows[k].id == t.nextId)
            && (!r.1 ==> r.0.rows[k].id == t.rows[k].id)
    ensures KeysOf(r.0.rows) == KeysOf(t.rows) + (if r.1 then [key] else [])
  {
    match found
    case Some(i) => (t.(rows := t.rows[i := t.rows[i].(name := name, orderName := orderName, imagePath := imagePath)]), false)
    case None =>
      var c := Models.Card(t.nextId, key.cardType, key.rarity, key.classType, name, orderName, key.slug, imagePath);
      (t.(rows := t.rows + [c], nextId := t.nextId + 1), true)
  }

  /**
   * `upsert_card` against rows its query can see: the first row with the
   * identity refreshed, or the card added. That row then carries the given
   * name, its order key and the image path; a refreshed row keeps its id,
   * and every other row is left as it was. The table keeps meeting
   * `uq_card_identity`, which leaves rows without a class unconstrained.
   */
  function UpsertCard(stripAccents: AccentStripper, t: Models.CardTable, key: Models.CardKey, name: string, imagePath: string)
    : (r: (Models.CardTable, bool))
    requires Models.SatisfiesIdentityConstraint(t.rows) && Models.IdsFresh(t)
    ensures Models.SatisfiesIdentityConstraint(r.0.rows) && Models.IdsFresh(r.0)
    ensures r.1 <==> (forall i :: 0 <= i < |t.rows| ==> Models.KeyOf(t.rows[i]) != key)
    ensures KeySet(r.0.rows) == KeySet(t.rows) + {key}
    ensures |r.0.rows| == |t.rows| + (if r.1 then 1 else 0)
    ensures exists k :: UpsertedAt(t.rows, r.0.rows, k, key, name, OrderKey(stripAccents, name), imagePath)
    ensures forall i :: 0 <= i < |t.rows| && Models.KeyOf(t.rows[i]) != key ==> r.0.rows[i] == t.rows[i]
  {
    var orderName := OrderKey(stripAccents, name);
    ApplyAfterSearch(t, key, name, orderName, imagePath);
    Apply(t, FindKey(t.rows, key), key, name, orderName, imagePath)
  }

  /**
   * Row `k` of `after` is the upserted card: it has the identity and the new
   * name, order key and image path; no earlier row of `before` has the
   * identity; a row that was already there keeps its id; every other row of
   * `before` is unchanged.
   */
  predicate UpsertedAt(before: seq<Models.Card>, after: seq<Models.Card>, k: int, key: Models.CardKey,
                       name: string, orderName: string, imagePath: string) {
    && |before| <= |after| && 0 <= k < |after|
    && Models.KeyOf(after[k]) == key
    && after[k].name == name && after[k].orderName == orderName && after[k].imagePath == imagePath
    && (k < |before| ==> after[k].id == before[k].id)
    && (forall i :: 0 <= i < k && i < |before| ==> Models.KeyOf(before[i]) != key)
    && (forall i :: 0 <= i < |before| && i != k ==> after[i] == before[i])
  }

  /** An upsert whose query searched the whole table: the facts `UpsertCard` promises, for any order key. */
  lemma ApplyAfterSearch(t: Models.CardTable, key: Models.CardKey, name: string, orderName: string, imagePath: string)
    requires Models.SatisfiesIdentityConstraint(t.rows) && Models.IdsFresh(t)
    ensures var found := FindKey(t.rows, key);
            var r := Apply(t, found, key, name, orderName, imagePath);
            && Models.SatisfiesIdentityConstraint(r.0.rows) && Models.IdsFresh(r.0)
            && (r.1 <==> (forall i :: 0 <= i < |t.rows| ==> Models.KeyOf(t.rows[i]) != key))
            && KeySet(r.0.rows) == KeySet(t.rows) + {key}
            && |r.0.rows| == |t.rows| + (if r.1 then 1 else 0)
            && (exists k :: UpsertedAt(t.rows, r.0.rows, k, key, name, orderName, imagePath))
            && (forall i :: 0 <= i < |t.rows| && Models.KeyOf(t.rows[i]) != key ==> r.0.rows[i] == t.rows[i])
  {
    var found := FindKey(t.rows, key);
    var r := Apply(t, found, key, name, orderName, imagePath);
    ApplyKeepsConstraint(t, found, key, name, orderName, imagePath);
    ApplyKeepsIdsFresh(t, found, key, name, orderName, imagePath);
    KeySetOfApply(t, found, key, name, orderName, imagePath);
    var k := if r.1 then |t.rows| else found.value;
    assert UpsertedAt(t.rows, r.0.rows, k, key, name, orderName, imagePath);
  }

  /** The unique index still holds after an upsert whose query searched the whole table. */
  lemma ApplyKeepsConstraint(t: Models.CardTable, found: Option<nat>, key: Models.CardKey, name: string, orderName: string, imagePath: string)
    requires Models.SatisfiesIdentityConstraint(t.rows)
    requires found == FindKey(t.rows, key)
    ensures Models.SatisfiesIdentityConstraint(Apply(t, found, key, name, orderName, imagePath).0.rows)
  {
    var r := Apply(t, found, key, name, orderName, imagePath).0.rows;
    forall i, j | 0 <= i < j < |r| && r[i].classType.Some? && r[j].classType.Some?
      ensures Models.KeyOf(r[i]) != Models.KeyOf(r[j])
    {
      if j == |t.rows| {
        assert Models.KeyOf(t.rows[i]) != key;
      } else if Some(i) == found {
        assert Models.KeyOf(r[j]) == Models.KeyOf(t.rows[j]);
      } else if Some(j) == found {
        assert Models.KeyOf(r[i]) == Models.KeyOf(t.rows[i]);
      } else {
        assert r[i] == t.rows[i] && r[j] == t.rows[j];
      }
    }
  }

  lemma ApplyKeepsIdsFresh(t: Models.CardTable, found: Option<nat>, key: Models.CardKey, name: string, orderName: string, imagePath: string)
    requires Models.IdsFresh(t)
    requires found.Some? ==> found.value < |t.rows| && Models.KeyOf(t.rows[found.value]) == key
    ensures Models.IdsFresh(Apply(t, found, key, name, orderName, imagePath).0)
  {
    var r := Apply(t, found, key, name, orderName, imagePath).0;
    forall i | 0 <= i < |r.rows| ensures 1 <= r.rows[i].id < r.nextId {
      if i < |t.rows| {
        assert r.rows[i].id == t.rows[i].id;
      }
    }
    forall i, j | 0 <= i < j < |r.rows| ensures r.rows[i].id != r.rows[j].id {
      if j < |t.rows| {
        assert r.rows[i].id == t.rows[i].id && r.rows[j].id == t.rows[j].id;
      } else {
        assert r.rows[i].id == t.rows[i].id;
      }
    }
  }

  /** The identity of each row, in table order. */
  function KeysOf(rows: seq<Models.Card>): (r: seq<Models.CardKey>)
    ensures |r| == |rows|
    ensures forall i :: 0 <= i < |rows| ==> r[i] == Models.KeyOf(rows[i])
  {
    seq(|rows|, i requires 0 <= i < |rows| => Models.KeyOf(rows[i]))
  }

  /** The identities a table holds. */
  function KeySet(rows: seq<Models.Card>): set<Models.CardKey> {
    set i | 0 <= i < |rows| :: Models.KeyOf(rows[i])
  }

  lemma KeySetOfApply(t: Models.CardTable, found: Option<nat>, key: Models.CardKey, name: string, orderName: string, imagePath: string)
    requires found.Some? ==> found.value < |t.rows| && Models.KeyOf(t.rows[found.value]) == key
    ensures KeySet(Apply(t, found, key, name, orderName, imagePath).0.rows) == KeySet(t.rows) + {key}
  {
    var r := Apply(t, found, key, name, orderName, imagePath).0.rows;
    forall k | k in KeySet(t.rows) + {key} ensures k in KeySet(r) {
      if k == key {
        var at := if found.Some? then found.value else |t.rows|;
        assert Models.KeyOf(r[at]) == k;
      } else {
        var i :| 0 <= i < |t.rows| && Models.KeyOf(t.rows[i]) == k;
        assert Models.KeyOf(r[i]) == k;
      }
    }
    forall k | k in KeySet(r) ensures k in KeySet(t.rows) + {key} {
      var i :| 0 <= i < |r| && Models.KeyOf(r[i]) == k;
      if i < |t.rows| && Some(i) != found {
        assert Models.KeyOf(t.rows[i]) == k;
      }
    }
  }

  // ---------------------------------------------------------------------------
  // the directory walk

  /** The existing folders `(class, rarity)` and the file names listed in each. */
  type Listing = map<(string, string), seq<string>>

  datatype Entry = Entry(classType: string, rarity: string, fileName: string)

  /** The identity an entry's card is stored under. */
  function EntryKey(e: Entry): Models.CardKey {
    Models.CardKey(WeaponType, e.rarity, Some(e.classType), Stem(e.fileName))
  }

  /** The folders in the order the loops visit them: each class, and within it each rarity. */
  function Folders(classes: seq<string>): (r: seq<(string, string)>)
    ensures |r| == |classes| * |RarityOrder|
  {
    if classes == [] then []
    else seq(|RarityOrder|, i requires 0 <= i < |RarityOrder| => (classes[0], RarityOrder[i])) + Folders(classes[1..])
  }

  /** Every listed name, folder by folder, skipping folders that do not exist. */
  function Entries(listing: Listing, folders: seq<(string, string)>): seq<Entry> {
    if folders == [] then []
    else
      var (cls, rarity) := folders[0];
      var here := if folders[0] in listing
                  then seq(|listing[folders[0]]|, i requires 0 <= i < |listing[folders[0]]| => Entry(cls, rarity, listing[folders[0]][i]))
                  else [];
      here + Entries(listing, folders[1..])
  }

  /** The number of entries `fname.lower().endswith(".png")` lets through. */
  function PngCount(es: seq<Entry>): (n: nat)
    ensures n <= |es|
    ensures n == 0 <==> forall i :: 0 <= i < |es| ==> !IsPng(es[i].fileName)
  {
    if es == [] then 0 else (if IsPng(es[0].fileName) then 1 else 0) + PngCount(es[1..])
  }

  /** The session after the walk, and the `created` and `updated` counters. */
  datatype Walk = Walk(table: Models.CardTable, created: nat, updated: nat)

  /** The outcome of `main()`: the committed table and the count it prints, or a failed commit rolled back. */
  datatype ImportResult = Committed(table: Models.CardTable, processed: nat) | Rejected

  /** `db.commit()`: the database refuses a session that breaks `uq_card_identity`. */
  function Commit(before: Models.CardTable, w: Walk): (r: ImportResult)
    ensures r.Committed? <==> Models.SatisfiesIdentityConstraint(w.table.rows)
    ensures r.Committed? ==> r.table == w.table && r.processed == w.created + w.updated
  {
    if Models.SatisfiesIdentityConstraint(w.table.rows) then Committed(w.table, w.created + w.updated) else Rejected
  }

  /** One listed file: a `.png` upserted under its folder and stem, anything else skipped. */
  function Visit(stripAccents: AccentStripper, title: TitleCase, w: Walk, e: Entry, found: Option<nat>): (r: Walk)
    requires found.Some? ==> found.value < |w.table.rows| && Models.KeyOf(w.table.rows[found.value]) == EntryKey(e)
    ensures KeysOf(r.table.rows) == KeysOf(w.table.rows) + (if IsPng(e.fileName) && found.None? then [EntryKey(e)] else [])
    ensures r.created == w.created + (if IsPng(e.fileName) && found.None? then 1 else 0)
    ensures r.created + r.updated == w.created + w.updated + (if IsPng(e.fileName) then 1 else 0)
  {
    if !IsPng(e.fileName) then w
    else
      var slug := Stem(e.fileName);
      var name := DisplayName(title, slug);
      var (t', created) := Apply(w.table, found, EntryKey(e), name, OrderKey(stripAccents, name), ImagePath(e.classType, e.rarity, slug));
      if created then Walk(t', w.created + 1, w.updated) else Walk(t', w.created, w.updated + 1)
  }

  /**
   * The walk as written: the session does not autoflush, so each query sees
   * only the rows committed before the run (`base`), never the cards added
   * earlier in the same walk.
   */
  function WalkAsWritten(stripAccents: AccentStripper, title: TitleCase, base: seq<Models.Card>, w: Walk, es: seq<Entry>): (r: Walk)
    requires KeysExtend(base, w.table.rows)
    ensures KeysExtend(base, r.table.rows)
    ensures r.created + r.updated == w.created + w.updated + PngCount(es)
    decreases |es|
  {
    if es == [] then w
    else
      var found := FindKey(base, EntryKey(es[0]));
      VisitKeepsBase(stripAccents, title, base, w, es[0]);
      WalkAsWritten(stripAccents, title, base, Visit(stripAccents, title, w, es[0], found), es[1..])
  }

  /** A query against `base` finds a row of the session, and the visit keeps the rows of `base` where they are. */
  lemma VisitKeepsBase(stripAccents: AccentStripper, title: TitleCase, base: seq<Models.Card>, w: Walk, e: Entry)
    requires KeysExtend(base, w.table.rows)
    ensures var found := FindKey(base, EntryKey(e));
            && (found.Some? ==> found.value < |w.table.rows| && Models.KeyOf(w.table.rows[found.value]) == EntryKey(e))
            && KeysExtend(base, Visit(stripAccents, title, w, e, found).table.rows)
  {
    var found := FindKey(base, EntryKey(e));
    assert found.Some? ==> KeysOf(w.table.rows)[found.value] == KeysOf(base)[found.value];
    var added := Added(base, e);
    var w' := Visit(stripAccents, title, w, e, found);
    assert KeysOf(w'.table.rows) == KeysOf(w.table.rows) + added;
    assert KeysOf(w'.table.rows)[..|base|] == KeysOf(w.table.rows)[..|base|];
  }

  /** The as-written walk appends one row for every `.png` entry whose identity `base` lacks, repeats included. */
  lemma {:induction false} WalkAsWrittenKeys(stripAccents: AccentStripper, title: TitleCase, base: seq<Models.Card>, w: Walk, es: seq<Entry>)
    requires KeysExtend(base, w.table.rows)
    ensures KeysOf(WalkAsWritten(stripAccents, title, base, w, es).table.rows) == KeysOf(w.table.rows) + NewKeys(base, es)
    decreases |es|
  {
    if es == [] {
      assert KeysOf(w.table.rows) + NewKeys(base, es) == KeysOf(w.table.rows);
    } else {
      var found := FindKey(base, EntryKey(es[0]));
      VisitKeepsBase(stripAccents, title, base, w, es[0]);
      var w' := Visit(stripAccents, title, w, es[0], found);
      var added := Added(base, es[0]);
      WalkAsWrittenKeys(stripAccents, title, base, w', es[1..]);
      assert NewKeys(base, es) == added + NewKeys(base, es[1..]);
      assert KeysOf(w'.table.rows) == KeysOf(w.table.rows) + added;
      AppendAssociates(KeysOf(w.table.rows), added, NewKeys(base, es[1..]));
    }
  }

  lemma AppendAssociates<T>(a: seq<T>, b: seq<T>, c: seq<T>)
    ensures (a + b) + c == a + (b + c)
  {
  }

  /** The identities the as-written walk adds: one per `.png` entry whose identity `base` lacks, repeats included. */
  function NewKeys(base: seq<Models.Card>, es: seq<Entry>): seq<Models.CardKey> {
    FlatMap(e => Added(base, e), es)
  }

  /** The identity one entry adds in the as-written walk, if any. */
  function Added(base: seq<Models.Card>, e: Entry): seq<Models.CardKey> {
    if IsPng(e.fileName) && FindKey(base, EntryKey(e)).None? then [EntryKey(e)] else []
  }

  /** The session still holds, at the same positions, a row for every identity in `base`. */
  ghost predicate KeysExtend(base: seq<Models.Card>, rows: seq<Models.Card>) {
    |base| <= |rows| && KeysOf(rows)[..|base|] == KeysOf(base)
  }

  /** `import_weapons_from_folders` followed by `main`'s commit, as written. */
  function ImportAsWritten(stripAccents: AccentStripper, title: TitleCase, listing: Listing, t: Models.CardTable): (r: ImportResult)
    ensures r.Committed? ==> Models.SatisfiesIdentityConstraint(r.table.rows)
    ensures r.Committed? ==> r.processed == PngCount(Entries(listing, Folders(WeaponClasses)))
    ensures r.Committed? ==> KeysOf(r.table.rows) == KeysOf(t.rows) + NewKeys(t.rows, Entries(listing, Folders(WeaponClasses)))
  {
    var es := Entries(listing, Folders(WeaponClasses));
    BaseExtendsItself(t.rows);
    WalkAsWrittenKeys(stripAccents, title, t.rows, Walk(t, 0, 0), es);
    Commit(t, WalkAsWritten(stripAccents, title, t.rows, Walk(t, 0, 0), es))
  }

  lemma BaseExtendsItself(rows: seq<Models.Card>)
    ensures KeysExtend(rows, rows)
  {
    assert KeysOf(rows)[..|rows|] == KeysOf(rows);
  }

  /**
   * Run again over a table the as-written import committed, the walk finds
   * every identity already there: it adds no row, and the commit succeeds.
   */
  lemma ImportAsWrittenTwiceCreatesNothing(stripAccents: AccentStripper, title: TitleCase, listing: Listing, t: Models.CardTable)
    requires ImportAsWritten(stripAccents, title, listing, t).Committed?
    ensures var t1 := ImportAsWritten(stripAccents, title, listing, t).table;
            var r2 := ImportAsWritten(stripAccents, title, listing, t1);
            r2.Committed? && KeysOf(r2.table.rows) == KeysOf(t1.rows)
  {
    var es := Entries(listing, Folders(WeaponClasses));
    var t1 := ImportAsWritten(stripAccents, title, listing, t).table;
    forall i | 0 <= i < |es| && IsPng(es[i].fileName) ensures EntryKey(es[i]) in KeysOf(t1.rows) {
      NewKeysCover(t.rows, es, i);
    }
    NoNewKeys(t1.rows, es);
    BaseExtendsItself(t1.rows);
    WalkAsWrittenKeys(stripAccents, title, t1.rows, Walk(t1, 0, 0), es);
    var w := WalkAsWritten(stripAccents, title, t1.rows, Walk(t1, 0, 0), es);
    assert KeysOf(w.table.rows) == KeysOf(t1.rows);
    ConstraintFollowsKeys(t1.rows, w.table.rows);
  }

  /** Every `.png` entry's identity is in the table the as-written walk started from, or among the rows it added. */
  lemma NewKeysCover(base: seq<Models.Card>, es: seq<Entry>, i: int)
    requires 0 <= i < |es| && IsPng(es[i].fileName)
    ensures EntryKey(es[i]) in KeysOf(base) || EntryKey(es[i]) in NewKeys(base, es)
  {
    var k := EntryKey(es[i]);
    if FindKey(base, k).None? {
      assert Added(base, es[i]) == [k];
      FlatMapHas(e => Added(base, e), es, i, k);
      var p := OnePosition(NewKeys(base, es), k);
    } else {
      assert KeysOf(base)[FindKey(base, k).value] == k;
    }
  }

  /** When `base` already holds every `.png` entry's identity, the as-written walk adds nothing. */
  lemma {:induction false} NoNewKeys(base: seq<Models.Card>, es: seq<Entry>)
    requires forall i :: 0 <= i < |es| && IsPng(es[i].fileName) ==> EntryKey(es[i]) in KeysOf(base)
    ensures NewKeys(base, es) == []
    decreases |es|
  {
    if es != [] {
      if IsPng(es[0].fileName) {
        var k :| 0 <= k < |KeysOf(base)| && KeysOf(base)[k] == EntryKey(es[0]);
        assert Models.KeyOf(base[k]) == EntryKey(es[0]);
      }
      assert Added(base, es[0]) == [];
      assert forall i :: 0 <= i < |es[1..]| ==> es[1..][i] == es[i + 1];
      NoNewKeys(base, es[1..]);
    }
  }

  /** The unique index looks only at the identity columns, so tables with the same identities in order agree on it. */
  lemma ConstraintFollowsKeys(a: seq<Models.Card>, b: seq<Models.Card>)
    requires KeysOf(a) == KeysOf(b)
    ensures Models.SatisfiesIdentityConstraint(a) == Models.SatisfiesIdentityConstraint(b)
  {
    assert forall i :: 0 <= i < |a| ==> Models.KeyOf(a[i]) == Models.KeyOf(b[i]) && a[i].classType == b[i].classType;
  }

  /** The walk as intended: each query sees the cards the walk has already added. */
  function WalkFlushed(stripAccents: AccentStripper, title: TitleCase, w: Walk, es: seq<Entry>): (r: Walk)
    requires Models.SatisfiesIdentityConstraint(w.table.rows) && Models.IdsFresh(w.table)
    ensures Models.SatisfiesIdentityConstraint(r.table.rows) && Models.IdsFresh(r.table)
    ensures r.created + r.updated == w.created + w.updated + PngCount(es)
    ensures KeySet(r.table.rows) == KeySet(w.table.rows) + PngKeys(es)
    decreases |es|
  {
    if es == [] then
      assert PngKeys(es) == {};
      w
    else
      var w' := VisitFlushed(stripAccents, title, w, es[0]);
      var r := WalkFlushed(stripAccents, title, w', es[1..]);
      FlushedStep(es, w, w', r);
      r
  }

  /** The walk's counts and identities after one visit and the rest of the walk add up to those of the whole walk. */
  lemma FlushedStep(es: seq<Entry>, w: Walk, w': Walk, r: Walk)
    requires es != []
    requires w'.created + w'.updated == w.created + w.updated + (if IsPng(es[0].fileName) then 1 else 0)
    requires KeySet(w'.table.rows) == KeySet(w.table.rows) + (if IsPng(es[0].fileName) then {EntryKey(es[0])} else {})
    requires r.created + r.updated == w'.created + w'.updated + PngCount(es[1..])
    requires KeySet(r.table.rows) == KeySet(w'.table.rows) + PngKeys(es[1..])
    ensures r.created + r.updated == w.created + w.updated + PngCount(es)
    ensures KeySet(r.table.rows) == KeySet(w.table.rows) + PngKeys(es)
  {
    PngKeysCons(es);
  }

  lemma PngKeysCons(es: seq<Entry>)
    requires es != []
    ensures PngKeys(es) == (if IsPng(es[0].fileName) then {EntryKey(es[0])} else {}) + PngKeys(es[1..])
  {
    var tail := es[1..];
    forall k | k in PngKeys(es) ensures k in (if IsPng(es[0].fileName) then {EntryKey(es[0])} else {}) + PngKeys(tail) {
      var i :| 0 <= i < |es| && IsPng(es[i].fileName) && EntryKey(es[i]) == k;
      if i > 0 {
        assert tail[i - 1] == es[i];
      }
    }
    forall k | k in PngKeys(tail) ensures k in PngKeys(es) {
      var i :| 0 <= i < |tail| && IsPng(tail[i].fileName) && EntryKey(tail[i]) == k;
      assert es[i + 1] == tail[i];
    }
  }

  /** The identities of the `.png` entries. */
  function PngKeys(es: seq<Entry>): set<Models.CardKey> {
    set i | 0 <= i < |es| && IsPng(es[i].fileName) :: EntryKey(es[i])
  }

  /** One file visited with the walk's own additions visible to the query. */
  function VisitFlushed(stripAccents: AccentStripper, title: TitleCase, w: Walk, e: Entry): (w': Walk)
    requires Models.SatisfiesIdentityConstraint(w.table.rows) && Models.IdsFresh(w.table)
    ensures Models.SatisfiesIdentityConstraint(w'.table.rows) && Models.IdsFresh(w'.table)
    ensures w'.created + w'.updated == w.created + w.updated + (if IsPng(e.fileName) then 1 else 0)
    ensures KeySet(w'.table.rows) == KeySet(w.table.rows) + (if IsPng(e.fileName) then {EntryKey(e)} else {})
    ensures w'.created > w.created <==> IsPng(e.fileName) && EntryKey(e) !in KeySet(w.table.rows)
  {
    var found := FindKey(w.table.rows, EntryKey(e));
    if !IsPng(e.fileName) then w
    else
      var slug := Stem(e.fileName);
      var name := DisplayName(title, slug);
      var orderName := OrderKey(stripAccents, name);
      var path := ImagePath(e.classType, e.rarity, slug);
      ApplyKeepsConstraint(w.table, found, EntryKey(e), name, orderName, path);
      ApplyKeepsIdsFresh(w.table, found, EntryKey(e), name, orderName, path);
      KeySetOfApply(w.table, found, EntryKey(e), name, orderName, path);
      assert found.Some? ==> EntryKey(e) in KeySet(w.table.rows);
      Visit(stripAccents, title, w, e, found)
  }

  /** `import_weapons_from_folders` and the commit, each query seeing the rows the walk has added. */
  function ImportWeapons(stripAccents: AccentStripper, title: TitleCase, listing: Listing, t: Models.CardTable): (r: ImportResult)
    requires Models.SatisfiesIdentityConstraint(t.rows) && Models.IdsFresh(t)
    ensures r.Committed?
    ensures Models.SatisfiesIdentityConstraint(r.table.rows) && Models.IdsFresh(r.table)
    ensures r.processed == PngCount(Entries(listing, Folders(WeaponClasses)))
    ensures KeySet(r.table.rows) == KeySet(t.rows) + PngKeys(Entries(listing, Folders(WeaponClasses)))
  {
    var w := WalkFlushed(stripAccents, title, Walk(t, 0, 0), Entries(listing, Folders(WeaponClasses)));
    Commit(t, w)
  }

  /**
   * The weapon walk only ever looks up identities with a class, so the rows
   * without one (the enemy cards the unique index leaves unconstrained) come
   * out of the corrected import exactly as they went in.
   */
  lemma ImportKeepsUnclassedRows(stripAccents: AccentStripper, title: TitleCase, listing: Listing, t: Models.CardTable)
    requires Models.SatisfiesIdentityConstraint(t.rows) && Models.IdsFresh(t)
    ensures var r := ImportWeapons(stripAccents, title, listing, t);
            && |t.rows| <= |r.table.rows|
            && forall i :: 0 <= i < |t.rows| && t.rows[i].classType.None? ==> r.table.rows[i] == t.rows[i]
  {
    WalkKeepsUnclassedRows(stripAccents, title, Walk(t, 0, 0), Entries(listing, Folders(WeaponClasses)));
  }

  lemma {:induction false} WalkKeepsUnclassedRows(stripAccents: AccentStripper, title: TitleCase, w: Walk, es: seq<Entry>)
    requires Models.SatisfiesIdentityConstraint(w.table.rows) && Models.IdsFresh(w.table)
    ensures var r := WalkFlushed(stripAccents, title, w, es);
            && |w.table.rows| <= |r.table.rows|
            && forall i :: 0 <= i < |w.table.rows| && w.table.rows[i].classType.None? ==> r.table.rows[i] == w.table.rows[i]
    decreases |es|
  {
    if es != [] {
      var w' := VisitFlushed(stripAccents, title, w, es[0]);
      VisitKeepsUnclassedRows(stripAccents, title, w, es[0]);
      WalkKeepsUnclassedRows(stripAccents, title, w', es[1..]);
    }
  }

  lemma VisitKeepsUnclassedRows(stripAccents: AccentStripper, title: TitleCase, w: Walk, e: Entry)
    requires Models.SatisfiesIdentityConstraint(w.table.rows) && Models.IdsFresh(w.table)
    ensures var r := VisitFlushed(stripAccents, title, w, e);
            && |w.table.rows| <= |r.table.rows|
            && forall i :: 0 <= i < |w.table.rows| && w.table.rows[i].classType.None? ==> r.table.rows[i] == w.table.rows[i]
  {
    var found := FindKey(w.table.rows, EntryKey(e));
    assert found.Some? ==> w.table.rows[found.value].classType.Some?;
  }

  /**
   * The walk visits exactly the listed names of the existing folders whose
   * class and rarity come from the two fixed lists.
   */
  lemma WalkScansOnlyFixedFolders(listing: Listing, e: Entry)
    ensures e in Entries(listing, Folders(WeaponClasses))
            <==> && e.classType in WeaponClasses && e.rarity in RarityOrder
                 && (e.classType, e.rarity) in listing && e.fileName in listing[(e.classType, e.rarity)]
  {
    var f := (e.classType, e.rarity);
    if e in Entries(listing, Folders(WeaponClasses)) {
      EntryFromListing(listing, Folders(WeaponClasses), e);
      FolderInLists(WeaponClasses, f);
    }
    if e.classType in WeaponClasses && e.rarity in RarityOrder && f in listing && e.fileName in listing[f] {
      FolderVisited(WeaponClasses, e.classType, e.rarity);
      var m :| 0 <= m < |listing[f]| && listing[f][m] == e.fileName;
      EntryListed(listing, Folders(WeaponClasses), f, m);
    }
  }

  /** Every folder of the walk pairs a class of the list with a rarity of the list. */
  lemma {:induction false} FolderInLists(classes: seq<string>, f: (string, string))
    requires f in Folders(classes)
    ensures f.0 in classes && f.1 in RarityOrder
  {
    var head := seq(|RarityOrder|, i requires 0 <= i < |RarityOrder| => (classes[0], RarityOrder[i]));
    assert Folders(classes) == head + Folders(classes[1..]);
    if f in head {
      var k :| 0 <= k < |head| && head[k] == f;
    } else {
      FolderInLists(classes[1..], f);
    }
  }

  /** Every entry of the walk is a name listed in one of the folders visited. */
  lemma {:induction false} EntryFromListing(listing: Listing, folders: seq<(string, string)>, e: Entry)
    requires e in Entries(listing, folders)
    ensures (e.classType, e.rarity) in folders && (e.classType, e.rarity) in listing
    ensures e.fileName in listing[(e.classType, e.rarity)]
  {
    var f := folders[0];
    var here := if f in listing then seq(|listing[f]|, i requires 0 <= i < |listing[f]| => Entry(f.0, f.1, listing[f][i])) else [];
    assert Entries(listing, folders) == here + Entries(listing, folders[1..]);
    if e in here {
      var k :| 0 <= k < |here| && here[k] == e;
      assert f in listing && e == Entry(f.0, f.1, listing[f][k]);
      assert (e.classType, e.rarity) == f && e.fileName == listing[f][k];
    } else {
      EntryFromListing(listing, folders[1..], e);
    }
  }

  // ---------------------------------------------------------------------------
  // the duplicate-stem defect and its correction

  /** The number of times `x` occurs in `s`. */
  function Occurrences<T(==)>(s: seq<T>, x: T): nat {
    if s == [] then 0 else (if s[0] == x then 1 else 0) + Occurrences(s[1..], x)
  }

  lemma {:induction false} OccurrencesAppend<T>(a: seq<T>, b: seq<T>, x: T)
    ensures Occurrences(a + b, x) == Occurrences(a, x) + Occurrences(b, x)
  {
    if a == [] {
      assert a + b == b;
    } else {
      assert (a + b)[0] == a[0] && (a + b)[1..] == a[1..] + b;
      OccurrencesAppend(a[1..], b, x);
    }
  }

  lemma {:induction false} OccurrencesAbsent<T>(s: seq<T>, x: T)
    requires forall k :: 0 <= k < |s| ==> s[k] != x
    ensures Occurrences(s, x) == 0
  {
    if s != [] {
      assert forall k :: 0 <= k < |s[1..]| ==> s[1..][k] == s[k + 1];
      OccurrencesAbsent(s[1..], x);
    }
  }

  lemma {:induction false} OnePosition<T>(s: seq<T>, x: T) returns (i: int)
    requires Occurrences(s, x) >= 1
    ensures 0 <= i < |s| && s[i] == x
  {
    if s[0] == x {
      i := 0;
    } else {
      var k := OnePosition(s[1..], x);
      i := k + 1;
    }
  }

  lemma {:induction false} TwoPositions<T>(s: seq<T>, x: T) returns (i: int, j: int)
    requires Occurrences(s, x) >= 2
    ensures 0 <= i < j < |s| && s[i] == x && s[j] == x
  {
    if s[0] == x {
      var k := OnePosition(s[1..], x);
      i, j := 0, k + 1;
    } else {
      var a, b := TwoPositions(s[1..], x);
      i, j := a + 1, b + 1;
    }
  }

  /** Two rows of the session share an identity with a class: the commit's unique index refuses it. */
  lemma RepeatedKeyBreaksConstraint(rows: seq<Models.Card>, key: Models.CardKey)
    requires Occurrences(KeysOf(rows), key) >= 2 && key.classType.Some?
    ensures !Models.SatisfiesIdentityConstraint(rows)
  {
    var i, j := TwoPositions(KeysOf(rows), key);
    assert Models.KeyOf(rows[i]) == Models.KeyOf(rows[j]) && rows[i].classType.Some?;
  }

  /** Two `.png` entries of one identity that `base` lacks each add a row. */
  lemma NewKeysRepeat(base: seq<Models.Card>, es: seq<Entry>, i: int, j: int)
    requires 0 <= i < j < |es|
    requires IsPng(es[i].fileName) && IsPng(es[j].fileName) && EntryKey(es[i]) == EntryKey(es[j])
    requires FindKey(base, EntryKey(es[i])).None?
    ensures Occurrences(NewKeys(base, es), EntryKey(es[i])) >= 2
  {
    var k := EntryKey(es[i]);
    assert Added(base, es[i]) == [k] && Added(base, es[j]) == [k];
    FlatMapRepeat(e => Added(base, e), es, i, j, k);
  }

  /** Each element's piece, concatenated in order. */
  function FlatMap<E, K>(f: E -> seq<K>, es: seq<E>): seq<K> {
    if es == [] then [] else f(es[0]) + FlatMap(f, es[1..])
  }

  lemma {:induction false} FlatMapHas<E, K>(f: E -> seq<K>, es: seq<E>, j: int, k: K)
    requires 0 <= j < |es| && f(es[j]) == [k]
    ensures Occurrences(FlatMap(f, es), k) >= 1
  {
    OccurrencesAppend(f(es[0]), FlatMap(f, es[1..]), k);
    if j > 0 {
      assert es[1..][j - 1] == es[j];
      FlatMapHas(f, es[1..], j - 1, k);
    }
  }

  lemma {:induction false} FlatMapRepeat<E, K>(f: E -> seq<K>, es: seq<E>, i: int, j: int, k: K)
    requires 0 <= i < j < |es| && f(es[i]) == [k] && f(es[j]) == [k]
    ensures Occurrences(FlatMap(f, es), k) >= 2
  {
    OccurrencesAppend(f(es[0]), FlatMap(f, es[1..]), k);
    assert es[1..][j - 1] == es[j];
    if i == 0 {
      FlatMapHas(f, es[1..], j - 1, k);
    } else {
      assert es[1..][i - 1] == es[i];
      FlatMapRepeat(f, es[1..], i - 1, j - 1, k);
    }
  }

  /** Every class-rarity pair of the two lists is a folder the walk visits. */
  lemma {:induction false} FolderVisited(classes: seq<string>, cls: string, rarity: string)
    requires cls in classes && rarity in RarityOrder
    ensures (cls, rarity) in Folders(classes)
  {
    if classes[0] == cls {
      var k :| 0 <= k < |RarityOrder| && RarityOrder[k] == rarity;
      assert Folders(classes)[k] == (cls, rarity);
    } else {
      FolderVisited(classes[1..], cls, rarity);
      var k :| 0 <= k < |Folders(classes[1..])| && Folders(classes[1..])[k] == (cls, rarity);
      assert Folders(classes)[|RarityOrder| + k] == (cls, rarity);
    }
  }

  /** Every name listed in a visited folder is an entry of the walk. */
  lemma {:induction false} EntryListed(listing: Listing, folders: seq<(string, string)>, f: (string, string), m: int)
    requires f in folders && f in listing && 0 <= m < |listing[f]|
    ensures Entry(f.0, f.1, listing[f][m]) in Entries(listing, folders)
  {
    if folders[0] == f {
      assert Entries(listing, folders)[m] == Entry(f.0, f.1, listing[f][m]);
    } else {
      EntryListed(listing, folders[1..], f, m);
      var k :| 0 <= k < |Entries(listing, folders[1..])| && Entries(listing, folders[1..])[k] == Entry(f.0, f.1, listing[f][m]);
      var here := Entries(listing, folders)[..|Entries(listing, folders)| - |Entries(listing, folders[1..])|];
      assert Entries(listing, folders)[|here| + k] == Entry(f.0, f.1, listing[f][m]);
    }
  }

  /**
   * As written, two `.png` files of one folder with the same stem, when the
   * table does not yet hold that card, are both inserted and the commit
   * fails: nothing is imported.
   */
  lemma SameStemTwiceRejected(stripAccents: AccentStripper, title: TitleCase, listing: Listing, t: Models.CardTable,
                              cls: string, rarity: string, f1: string, f2: string)
    requires cls in WeaponClasses && rarity in RarityOrder && (cls, rarity) in listing
    requires f1 in listing[(cls, rarity)] && f2 in listing[(cls, rarity)] && f1 != f2
    requires IsPng(f1) && IsPng(f2) && Stem(f1) == Stem(f2)
    requires Models.CardKey(WeaponType, rarity, Some(cls), Stem(f1)) !in KeySet(t.rows)
    ensures ImportAsWritten(stripAccents, title, listing, t) == Rejected
  {
    var es := Entries(listing, Folders(WeaponClasses));
    var i := WeaponEntryAt(listing, cls, rarity, f1);
    var j := WeaponEntryAt(listing, cls, rarity, f2);
    if i < j {
      RepeatRejected(stripAccents, title, t, es, i, j);
    } else {
      RepeatRejected(stripAccents, title, t, es, j, i);
    }
  }

  /** A file listed in a weapon folder has a position among the walk's entries. */
  lemma WeaponEntryAt(listing: Listing, cls: string, rarity: string, f: string) returns (i: int)
    requires cls in WeaponClasses && rarity in RarityOrder && (cls, rarity) in listing
    requires f in listing[(cls, rarity)]
    ensures 0 <= i < |Entries(listing, Folders(WeaponClasses))|
    ensures Entries(listing, Folders(WeaponClasses))[i] == Entry(cls, rarity, f)
  {
    FolderVisited(WeaponClasses, cls, rarity);
    var m :| 0 <= m < |listing[(cls, rarity)]| && listing[(cls, rarity)][m] == f;
    EntryListed(listing, Folders(WeaponClasses), (cls, rarity), m);
    var es := Entries(listing, Folders(WeaponClasses));
    i :| 0 <= i < |es| && es[i] == Entry(cls, rarity, f);
  }

  /** The as-written walk over entries of which two `.png` ones share an identity new to the table ends in a refused commit. */
  lemma RepeatRejected(stripAccents: AccentStripper, title: TitleCase, t: Models.CardTable, es: seq<Entry>, i: int, j: int)
    requires 0 <= i < j < |es|
    requires IsPng(es[i].fileName) && IsPng(es[j].fileName) && EntryKey(es[i]) == EntryKey(es[j])
    requires EntryKey(es[i]) !in KeySet(t.rows)
    ensures Commit(t, WalkAsWritten(stripAccents, title, t.rows, Walk(t, 0, 0), es)) == Rejected
  {
    var key := EntryKey(es[i]);
    assert forall k :: 0 <= k < |t.rows| ==> Models.KeyOf(t.rows[k]) != key;
    NewKeysRepeat(t.rows, es, i, j);
    assert KeysExtend(t.rows, t.rows) by {
      assert KeysOf(t.rows)[..|t.rows|] == KeysOf(t.rows);
    }
    WalkAsWrittenKeys(stripAccents, title, t.rows, Walk(t, 0, 0), es);
    var w := WalkAsWritten(stripAccents, title, t.rows, Walk(t, 0, 0), es);
    OccurrencesAppend(KeysOf(t.rows), NewKeys(t.rows, es), key);
    RepeatedKeyBreaksConstraint(w.table.rows, key);
  }

  /** `a.png` and `a.PNG` can sit side by side on a case-sensitive file system, and both have the stem `a`. */
  lemma UpperCaseExtensionCollides()
    ensures IsPng("a.png") && IsPng("a.PNG")
    ensures Stem("a.png") == "a" && Stem("a.PNG") == "a"
  {
    assert Text.Lower("a.png")[1..] == ImageExt;
    assert Text.Lower("a.PNG")[1..] == ImageExt;
    assert "a.png"[0] != '.' && "a.PNG"[0] != '.';
    StemOfPng("a.png");
    StemOfPng("a.PNG");
  }

  /** Corrected, the same folder commits, holding a card for the shared identity. */
  lemma SameStemTwiceMerged(stripAccents: AccentStripper, title: TitleCase, listing: Listing, t: Models.CardTable,
                            cls: string, rarity: string, f1: string)
    requires Models.SatisfiesIdentityConstraint(t.rows) && Models.IdsFresh(t)
    requires cls in WeaponClasses && rarity in RarityOrder && (cls, rarity) in listing
    requires f1 in listing[(cls, rarity)] && IsPng(f1)
    ensures var r := ImportWeapons(stripAccents, title, listing, t);
            && r.Committed?
            && Models.CardKey(WeaponType, rarity, Some(cls), Stem(f1)) in KeySet(r.table.rows)
  {
    var es := Entries(listing, Folders(WeaponClasses));
    var i := WeaponEntryAt(listing, cls, rarity, f1);
    assert EntryKey(es[i]) in PngKeys(es);
  }

  /** A walk over identities the table already holds adds no row. */
  lemma {:induction false} KnownKeysCreateNothing(stripAccents: AccentStripper, title: TitleCase, w: Walk, es: seq<Entry>)
    requires Models.SatisfiesIdentityConstraint(w.table.rows) && Models.IdsFresh(w.table)
    requires PngKeys(es) <= KeySet(w.table.rows)
    ensures WalkFlushed(stripAccents, title, w, es).created == w.created
    ensures |WalkFlushed(stripAccents, title, w, es).table.rows| == |w.table.rows|
    decreases |es|
  {
    if es != [] {
      PngKeysCons(es);
      var w' := VisitFlushed(stripAccents, title, w, es[0]);
      assert |KeysOf(w'.table.rows)| == |KeysOf(w.table.rows)|;
      KnownKeysCreateNothing(stripAccents, title, w', es[1..]);
    }
  }

  /** Running the corrected import twice: the second run creates no card and leaves the set of identities as it was. */
  lemma ImportTwiceCreatesNothing(stripAccents: AccentStripper, title: TitleCase, listing: Listing, t: Models.CardTable)
    requires Models.SatisfiesIdentityConstraint(t.rows) && Models.IdsFresh(t)
    ensures var t1 := ImportWeapons(stripAccents, title, listing, t).table;
            var t2 := ImportWeapons(stripAccents, title, listing, t1).table;
            |t2.rows| == |t1.rows| && KeySet(t2.rows) == KeySet(t1.rows)
  {
    var es := Entries(listing, Folders(WeaponClasses));
    var t1 := ImportWeapons(stripAccents, title, listing, t).table;
    KnownKeysCreateNothing(stripAccents, title, Walk(t1, 0, 0), es);
  }
}

=== FILE: catalog.dfy ===
/**
 * The card catalogue of app/routers/cards.py: `GET /cards` normalises its
 * query parameters, filters the `cards` table by type, rarity and weapon
 * class, and orders the rows by `order_name`.
 */
module Catalog {
  import opened Wrappers
  import Text
  import Models
  import Http
  import Session
  import Access

  /** The canonical keys of `RARITY_OPTIONS`, `CLASS_OPTIONS` and `TYPE_OPTIONS`. */
  const Rarities: set<string> := {"comum", "incomum", "rara", "epica", "lendaria", "mitica"}
  const Classes: set<string> := {"combatente", "potencializador", "estrategico", "especialista"}
  const Types: set<string> := {"arma", "inimigo", "local"}
  const WeaponType := "arma"
  const DefaultSort := "az"
  const Descending := "za"

  /** The raw query parameters `rarity`, `sort`, `type` and `class_type`, `None` when absent. */
  datatype Query = Query(rarity: Option<string>, sort: Option<string>, cardType: Option<string>, classType: Option<string>)

  /** The four selections after normalisation, as handed back to the template. */
  datatype Selection = Selection(rarity: string, sort: string, cardType: string, classType: string)

  /** `(v or default).strip().lower()`. */
  function Normalize(v: Option<string>, default: string): string {
    Text.Lower(Text.Strip(Text.OrElse(v, default)))
  }

  /** The selections of a query: a recognised weapon class forces the type to `"arma"`. */
  function Select(q: Query): (s: Selection)
    ensures s.classType in Classes ==> s.cardType == WeaponType
    ensures s.classType !in Classes ==> s.cardType == Normalize(q.cardType, "")
    ensures s.rarity == Normalize(q.rarity, "") && s.classType == Normalize(q.classType, "")
  {
    var cls := Normalize(q.classType, "");
    var ty := if cls in Classes then WeaponType else Normalize(q.cardType, "");
    Selection(Normalize(q.rarity, ""), Normalize(q.sort, DefaultSort), ty, cls)
  }

  /** The `WHERE` clause: each filter applies only when its selection is a recognised key. */
  predicate Matches(c: Models.Card, s: Selection) {
    && (s.cardType in Types ==> c.cardType == s.cardType)
    && (s.rarity in Rarities ==> c.rarity == s.rarity)
    && (s.cardType == WeaponType && s.classType in Classes ==> c.classType == Some(s.classType))
  }

  /** The rows that pass the filters, in table order. */
  function Filter(rows: seq<Models.Card>, s: Selection): (r: seq<Models.Card>)
    ensures forall c :: c in r <==> c in rows && Matches(c, s)
    ensures multiset(r) <= multiset(rows)
    ensures forall i :: 0 <= i < |r| ==> Matches(r[i], s)
  {
    if rows == [] then []
    else
      assert rows == [rows[0]] + rows[1..];
      if Matches(rows[0], s) then [rows[0]] + Filter(rows[1..], s)
    else Filter(rows[1..], s)
  }

  // ---------------------------------------------------------------------------
  // ordering

  /** The `BINARY` collation: strings compared code point by code point, a prefix first. */
  predicate LexLe(a: string, b: string)
    decreases |a|
  {
    a == [] || (b != [] && (a[0] < b[0] || (a[0] == b[0] && LexLe(a[1..], b[1..]))))
  }

  lemma {:induction false} LexLeTotal(a: string, b: string)
    ensures LexLe(a, b) || LexLe(b, a)
    decreases |a|
  {
    if a != [] && b != [] && a[0] == b[0] {
      LexLeTotal(a[1..], b[1..]);
    }
  }

  lemma {:induction false} LexLeAntisymmetric(a: string, b: string)
    requires LexLe(a, b) && LexLe(b, a)
    ensures a == b
    decreases |a|
  {
    if a != [] {
      LexLeAntisymmetric(a[1..], b[1..]);
    }
  }

  lemma {:induction false} LexLeTransitive(a: string, b: string, c: string)
    requires LexLe(a, b) && LexLe(b, c)
    ensures LexLe(a, c)
    decreases |a|
  {
    if a != [] && a[0] == b[0] && b[0] == c[0] {
      LexLeTransitive(a[1..], b[1..], c[1..]);
    }
  }

  /** Whether `a` may precede `b` under `ORDER BY order_name ASC` (or `DESC`). */
  predicate Before(a: Models.Card, b: Models.Card, desc: bool) {
    if desc then LexLe(b.orderName, a.orderName) else LexLe(a.orderName, b.orderName)
  }

  predicate Ordered(r: seq<Models.Card>, desc: bool) {
    forall i :: 0 < i < |r| ==> Before(r[i - 1], r[i], desc)
  }

  /** Places `c` in front of the first row it may precede. */
  function Insert(c: Models.Card, r: seq<Models.Card>, desc: bool): (r': seq<Models.Card>)
    ensures multiset(r') == multiset(r) + multiset{c}
    ensures |r'| == |r| + 1
    ensures r' != [] && (r'[0] == c || (r != [] && r'[0] == r[0]))
  {
    if r == [] || Before(c, r[0], desc) then [c] + r
    else
      assert r == [r[0]] + r[1..];
      [r[0]] + Insert(c, r[1..], desc)
  }

  lemma {:induction false} InsertOrdered(c: Models.Card, r: seq<Models.Card>, desc: bool)
    requires Ordered(r, desc)
    ensures Ordered(Insert(c, r, desc), desc)
    decreases |r|
  {
    if r == [] || Before(c, r[0], desc) {
    } else {
      LexLeTotal(c.orderName, r[0].orderName);
      var tail := r[1..];
      assert Ordered(tail, desc) by {
        forall i | 0 < i < |tail| ensures Before(tail[i - 1], tail[i], desc) {
          assert Before(r[i], r[i + 1], desc);
        }
      }
      InsertOrdered(c, tail, desc);
      var t := Insert(c, tail, desc);
      assert Before(r[0], t[0], desc);
      var r' := [r[0]] + t;
      forall i | 0 < i < |r'| ensures Before(r'[i - 1], r'[i], desc) {
        if i > 1 {
          assert r'[i - 1] == t[i - 2] && r'[i] == t[i - 1];
        }
      }
    }
  }

  /** The rows in `ORDER BY order_name` order, as a permutation of the table. */
  function Sort(r: seq<Models.Card>, desc: bool): (s: seq<Models.Card>)
    ensures multiset(s) == multiset(r)
    ensures Ordered(s, desc)
  {
    if r == [] then []
    else
      InsertOrdered(r[0], Sort(r[1..], desc), desc);
      assert r == [r[0]] + r[1..];
      Insert(r[0], Sort(r[1..], desc), desc)
  }

  /** In an ordered listing every earlier row may precede every later one, not only its neighbour. */
  lemma {:induction false} OrderedPairwise(r: seq<Models.Card>, desc: bool, i: int, j: int)
    requires Ordered(r, desc)
    requires 0 <= i < j < |r|
    ensures Before(r[i], r[j], desc)
    decreases j - i
  {
    if i + 1 < j {
      OrderedPairwise(r, desc, i + 1, j);
      assert Before(r[i], r[i + 1], desc);
      if desc {
        LexLeTransitive(r[j].orderName, r[i + 1].orderName, r[i].orderName);
      } else {
        LexLeTransitive(r[i].orderName, r[i + 1].orderName, r[j].orderName);
      }
    }
  }

  /** Two orderings of the same rows agree on the sequence of sort keys: only ties may be arranged differently. */
  lemma {:induction false} OrderedKeysUnique(a: seq<Models.Card>, b: seq<Models.Card>, desc: bool)
    requires multiset(a) == multiset(b)
    requires Ordered(a, desc) && Ordered(b, desc)
    ensures |a| == |b|
    ensures forall i :: 0 <= i < |a| ==> a[i].orderName == b[i].orderName
    decreases |a|
  {
    assert |a| == |multiset(a)| == |multiset(b)| == |b|;
    if a != [] {
      var j := HeadKeysAgree(a, b, desc);
      var a' := a[1..];
      var b' := RemoveAt(b, j);
      assert a == [a[0]] + a';
      assert multiset(a') == multiset(b') by {
        assert multiset(a') == multiset(a) - multiset{a[0]};
      }
      OrderedRemove(b, j, desc);
      OrderedTail(a, desc);
      OrderedKeysUnique(a', b', desc);
      forall i | 0 < i < |a| ensures a[i].orderName == b[i].orderName {
        assert a[i] == a'[i - 1];
        KeyShift(b, j, i, desc);
      }
    }
  }

  lemma OrderedTail(a: seq<Models.Card>, desc: bool)
    requires Ordered(a, desc) && a != []
    ensures Ordered(a[1..], desc)
  {
    var a' := a[1..];
    forall i | 0 < i < |a'| ensures Before(a'[i - 1], a'[i], desc) {
      assert Before(a[i], a[i + 1], desc);
    }
  }

  /** The heads of two orderings of the same non-empty rows carry the same key; `j` is where `a`'s head sits in `b`. */
  lemma HeadKeysAgree(a: seq<Models.Card>, b: seq<Models.Card>, desc: bool) returns (j: int)
    requires multiset(a) == multiset(b) && a != []
    requires Ordered(a, desc) && Ordered(b, desc)
    ensures 0 <= j < |b| && b[j] == a[0]
    ensures a[0].orderName == b[0].orderName
  {
    assert a[0] in multiset(b) && b != [] && b[0] in multiset(a);
    j :| 0 <= j < |b| && b[j] == a[0];
    var k :| 0 <= k < |a| && a[k] == b[0];
    if j > 0 && k > 0 {
      OrderedPairwise(b, desc, 0, j);
      OrderedPairwise(a, desc, 0, k);
      LexLeAntisymmetric(a[0].orderName, b[0].orderName);
    }
  }

  function RemoveAt(s: seq<Models.Card>, j: int): (r: seq<Models.Card>)
    requires 0 <= j < |s|
    ensures multiset(r) == multiset(s) - multiset{s[j]}
    ensures |r| == |s| - 1
  {
    assert s == s[..j] + [s[j]] + s[j + 1..];
    s[..j] + s[j + 1..]
  }

  /** Removing one row keeps a listing ordered. */
  lemma OrderedRemove(s: seq<Models.Card>, j: int, desc: bool)
    requires Ordered(s, desc) && 0 <= j < |s|
    ensures Ordered(RemoveAt(s, j), desc)
  {
    var r := RemoveAt(s, j);
    forall i | 0 < i < |r| ensures Before(r[i - 1], r[i], desc) {
      if i < j {
        assert r[i - 1] == s[i - 1] && r[i] == s[i];
      } else if i == j {
        assert r[i - 1] == s[i - 1] && r[i] == s[i + 1];
        OrderedPairwise(s, desc, i - 1, i + 1);
      } else {
        assert r[i - 1] == s[i] && r[i] == s[i + 1];
      }
    }
  }

  /**
   * In an ordered listing whose head key equals the key of row `j`, removing
   * row `j` shifts the keys after position 0 by one without changing them.
   */
  lemma KeyShift(b: seq<Models.Card>, j: int, i: int, desc: bool)
    requires Ordered(b, desc) && 0 <= j < |b| && 0 < i < |b|
    requires b[0].orderName == b[j].orderName
    ensures RemoveAt(b, j)[i - 1].orderName == b[i].orderName
  {
    var r := RemoveAt(b, j);
    if i <= j {
      // every row from the head to row j carries the head's key
      OrderedPairwise(b, desc, 0, i);
      if i < j { OrderedPairwise(b, desc, i, j); }
      LexLeAntisymmetric(b[i].orderName, b[0].orderName);
      if i - 1 > 0 {
        OrderedPairwise(b, desc, 0, i - 1);
        OrderedPairwise(b, desc, i - 1, j);
        LexLeAntisymmetric(b[i - 1].orderName, b[0].orderName);
      }
      assert r[i - 1] == b[i - 1];
    } else {
      assert r[i - 1] == b[i];
    }
  }

  // ---------------------------------------------------------------------------
  // the route

  /** The catalogue for a selection: the matching rows, in the selected order. */
  function Listing(rows: seq<Models.Card>, s: Selection): seq<Models.Card> {
    Sort(Filter(rows, s), s.sort == Descending)
  }

  /** `GET /cards`: anonymous callers to `/login`; otherwise the filtered, ordered catalogue. */
  function CardsCatalog(signer: Session.Signer, req: Http.Request, st: Models.Store, table: Models.CardTable, q: Query): (r: Http.Response)
    ensures Access.LoggedUser(signer, req, st).None? <==> r == Http.SeeOther("/login")
    ensures r.body.Page? ==> r.status == 200 && r.body.view.CardsCatalog?
  {
    match Access.LoggedUser(signer, req, st)
    case None => Http.SeeOther("/login")
    case Some(me) =>
      var s := Select(q);
      Http.Render(200, Http.CardsCatalog(me, Listing(table.rows, s), s.rarity, s.sort, s.cardType, s.classType), Http.NoNotice)
  }

  /**
   * The page lists every row that passes the recognised filters, each as
   * often as the table holds it and no other, ordered by `order_name`,
   * descending exactly when the trimmed, lower-cased `sort` is `"za"`.
   */
  lemma CatalogContents(signer: Session.Signer, req: Http.Request, st: Models.Store, table: Models.CardTable, q: Query)
    requires Access.LoggedUser(signer, req, st).Some?
    ensures var v := CardsCatalog(signer, req, st, table, q).body.view;
            var s := Select(q);
            && v.me == Access.LoggedUser(signer, req, st).value
            && multiset(v.cards) == multiset(Filter(table.rows, s))
            && (forall c :: c in v.cards <==> c in table.rows && Matches(c, s))
            && Ordered(v.cards, Normalize(q.sort, DefaultSort) == Descending)
  {
    var s := Select(q);
    var f := Filter(table.rows, s);
    var cards := Listing(table.rows, s);
    assert multiset(cards) == multiset(f);
    forall c ensures c in cards <==> c in f {
      assert c in cards <==> c in multiset(cards);
      assert c in f <==> c in multiset(f);
    }
  }

  /** A recognised weapon class shows only weapons of that class, whatever `type` says. */
  lemma ClassFilterForcesWeapons(signer: Session.Signer, req: Http.Request, st: Models.Store, table: Models.CardTable, q: Query)
    requires Access.LoggedUser(signer, req, st).Some?
    requires Normalize(q.classType, "") in Classes
    ensures var v := CardsCatalog(signer, req, st, table, q).body.view;
            && v.cardType == WeaponType
            && forall c :: c in v.cards ==> c.cardType == WeaponType && c.classType == Some(Normalize(q.classType, ""))
  {
    CatalogContents(signer, req, st, table, q);
  }

  /** With no recognised filter the catalogue holds the whole table, whatever the other parameters say. */
  lemma UnrecognisedFiltersListEverything(signer: Session.Signer, req: Http.Request, st: Models.Store, table: Models.CardTable, q: Query)
    requires Access.LoggedUser(signer, req, st).Some?
    requires Normalize(q.classType, "") !in Classes && Normalize(q.cardType, "") !in Types && Normalize(q.rarity, "") !in Rarities
    ensures multiset(CardsCatalog(signer, req, st, table, q).body.view.cards) == multiset(table.rows)
  {
    CatalogContents(signer, req, st, table, q);
    FilterAll(table.rows, Select(q));
  }

  lemma {:induction false} FilterAll(rows: seq<Models.Card>, s: Selection)
    requires forall c :: c in rows ==> Matches(c, s)
    ensures Filter(rows, s) == rows
  {
    if rows != [] {
      FilterAll(rows[1..], s);
    }
  }

  /** Reordering the table does not change the sequence of keys the page shows. */
  lemma ListingIgnoresTableOrder(a: seq<Models.Card>, b: seq<Models.Card>, s: Selection)
    requires multiset(a) == multiset(b)
    ensures |Listing(a, s)| == |Listing(b, s)|
    ensures forall i :: 0 <= i < |Listing(a, s)| ==> Listing(a, s)[i].orderName == Listing(b, s)[i].orderName
  {
    FilterPermutation(a, b, s);
    OrderedKeysUnique(Listing(a, s), Listing(b, s), s.sort == Descending);
  }

  lemma FilterPermutation(a: seq<Models.Card>, b: seq<Models.Card>, s: Selection)
    requires multiset(a) == multiset(b)
    ensures multiset(Filter(a, s)) == multiset(Filter(b, s))
  {
    FilterCounts(a, s);
    FilterCounts(b, s);
    forall c ensures multiset(Filter(a, s))[c] == multiset(Filter(b, s))[c] {
    }
  }

  /** A row occurs in the filtered rows as often as in the table when it matches, and not at all otherwise. */
  lemma {:induction false} FilterCounts(rows: seq<Models.Card>, s: Selection)
    ensures forall c :: multiset(Filter(rows, s))[c] == if Matches(c, s) then multiset(rows)[c] else 0
  {
    if rows != [] {
      FilterCounts(rows[1..], s);
      assert rows == [rows[0]] + rows[1..];
    }
  }
}

=== FILE: decimal.dfy ===
/**
 * Decimal integers as text: Python's `str(n)` for the iteration count a
 * password digest records, and Python's `int(s)` that reads it back.
 */
module Decimal {
  import opened Wrappers
  import Text

  function DigitChar(d: nat): (c: char)
    requires d < 10
    ensures Text.IsAsciiDigit(c)
  {
    ('0' as int + d) as char
  }

  function DigitValue(c: char): (d: nat)
    requires Text.IsAsciiDigit(c)
    ensures d < 10 && DigitChar(d) == c
  {
    c as int - '0' as int
  }

  /** Python's `str(n)` for a non-negative integer: its decimal digits, without a leading zero. */
  function Format(n: nat): (r: string)
    ensures |r| >= 1
    ensures forall i :: 0 <= i < |r| ==> Text.IsAsciiDigit(r[i])
    ensures |r| > 1 ==> r[0] != '0'
  {
    if n < 10 then [DigitChar(n)] else Format(n / 10) + [DigitChar(n % 10)]
  }

  predicate DigitOrUnderscore(c: char) {
    Text.IsAsciiDigit(c) || c == '_'
  }

  /**
   * The digit run `int()` accepts: at least one digit, and underscores only
   * singly and between two digits.
   */
  predicate WellFormedDigits(t: string) {
    && |t| > 0
    && Text.IsAsciiDigit(t[0])
    && Text.IsAsciiDigit(t[|t| - 1])
    && (forall i :: 0 <= i < |t| ==> DigitOrUnderscore(t[i]))
    && (forall i :: 0 < i < |t| ==> t[i] == '_' ==> t[i - 1] != '_')
  }

  /** The number a run of digits and underscores denotes; the underscores only group. */
  function DigitsValue(t: string): nat
    requires forall i :: 0 <= i < |t| ==> DigitOrUnderscore(t[i])
  {
    if |t| == 0 then 0
    else
      assert DigitOrUnderscore(t[|t| - 1]);
      if t[|t| - 1] == '_' then DigitsValue(t[..|t| - 1])
      else DigitsValue(t[..|t| - 1]) * 10 + DigitValue(t[|t| - 1])
  }

  /**
   * The whitespace `int()` skips around the number: ASCII space, tab, line
   * feed, vertical tab, form feed and carriage return, and every non-ASCII
   * character `str.isspace()` accepts (the ASCII separators 0x1C-0x1F are not skipped).
   */
  predicate IntSpace(c: char) {
    ('\t' <= c <= '\r') || c == ' ' || (c >= '\U{80}' && Text.IsSpace(c))
  }

  /**
   * CPython's default limit on the digits `int()` converts from decimal text
   * (`sys.get_int_max_str_digits()`, since 3.11): a longer number raises
   * `ValueError`.
   */
  const MaxStrDigits := 4300

  /** The digits of a run, leading zeros included; underscores do not count. */
  function DigitCount(t: string): nat {
    if |t| == 0 then 0
    else DigitCount(t[..|t| - 1]) + (if t[|t| - 1] == '_' then 0 else 1)
  }

  /** The digit run `int()` converts: well formed, and no longer than the limit. */
  predicate ConvertibleDigits(t: string) {
    WellFormedDigits(t) && DigitCount(t) <= MaxStrDigits
  }

  /** Python's `int(s)` in base 10, with `None` where Python raises `ValueError`. */
  function ParseInt(s: string): (r: Option<int>)
  {
    var t := Text.StripBy(s, IntSpace);
    if |t| > 0 && (t[0] == '+' || t[0] == '-') then
      var body := t[1..];
      if ConvertibleDigits(body) then
        Some(if t[0] == '-' then -(DigitsValue(body) as int) else DigitsValue(body))
      else None
    else if ConvertibleDigits(t) then Some(DigitsValue(t))
    else None
  }

  /** A run of digits and underscores longer than the limit is refused, whatever its value. */
  lemma TooManyDigitsRefused(t: string)
    requires forall i :: 0 <= i < |t| ==> DigitOrUnderscore(t[i])
    requires DigitCount(t) > MaxStrDigits
    ensures ParseInt(t).None?
  {
    assert |t| > 0;
    UnsignedRun(t);
    assert !ConvertibleDigits(t);
  }

  /** A run with no surrounding space and no sign is read as a plain digit run. */
  lemma UnsignedRun(t: string)
    requires |t| > 0 && DigitOrUnderscore(t[0]) && DigitOrUnderscore(t[|t| - 1])
    ensures ParseInt(t) == if ConvertibleDigits(t) then Some(DigitsValue(t)) else None
  {
    assert Text.StripBy(t, IntSpace) == t;
  }

  lemma {:induction false} DigitCountOfDigits(t: string)
    requires forall i :: 0 <= i < |t| ==> Text.IsAsciiDigit(t[i])
    ensures DigitCount(t) == |t|
  {
    if |t| > 0 {
      DigitCountOfDigits(t[..|t| - 1]);
    }
  }

  function Pow10(k: nat): (r: nat)
    ensures r >= 1
  {
    if k == 0 then 1 else 10 * Pow10(k - 1)
  }

  /** A number below `10^k` is written with at most `k` digits. */
  lemma {:induction false} FormatLength(n: nat, k: nat)
    requires 1 <= k && n < Pow10(k)
    ensures |Format(n)| <= k
  {
    if n >= 10 {
      assert k >= 2;
      assert n / 10 < Pow10(k - 1);
      FormatLength(n / 10, k - 1);
    }
  }

  lemma {:induction false} ValueOfFormat(n: nat)
    ensures DigitsValue(Format(n)) == n
  {
    if n >= 10 {
      var f := Format(n / 10);
      assert (f + [DigitChar(n % 10)])[..|f|] == f;
      ValueOfFormat(n / 10);
    }
  }

  /** `int(str(n)) == n`: the decimal form reads back as the number written, while it is within the digit limit. */
  lemma ParseFormat(n: nat)
    requires |Format(n)| <= MaxStrDigits
    ensures ParseInt(Format(n)) == Some(n)
  {
    var f := Format(n);
    UnsignedRun(f);
    DigitCountOfDigits(f);
    assert WellFormedDigits(f);
    ValueOfFormat(n);
  }
}

=== FILE: digest.dfy ===
/**
 * The self-describing password digest of app/seed.py:
 * `pbkdf2_sha256$<iterations>$<salt as hex>$<derived key as hex>`.
 *
 * PBKDF2-HMAC-SHA256 itself is a parameter `kdf`: any deterministic function
 * of the password, the salt bytes and the iteration count.
 */
module Digest {
  import opened Wrappers
  import Text
  import Decimal
  import Hex

  const Algorithm := "pbkdf2_sha256"
  const Separator := '$'
  /** The iteration count `hash_password` uses when none is given. */
  const DefaultIterations := 210000
  /** `hash_password` draws 16 random salt bytes. */
  const SaltLength := 16
  /** `hashlib.pbkdf2_hmac` raises for an iteration count outside 1 .. INT_MAX. */
  const MaxIterations := 0x7fff_ffff

  /** PBKDF2-HMAC-SHA256 over the password's UTF-8 bytes, a salt and an iteration count. */
  type Kdf = (string, seq<Hex.byte>, int) -> seq<Hex.byte>

  /** What a digest records: the parameters of the derivation and the expected key. */
  datatype Fields = Fields(iterations: int, salt: seq<Hex.byte>, keyHex: string)

  predicate AcceptedIterations(n: int) {
    1 <= n <= MaxIterations
  }

  lemma DigitsHaveNoSeparator(s: string)
    requires forall i :: 0 <= i < |s| ==> Text.IsAsciiDigit(s[i]) || Hex.IsLowerHexDigit(s[i])
    ensures Separator !in s
  {
    assert forall i :: 0 <= i < |s| ==> s[i] != Separator;
  }

  /**
   * `hash_password(password, iterations=n)` with the random salt given as
   * `salt`: the four `$`-separated fields are the algorithm tag, the decimal
   * iteration count, 32 hex digits of salt and the hex of the derived key.
   */
  function HashPassword(kdf: Kdf, password: string, salt: seq<Hex.byte>, iterations: int): (r: string)
    requires |salt| == SaltLength
    requires AcceptedIterations(iterations)
    ensures Text.SplitMax(r, Separator, 3)
            == [Algorithm, Decimal.Format(iterations), Hex.Encode(salt), Hex.Encode(kdf(password, salt, iterations))]
    ensures |Hex.Encode(salt)| == 2 * SaltLength
  {
    var count := Decimal.Format(iterations);
    var saltHex := Hex.Encode(salt);
    var keyHex := Hex.Encode(kdf(password, salt, iterations));
    assert Separator !in Algorithm;
    DigitsHaveNoSeparator(count);
    DigitsHaveNoSeparator(saltHex);
    Text.SplitFourFields(Algorithm, count, saltHex, keyHex, Separator);
    Algorithm + [Separator] + count + [Separator] + saltHex + [Separator] + keyHex
  }

  /**
   * The parsing half of `verify_password`: `stored.split("$", 3)` must give
   * four fields, the first must be the algorithm tag, the second must read as
   * an integer and the third as hex. `None` stands for every path on which
   * Python returns `False` or raises into the `except`.
   */
  function ParseDigest(stored: string): (r: Option<Fields>)
  {
    var parts := Text.SplitMax(stored, Separator, 3);
    if |parts| != 4 || parts[0] != Algorithm then None
    else
      match (Decimal.ParseInt(parts[1]), Hex.Decode(parts[2]))
      case (Some(n), Some(salt)) => Some(Fields(n, salt, parts[3]))
      case _ => None
  }

  /**
   * `verify_password(password, stored)`: the key re-derived with the recorded
   * parameters, written as lower-case hex, must equal the recorded key field.
   * An iteration count PBKDF2 refuses is one more path to `False`; so is a
   * non-ASCII key field, on which `hmac.compare_digest` raises, and which
   * can never equal the ASCII hex anyway.
   */
  function VerifyPassword(kdf: Kdf, password: string, stored: string): (ok: bool)
  {
    match ParseDigest(stored)
    case None => false
    case Some(f) =>
      AcceptedIterations(f.iterations) && Hex.Encode(kdf(password, f.salt, f.iterations)) == f.keyHex
  }

  /** A digest records everything needed to check it: parsing it gives back the parameters it was made with. */
  lemma ParseHashed(kdf: Kdf, password: string, salt: seq<Hex.byte>, iterations: int)
    requires |salt| == SaltLength
    requires AcceptedIterations(iterations)
    ensures ParseDigest(HashPassword(kdf, password, salt, iterations))
            == Some(Fields(iterations, salt, Hex.Encode(kdf(password, salt, iterations))))
  {
    assert Decimal.Pow10(10) == 10_000_000_000;
    Decimal.FormatLength(iterations, 10);
    Decimal.ParseFormat(iterations);
    Hex.DecodeEncode(salt);
  }

  /** Round trip: a password verifies against its own digest, whatever the salt. */
  lemma VerifyHashed(kdf: Kdf, password: string, salt: seq<Hex.byte>, iterations: int)
    requires |salt| == SaltLength
    requires AcceptedIterations(iterations)
    ensures VerifyPassword(kdf, password, HashPassword(kdf, password, salt, iterations))
  {
    ParseHashed(kdf, password, salt, iterations);
  }

  /** A password whose derived key differs from the recorded one is rejected. */
  lemma VerifyRejectsOtherKey(kdf: Kdf, password: string, other: string, salt: seq<Hex.byte>, iterations: int)
    requires |salt| == SaltLength
    requires AcceptedIterations(iterations)
    requires kdf(other, salt, iterations) != kdf(password, salt, iterations)
    ensures !VerifyPassword(kdf, other, HashPassword(kdf, password, salt, iterations))
  {
    ParseHashed(kdf, password, salt, iterations);
    Hex.EncodeInjective(kdf(other, salt, iterations), kdf(password, salt, iterations));
  }

  /**
   * Every malformed digest verifies `False` (nothing escapes as an exception):
   * fewer than three separators, a first field other than the algorithm tag,
   * an iteration field that is not an integer, is longer than the digit
   * limit `int()` keeps, or is not accepted by PBKDF2, or a salt field that
   * is not hex.
   */
  lemma MalformedDigestRejected(kdf: Kdf, password: string, stored: string)
    ensures Text.Count(stored, Separator) < 3 ==> !VerifyPassword(kdf, password, stored)
    ensures Text.FirstField(stored, Separator) != Algorithm ==> !VerifyPassword(kdf, password, stored)
    ensures var parts := Text.SplitMax(stored, Separator, 3);
            |parts| == 4 && (Decimal.ParseInt(parts[1]).None? || Hex.Decode(parts[2]).None?)
            ==> !VerifyPassword(kdf, password, stored)
    ensures var parts := Text.SplitMax(stored, Separator, 3);
            |parts| == 4 && Decimal.ParseInt(parts[1]).Some? && !AcceptedIterations(Decimal.ParseInt(parts[1]).value)
            ==> !VerifyPassword(kdf, password, stored)
    ensures var parts := Text.SplitMax(stored, Separator, 3);
            && |parts| == 4
            && (forall i :: 0 <= i < |parts[1]| ==> Decimal.DigitOrUnderscore(parts[1][i]))
            && Decimal.DigitCount(parts[1]) > Decimal.MaxStrDigits
            ==> !VerifyPassword(kdf, password, stored)
  {
    Text.SplitMaxLength(stored, Separator, 3);
    var parts := Text.SplitMax(stored, Separator, 3);
    if |parts| == 4 {
      var head, tail := Text.SplitMaxCut(stored, Separator, 3);
      if (forall i :: 0 <= i < |parts[1]| ==> Decimal.DigitOrUnderscore(parts[1][i]))
         && Decimal.DigitCount(parts[1]) > Decimal.MaxStrDigits {
        Decimal.TooManyDigitsRefused(parts[1]);
      }
    }
  }

  /** A digest whose key field is not lower-case hex (an upper-case copy, say) never verifies. */
  lemma UpperCaseKeyRejected(kdf: Kdf, password: string, stored: string)
    requires ParseDigest(stored).Some?
    requires exists i :: 0 <= i < |ParseDigest(stored).value.keyHex| && !Hex.IsLowerHexDigit(ParseDigest(stored).value.keyHex[i])
    ensures !VerifyPassword(kdf, password, stored)
  {
  }
}

=== FILE: hex.dfy ===
/** Bytes as hexadecimal text: Python's `bytes.hex()` and `bytes.fromhex()`. */
module Hex {
  import opened Wrappers

  type byte = x: int | 0 <= x < 256

  /** The alphabet `bytes.hex()` writes with: `0`-`9` and lower-case `a`-`f`. */
  predicate IsLowerHexDigit(c: char) {
    ('0' <= c <= '9') || ('a' <= c <= 'f')
  }

  function HexChar(v: nat): (c: char)
    requires v < 16
    ensures IsLowerHexDigit(c)
  {
    if v < 10 then ('0' as int + v) as char else ('a' as int + v - 10) as char
  }

  /** The value of one hexadecimal digit of either case, as `bytes.fromhex()` reads it. */
  function HexValue(c: char): (r: Option<nat>)
    ensures r.Some? ==> r.value < 16
  {
    if '0' <= c <= '9' then Some(c as int - '0' as int)
    else if 'a' <= c <= 'f' then Some(c as int - 'a' as int + 10)
    else if 'A' <= c <= 'F' then Some(c as int - 'A' as int + 10)
    else None
  }

  lemma HexValueOfHexChar(v: nat)
    requires v < 16
    ensures HexValue(HexChar(v)) == Some(v)
  {
  }

  /** Python's `b.hex()`: two lower-case digits per byte, high nibble first. */
  function Encode(b: seq<byte>): (r: string)
    ensures |r| == 2 * |b|
    ensures forall i :: 0 <= i < |r| ==> IsLowerHexDigit(r[i])
  {
    if |b| == 0 then [] else [HexChar(b[0] / 16), HexChar(b[0] % 16)] + Encode(b[1..])
  }

  /** The whitespace `bytes.fromhex()` skips before each pair of digits (ASCII only). */
  predicate HexSpace(c: char) {
    c == ' ' || ('\t' <= c <= '\r')
  }

  /**
   * Python's `bytes.fromhex(s)`, with `None` where Python raises `ValueError`:
   * pairs of digits of either case, with whitespace allowed before any pair
   * and at the end but never between the two digits of a pair.
   */
  function Decode(s: string): (r: Option<seq<byte>>)
    ensures r.Some? ==> |r.value| <= |s| / 2
    decreases |s|
  {
    if |s| == 0 then Some([])
    else if HexSpace(s[0]) then Decode(s[1..])
    else if |s| < 2 then None
    else
      match (HexValue(s[0]), HexValue(s[1]))
      case (Some(hi), Some(lo)) =>
        (match Decode(s[2..])
         case Some(rest) => Some([hi * 16 + lo] + rest)
         case None => None)
      case _ => None
  }

  /** `bytes.fromhex(b.hex()) == b`. */
  lemma {:induction false} DecodeEncode(b: seq<byte>)
    ensures Decode(Encode(b)) == Some(b)
  {
    if |b| > 0 {
      var s := Encode(b);
      HexValueOfHexChar(b[0] / 16);
      HexValueOfHexChar(b[0] % 16);
      assert s[2..] == Encode(b[1..]);
      DecodeEncode(b[1..]);
      assert b == [b[0] / 16 * 16 + b[0] % 16] + b[1..];
    }
  }

  /** Distinct byte strings have distinct hexadecimal forms. */
  lemma EncodeInjective(a: seq<byte>, b: seq<byte>)
    ensures Encode(a) == Encode(b) ==> a == b
  {
    DecodeEncode(a);
    DecodeEncode(b);
  }
}

=== FILE: http.dfy ===
/**
 * What a handler sees of an HTTP request and what it answers with. Pages are
 * named by template and the values the handler passes to it; markup is not
 * modelled.
 */
module Http {
  import opened Wrappers
  import Models

  /**
   * The parts of a request the handlers read: the `rpg_session` cookie, the
   * `X-Forwarded-Proto` header, the URL scheme, and the clock the session
   * signer checks token age against.
   */
  datatype Request = Request(sessionCookie: Option<string>, forwardedProto: Option<string>, scheme: string, now: int)

  datatype Cookie = Cookie(
    name: string,
    value: string,
    httpOnly: bool,
    sameSite: string,
    secure: bool,
    maxAge: int,
    path: string)

  /** The `Set-Cookie` effect of a response. */
  datatype CookieOp = KeepCookies | SetCookie(cookie: Cookie) | DeleteCookie(name: string, path: string)

  /** The `error` and `success` messages a template shows. */
  datatype Notice = NoNotice | ErrorNotice(message: string) | SuccessNotice(message: string)

  datatype View =
    | LoginPage
    | ChangePasswordPage
    | MasterDashboard(me: Models.User, players: seq<Models.User>)
    | PlayerSheet(user: Models.User, character: Models.Character, showBack: bool)
    | CardsCatalog(me: Models.User, cards: seq<Models.Card>, rarity: string, sort: string, cardType: string, classType: string)

  /** A redirect, a rendered template, or an exception that escapes the handler. */
  datatype Body = Redirect(location: string) | Page(view: View, notice: Notice) | Unhandled

  datatype Response = Response(status: int, body: Body, cookie: CookieOp)

  /** What a handler returns, and the store as its transaction leaves it. */
  datatype Outcome = Outcome(response: Response, store: Models.Store)

  /** `RedirectResponse(url=location, status_code=303)`. */
  function SeeOther(location: string): Response {
    Response(303, Redirect(location), KeepCookies)
  }

  /** `templates.TemplateResponse(...)` with the given status. */
  function Render(status: int, view: View, notice: Notice): Response {
    Response(status, Page(view, notice), KeepCookies)
  }

  /** An exception the handler does not catch: the server answers 500. */
  const ServerError := Response(500, Unhandled, KeepCookies)
}

=== FILE: lifecycle.dfy ===
/**
 * The application as one state machine: every route that writes to the
 * database is a step from one store to the next. The lemmas follow the
 * `force_password_change` flag across all of them.
 */
module Lifecycle {
  import Text
  import Models
  import Http
  import Session
  import Access
  import AuthRoutes
  import MasterRoutes
  import PlayerRoutes

  /** A request to one of the routes that may write, with its form fields and the salt or draw it will use. */
  datatype Action =
    | Login(username: string, password: string)
    | ChangePassword(newPassword: string, confirmPassword: string, salt: Session.Salt)
    | CreatePlayer(username: string, password: string, salt: Session.Salt)
    | DeletePlayer(userId: int)
    | ResetPlayerPassword(userId: int, draw: nat -> nat, salt: Session.Salt)
    | PlayerSheet
    | PlayerUpdate(fields: PlayerRoutes.SheetFields)
    | PlayerSheetForMaster(userId: int)
    | PlayerUpdateForMaster(userId: int, fields: PlayerRoutes.SheetFields)

  /** The handler an action reaches, and what it commits. */
  function Step(hasher: Session.PassHasher, signer: Session.Signer, req: Http.Request, st: Models.Store, a: Action): (o: Http.Outcome)
    requires Models.Valid(st)
    ensures Models.Valid(o.store)
  {
    match a
    case Login(u, p) => AuthRoutes.Login(hasher, signer, req, st, u, p)
    case ChangePassword(p, c, salt) => AuthRoutes.ChangePassword(hasher, signer, req, st, p, c, salt)
    case CreatePlayer(u, p, salt) => MasterRoutes.CreatePlayer(hasher, signer, req, st, u, p, salt)
    case DeletePlayer(id) => MasterRoutes.DeletePlayer(signer, req, st, id)
    case ResetPlayerPassword(id, draw, salt) => MasterRoutes.ResetPlayerPassword(hasher, signer, req, st, id, draw, salt)
    case PlayerSheet => PlayerRoutes.PlayerSheet(signer, req, st)
    case PlayerUpdate(f) => PlayerRoutes.PlayerUpdate(signer, req, st, f)
    case PlayerSheetForMaster(id) => PlayerRoutes.PlayerSheetForMaster(signer, req, st, id)
    case PlayerUpdateForMaster(id, f) => PlayerRoutes.PlayerUpdateForMaster(signer, req, st, id, f)
  }

  /** A run of requests, each with its own cookies and clock. */
  function Run(hasher: Session.PassHasher, signer: Session.Signer, st: Models.Store, steps: seq<(Http.Request, Action)>): (r: Models.Store)
    requires Models.Valid(st)
    ensures Models.Valid(r)
    decreases |steps|
  {
    if steps == [] then st
    else Run(hasher, signer, Step(hasher, signer, steps[0].0, st, steps[0].1).store, steps[1..])
  }

  /**
   * What one step may do to the account `id`: keep its role and username,
   * keep it unless the step deletes it, create it only with the flag set,
   * clear the flag only through the account's own accepted change, and set
   * the flag only through a master's creation or reset.
   */
  ghost predicate StepFacts(signer: Session.Signer, req: Http.Request, st: Models.Store, a: Action, o: Http.Outcome, id: int) {
    && (id in st.users && id in o.store.users ==>
          o.store.users[id].role == st.users[id].role && o.store.users[id].username == st.users[id].username)
    && (id in st.users && !(a.DeletePlayer? && a.userId == id) ==> id in o.store.users)
    && (id !in st.users && id in o.store.users ==> a.CreatePlayer? && o.store.users[id].forcePasswordChange)
    && (id in st.users && st.users[id].forcePasswordChange && id in o.store.users && !o.store.users[id].forcePasswordChange ==>
          && a.ChangePassword?
          && Access.LoggedUser(signer, req, st).Some? && Access.LoggedUser(signer, req, st).value.id == id
          && |Text.Strip(a.newPassword)| >= AuthRoutes.MinPasswordLength
          && Text.Strip(a.newPassword) == Text.Strip(a.confirmPassword))
    && (id in o.store.users && o.store.users[id].forcePasswordChange && (id !in st.users || !st.users[id].forcePasswordChange) ==>
          && Access.RequireMasterCaseless(signer, req, st).Some?
          && ((a.CreatePlayer? && id !in st.users) || (a.ResetPlayerPassword? && a.userId == id)))
  }

  lemma LoginFacts(hasher: Session.PassHasher, signer: Session.Signer, req: Http.Request, st: Models.Store, a: Action, id: int)
    requires Models.Valid(st) && a.Login?
    ensures StepFacts(signer, req, st, a, Step(hasher, signer, req, st, a), id)
  {
  }

  lemma ChangePasswordFacts(hasher: Session.PassHasher, signer: Session.Signer, req: Http.Request, st: Models.Store, a: Action, id: int)
    requires Models.Valid(st) && a.ChangePassword?
    ensures StepFacts(signer, req, st, a, Step(hasher, signer, req, st, a), id)
  {
  }

  lemma CreatePlayerFacts(hasher: Session.PassHasher, signer: Session.Signer, req: Http.Request, st: Models.Store, a: Action, id: int)
    requires Models.Valid(st) && a.CreatePlayer?
    ensures StepFacts(signer, req, st, a, Step(hasher, signer, req, st, a), id)
  {
  }

  lemma DeletePlayerFacts(hasher: Session.PassHasher, signer: Session.Signer, req: Http.Request, st: Models.Store, a: Action, id: int)
    requires Models.Valid(st) && a.DeletePlayer?
    ensures StepFacts(signer, req, st, a, Step(hasher, signer, req, st, a), id)
  {
    if Access.RequireMasterCaseless(signer, req, st).Some? {
      MasterRoutes.DeleteRemovesOnlyThePlayer(signer, req, st, a.userId);
    }
  }

  lemma ResetPlayerPasswordFacts(hasher: Session.PassHasher, signer: Session.Signer, req: Http.Request, st: Models.Store, a: Action, id: int)
    requires Models.Valid(st) && a.ResetPlayerPassword?
    ensures StepFacts(signer, req, st, a, Step(hasher, signer, req, st, a), id)
  {
  }

  lemma PlayerSheetFacts(hasher: Session.PassHasher, signer: Session.Signer, req: Http.Request, st: Models.Store, a: Action, id: int)
    requires Models.Valid(st) && a.PlayerSheet?
    ensures StepFacts(signer, req, st, a, Step(hasher, signer, req, st, a), id)
  {
  }

  lemma PlayerUpdateFacts(hasher: Session.PassHasher, signer: Session.Signer, req: Http.Request, st: Models.Store, a: Action, id: int)
    requires Models.Valid(st) && a.PlayerUpdate?
    ensures StepFacts(signer, req, st, a, Step(hasher, signer, req, st, a), id)
  {
  }

  lemma PlayerSheetForMasterFacts(hasher: Session.PassHasher, signer: Session.Signer, req: Http.Request, st: Models.Store, a: Action, id: int)
    requires Models.Valid(st) && a.PlayerSheetForMaster?
    ensures StepFacts(signer, req, st, a, Step(hasher, signer, req, st, a), id)
  {
  }

  lemma PlayerUpdateForMasterFacts(hasher: Session.PassHasher, signer: Session.Signer, req: Http.Request, st: Models.Store, a: Action, id: int)
    requires Models.Valid(st) && a.PlayerUpdateForMaster?
    ensures StepFacts(signer, req, st, a, Step(hasher, signer, req, st, a), id)
  {
  }

  /** Every step, whichever route it reaches, keeps `StepFacts`. */
  lemma StepKeepsFacts(hasher: Session.PassHasher, signer: Session.Signer, req: Http.Request, st: Models.Store, a: Action, id: int)
    requires Models.Valid(st)
    ensures StepFacts(signer, req, st, a, Step(hasher, signer, req, st, a), id)
  {
    match a {
      case Login(_, _) => LoginFacts(hasher, signer, req, st, a, id);
      case ChangePassword(_, _, _) => ChangePasswordFacts(hasher, signer, req, st, a, id);
      case CreatePlayer(_, _, _) => CreatePlayerFacts(hasher, signer, req, st, a, id);
      case DeletePlayer(_) => DeletePlayerFacts(hasher, signer, req, st, a, id);
      case ResetPlayerPassword(_, _, _) => ResetPlayerPasswordFacts(hasher, signer, req, st, a, id);
      case PlayerSheet => PlayerSheetFacts(hasher, signer, req, st, a, id);
      case PlayerUpdate(_) => PlayerUpdateFacts(hasher, signer, req, st, a, id);
      case PlayerSheetForMaster(_) => PlayerSheetForMasterFacts(hasher, signer, req, st, a, id);
      case PlayerUpdateForMaster(_, _) => PlayerUpdateForMasterFacts(hasher, signer, req, st, a, id);
    }
  }

  /**
   * Only the account's own successful password change clears its pending
   * flag: a change submitted in a session of that account, with a new
   * password of at least eight characters, confirmed.
   */
  lemma OnlyOwnChangeClearsFlag(hasher: Session.PassHasher, signer: Session.Signer, req: Http.Request, st: Models.Store, a: Action, id: int)
    requires Models.Valid(st)
    requires id in st.users && st.users[id].forcePasswordChange
    requires id in Step(hasher, signer, req, st, a).store.users
    requires !Step(hasher, signer, req, st, a).store.users[id].forcePasswordChange
    ensures a.ChangePassword?
    ensures Access.LoggedUser(signer, req, st).Some? && Access.LoggedUser(signer, req, st).value.id == id
    ensures |Text.Strip(a.newPassword)| >= AuthRoutes.MinPasswordLength
    ensures Text.Strip(a.newPassword) == Text.Strip(a.confirmPassword)
  {
    StepKeepsFacts(hasher, signer, req, st, a, id);
  }

  /**
   * Only a master sets the flag: by creating the account, or by resetting
   * that player's password.
   */
  lemma OnlyMasterSetsFlag(hasher: Session.PassHasher, signer: Session.Signer, req: Http.Request, st: Models.Store, a: Action, id: int)
    requires Models.Valid(st)
    requires id in Step(hasher, signer, req, st, a).store.users
    requires Step(hasher, signer, req, st, a).store.users[id].forcePasswordChange
    requires id !in st.users || !st.users[id].forcePasswordChange
    ensures Access.RequireMasterCaseless(signer, req, st).Some?
    ensures (a.CreatePlayer? && id !in st.users) || (a.ResetPlayerPassword? && a.userId == id)
  {
    StepKeepsFacts(hasher, signer, req, st, a, id);
  }

  /** No route ever changes an account's role or username. */
  lemma RolesAndNamesAreFixed(hasher: Session.PassHasher, signer: Session.Signer, req: Http.Request, st: Models.Store, a: Action, id: int)
    requires Models.Valid(st)
    requires id in st.users && id in Step(hasher, signer, req, st, a).store.users
    ensures Step(hasher, signer, req, st, a).store.users[id].role == st.users[id].role
    ensures Step(hasher, signer, req, st, a).store.users[id].username == st.users[id].username
  {
    StepKeepsFacts(hasher, signer, req, st, a, id);
  }

  /** Only a deletion of the account itself removes it. */
  lemma OnlyDeletionRemoves(hasher: Session.PassHasher, signer: Session.Signer, req: Http.Request, st: Models.Store, a: Action, id: int)
    requires Models.Valid(st)
    requires id in st.users && !(a.DeletePlayer? && a.userId == id)
    ensures id in Step(hasher, signer, req, st, a).store.users
  {
    StepKeepsFacts(hasher, signer, req, st, a, id);
  }

  /** Over any run of requests that never deletes it, an account survives with its role and username. */
  lemma {:induction false} RunKeepsAccount(hasher: Session.PassHasher, signer: Session.Signer, st: Models.Store,
                                           steps: seq<(Http.Request, Action)>, id: int)
    requires Models.Valid(st) && id in st.users
    requires forall k :: 0 <= k < |steps| ==> !(steps[k].1.DeletePlayer? && steps[k].1.userId == id)
    ensures id in Run(hasher, signer, st, steps).users
    ensures Run(hasher, signer, st, steps).users[id].role == st.users[id].role
    ensures Run(hasher, signer, st, steps).users[id].username == st.users[id].username
    decreases |steps|
  {
    if steps != [] {
      var o := Step(hasher, signer, steps[0].0, st, steps[0].1);
      OnlyDeletionRemoves(hasher, signer, steps[0].0, st, steps[0].1, id);
      RolesAndNamesAreFixed(hasher, signer, steps[0].0, st, steps[0].1, id);
      assert forall k :: 0 <= k < |steps[1..]| ==> steps[1..][k] == steps[k + 1];
      RunKeepsAccount(hasher, signer, o.store, steps[1..], id);
    }
  }

  /** Every account a route creates starts with a pending password change. */
  lemma NewAccountsPending(hasher: Session.PassHasher, signer: Session.Signer, req: Http.Request, st: Models.Store, a: Action, id: int)
    requires Models.Valid(st)
    requires id !in st.users && id in Step(hasher, signer, req, st, a).store.users
    ensures a.CreatePlayer? && Step(hasher, signer, req, st, a).store.users[id].forcePasswordChange
  {
    StepKeepsFacts(hasher, signer, req, st, a, id);
  }

  /** A pending change survives any run of requests with no password change in it, whatever the masters do. */
  lemma {:induction false} PendingChangeSurvives(hasher: Session.PassHasher, signer: Session.Signer, st: Models.Store,
                                                 steps: seq<(Http.Request, Action)>, id: int)
    requires Models.Valid(st) && (id in st.users ==> st.users[id].forcePasswordChange)
    requires forall k :: 0 <= k < |steps| ==> !steps[k].1.ChangePassword?
    ensures id in Run(hasher, signer, st, steps).users ==> Run(hasher, signer, st, steps).users[id].forcePasswordChange
    decreases |steps|
  {
    if steps != [] {
      var o := Step(hasher, signer, steps[0].0, st, steps[0].1);
      assert forall k :: 0 <= k < |steps[1..]| ==> steps[1..][k] == steps[k + 1];
      if id in o.store.users {
        if id in st.users && !o.store.users[id].forcePasswordChange {
          OnlyOwnChangeClearsFlag(hasher, signer, steps[0].0, st, steps[0].1, id);
        }
        if id !in st.users {
          NewAccountsPending(hasher, signer, steps[0].0, st, steps[0].1, id);
        }
      }
      PendingChangeSurvives(hasher, signer, o.store, steps[1..], id);
    }
  }
}

=== FILE: master_routes.dfy ===
/**
 * The game master's routes of app/routers/master.py: the dashboard, creating
 * a player with its first character, deleting a player, and resetting a
 * player's password to a temporary one the player must change.
 *
 * `secrets.choice` is a parameter `draw` giving the alphabet position picked
 * for each character; passlib's salt is a parameter `salt`.
 */
module MasterRoutes {
  import opened Wrappers
  import Text
  import Models
  import Http
  import Session
  import Access

  const UsernameTaken := "Esse username já existe. Escolha outro."
  const OnlyPlayersDeleted := "Apenas usuários com role=player podem ser excluídos."
  /** The default `length` of `_generate_temp_password`. */
  const TempPasswordLength := 10

  // ---------------------------------------------------------------------------
  // temporary passwords

  /** Position `k` of `string.ascii_letters + string.digits`: `a`-`z`, then `A`-`Z`, then `0`-`9`. */
  function AlphabetChar(k: nat): (c: char)
    requires k < 62
    ensures Text.IsAsciiAlnum(c)
  {
    if k < 26 then ('a' as int + k) as char
    else if k < 52 then ('A' as int + k - 26) as char
    else ('0' as int + k - 52) as char
  }

  const TempAlphabet: string := seq(62, k requires 0 <= k < 62 => AlphabetChar(k))

  /** The alphabet holds exactly the ASCII letters and digits. */
  lemma TempAlphabetIsAlnum(c: char)
    ensures c in TempAlphabet <==> Text.IsAsciiAlnum(c)
  {
    if Text.IsAsciiLower(c) {
      assert TempAlphabet[c as int - 'a' as int] == c;
    } else if Text.IsAsciiUpper(c) {
      assert TempAlphabet[c as int - 'A' as int + 26] == c;
    } else if Text.IsAsciiDigit(c) {
      assert TempAlphabet[c as int - '0' as int + 52] == c;
    }
  }

  /** `_generate_temp_password(length)`: `length` independent picks from the alphabet. */
  function GenerateTempPassword(draw: nat -> nat, length: nat): (pw: string)
    ensures |pw| == length
    ensures forall i :: 0 <= i < |pw| ==> Text.IsAsciiAlnum(pw[i])
  {
    assert forall k :: 0 <= k < |TempAlphabet| ==> Text.IsAsciiAlnum(TempAlphabet[k]);
    seq(length, i requires 0 <= i < length => TempAlphabet[draw(i) % |TempAlphabet|])
  }

  /** Every letter or digit can come out at every position: the alphabet is not narrowed. */
  lemma EveryAlnumCanBeDrawn(c: char, i: nat, length: nat) returns (draw: nat -> nat)
    requires Text.IsAsciiAlnum(c) && i < length
    ensures GenerateTempPassword(draw, length)[i] == c
  {
    TempAlphabetIsAlnum(c);
    var k :| 0 <= k < |TempAlphabet| && TempAlphabet[k] == c;
    draw := _ => k;
  }

  // ---------------------------------------------------------------------------
  // the dashboard listing

  /** The users with role exactly `"player"` and id below `k`, by ascending id. */
  function PlayersBelow(st: Models.Store, k: int): (r: seq<Models.User>)
    requires Models.Valid(st)
    ensures forall i :: 0 <= i < |r| ==> r[i].id in st.users && st.users[r[i].id] == r[i] && r[i].role == Models.PlayerRole && r[i].id < k
    ensures forall i, j :: 0 <= i < j < |r| ==> r[i].id < r[j].id
    ensures forall id :: id in st.users && id < k && st.users[id].role == Models.PlayerRole ==> st.users[id] in r
    decreases k
  {
    if k <= 1 then []
    else
      var rest := PlayersBelow(st, k - 1);
      if k - 1 in st.users && st.users[k - 1].role == Models.PlayerRole then rest + [st.users[k - 1]] else rest
  }

  /**
   * `query(User).filter(User.role == "player").order_by(User.id.asc())`:
   * every user whose role is exactly `"player"`, each once, by ascending id.
   */
  function Players(st: Models.Store): (r: seq<Models.User>)
    requires Models.Valid(st)
    ensures forall u :: u in r <==> u.id in st.users && st.users[u.id] == u && u.role == Models.PlayerRole
    ensures forall i, j :: 0 <= i < j < |r| ==> r[i].id < r[j].id
  {
    PlayersBelow(st, st.nextUserId)
  }

  /** The dashboard page for `me`, with a message. */
  function Dashboard(st: Models.Store, me: Models.User, status: int, notice: Http.Notice): Http.Response
    requires Models.Valid(st)
  {
    Http.Render(status, Http.MasterDashboard(me, Players(st)), notice)
  }

  /** `GET /master`. */
  function MasterDashboard(signer: Session.Signer, req: Http.Request, st: Models.Store): (r: Http.Response)
    requires Models.Valid(st)
    ensures r.body.Page? <==> Access.RequireMasterCaseless(signer, req, st).Some?
  {
    match Access.RequireMasterCaseless(signer, req, st)
    case None => Http.SeeOther("/login")
    case Some(me) => Dashboard(st, me, 200, Http.NoNotice)
  }

  // ---------------------------------------------------------------------------
  // create, delete, reset

  /**
   * `POST /master/create-player`: the trimmed username, if free, becomes a
   * player who must change the given password at first login, with a
   * character named after it in capitals.
   */
  function CreatePlayer(hasher: Session.PassHasher, signer: Session.Signer, req: Http.Request, st: Models.Store,
                        username: string, password: string, salt: Session.Salt): (o: Http.Outcome)
    requires Models.Valid(st)
    ensures Models.Valid(o.store)
    ensures forall id :: id in st.users ==> id in o.store.users && o.store.users[id] == st.users[id]
    ensures forall id :: id in st.characters ==> id in o.store.characters && o.store.characters[id] == st.characters[id]
  {
    match Access.RequireMasterCaseless(signer, req, st)
    case None => Http.Outcome(Http.SeeOther("/login"), st)
    case Some(me) =>
      var name := Text.Strip(username);
      if name == "" then Http.Outcome(Http.SeeOther("/master"), st)
      else if Models.FindByName(st, name).Some? then
        Http.Outcome(Dashboard(st, me, 400, Http.ErrorNotice(UsernameTaken)), st)
      else
        var (st1, id) := Models.InsertUser(st, name, hasher.hash(password, salt), Models.PlayerRole, true);
        Http.Outcome(Http.SeeOther("/master"), Models.InsertCharacter(st1, id, Text.Upper(name)))
  }

  /**
   * A successful creation adds exactly one user, a player with the trimmed
   * name, the flag set and a hash the password verifies against, and
   * exactly one character, its own, named in capitals and otherwise at the
   * column defaults.
   */
  lemma CreatedPlayerMustChangePassword(hasher: Session.PassHasher, signer: Session.Signer, req: Http.Request, st: Models.Store,
                                        username: string, password: string, salt: Session.Salt)
    requires Models.Valid(st)
    requires Access.RequireMasterCaseless(signer, req, st).Some?
    requires Text.Strip(username) != "" && Models.FindByName(st, Text.Strip(username)).None?
    requires Session.HasherRoundTrips(hasher, password, salt)
    ensures var o := CreatePlayer(hasher, signer, req, st, username, password, salt);
            && o.response == Http.SeeOther("/master")
            && exists id ::
                 && id !in st.users && id !in st.characters
                 && o.store.users.Keys == st.users.Keys + {id}
                 && o.store.characters.Keys == st.characters.Keys + {id}
                 && o.store.users[id].username == Text.Strip(username)
                 && o.store.users[id].role == Models.PlayerRole
                 && o.store.users[id].forcePasswordChange
                 && hasher.verify(password, o.store.users[id].passwordHash) == Some(true)
                 && o.store.characters[id] == Models.NewCharacter(st.nextCharacterId, id, Text.Upper(Text.Strip(username)))
  {
    var name := Text.Strip(username);
    var (st1, id) := Models.InsertUser(st, name, hasher.hash(password, salt), Models.PlayerRole, true);
    assert id !in st.characters;
  }

  /** A blank username, or one already taken, creates nothing. */
  lemma CreatePlayerRejects(hasher: Session.PassHasher, signer: Session.Signer, req: Http.Request, st: Models.Store,
                            username: string, password: string, salt: Session.Salt)
    requires Models.Valid(st)
    requires Access.RequireMasterCaseless(signer, req, st).Some?
    ensures var o := CreatePlayer(hasher, signer, req, st, username, password, salt);
            var me := Access.RequireMasterCaseless(signer, req, st).value;
            && (Text.Strip(username) == "" ==> o == Http.Outcome(Http.SeeOther("/master"), st))
            && (Text.Strip(username) != "" && Models.FindByName(st, Text.Strip(username)).Some?
                ==> o == Http.Outcome(Dashboard(st, me, 400, Http.ErrorNotice(UsernameTaken)), st))
  {
  }

  /**
   * `POST /master/delete-player/{id}`: a player (role lower-cased) is removed
   * with its character; a missing id is ignored; any other role answers 400.
   * An id outside SQLite's integer range cannot be bound into the query, and
   * the driver's `OverflowError` answers 500.
   */
  function DeletePlayer(signer: Session.Signer, req: Http.Request, st: Models.Store, userId: int): (o: Http.Outcome)
    requires Models.Valid(st)
    ensures Models.Valid(o.store)
    ensures o.store.users.Keys <= st.users.Keys && o.store.characters.Keys <= st.characters.Keys
  {
    match Access.RequireMasterCaseless(signer, req, st)
    case None => Http.Outcome(Http.SeeOther("/login"), st)
    case Some(me) =>
      if !Models.FitsSqliteInteger(userId) then Http.Outcome(Http.ServerError, st)
      else match Models.GetUser(st, userId)
      case None => Http.Outcome(Http.SeeOther("/master"), st)
      case Some(u) =>
        if !Access.IsPlayerCaseless(u.role) then
          Http.Outcome(Dashboard(st, me, 400, Http.ErrorNotice(OnlyPlayersDeleted)), st)
        else
          Http.Outcome(Http.SeeOther("/master"), Models.DeleteUser(st, userId))
  }

  /**
   * Deleting removes exactly the player and its character; non-players and
   * unknown ids remove nothing, and an id SQLite cannot bind fails with a 500.
   */
  lemma DeleteRemovesOnlyThePlayer(signer: Session.Signer, req: Http.Request, st: Models.Store, userId: int)
    requires Models.Valid(st)
    requires Access.RequireMasterCaseless(signer, req, st).Some?
    ensures var o := DeletePlayer(signer, req, st, userId);
            var me := Access.RequireMasterCaseless(signer, req, st).value;
            && (!Models.FitsSqliteInteger(userId) ==> o == Http.Outcome(Http.ServerError, st))
            && (Models.FitsSqliteInteger(userId) && userId !in st.users ==> o == Http.Outcome(Http.SeeOther("/master"), st))
            && (Models.FitsSqliteInteger(userId) && userId in st.users && !Access.IsPlayerCaseless(st.users[userId].role)
                ==> o == Http.Outcome(Dashboard(st, me, 400, Http.ErrorNotice(OnlyPlayersDeleted)), st))
            && (Models.FitsSqliteInteger(userId) && userId in st.users && Access.IsPlayerCaseless(st.users[userId].role)
                ==> && o.response == Http.SeeOther("/master")
                    && o.store.users.Keys == st.users.Keys - {userId}
                    && o.store.characters.Keys == st.characters.Keys - {userId}
                    && (forall id :: id in o.store.users ==> o.store.users[id] == st.users[id])
                    && (forall id :: id in o.store.characters ==> o.store.characters[id] == st.characters[id]))
  {
  }

  /** A master can never delete themself: their role is not a player's. */
  lemma MasterCannotDeleteSelf(signer: Session.Signer, req: Http.Request, st: Models.Store)
    requires Models.Valid(st)
    requires Access.RequireMasterCaseless(signer, req, st).Some?
    ensures var me := Access.RequireMasterCaseless(signer, req, st).value;
            DeletePlayer(signer, req, st, me.id).store == st
  {
    var me := Access.RequireMasterCaseless(signer, req, st).value;
    assert Text.Lower(me.role) == Models.MasterRole;
    assert Text.Lower(me.role)[0] == 'm';
  }

  function ResetMessage(username: string, temp: string): string {
    "Senha de " + username + " resetada. Nova senha temporária: " + temp
  }

  /**
   * `POST /master/reset-password/{id}`: a player gets a fresh ten-character
   * temporary password, shown to the master once, and must change it at
   * next login; anyone else is left alone. As for deletion, an id SQLite
   * cannot bind answers 500.
   */
  function ResetPlayerPassword(hasher: Session.PassHasher, signer: Session.Signer, req: Http.Request, st: Models.Store,
                               userId: int, draw: nat -> nat, salt: Session.Salt): (o: Http.Outcome)
    requires Models.Valid(st)
    ensures Models.Valid(o.store)
    ensures o.store.users.Keys == st.users.Keys && o.store.characters == st.characters
    ensures forall id :: id in st.users && id != userId ==> o.store.users[id] == st.users[id]
  {
    match Access.RequireMasterCaseless(signer, req, st)
    case None => Http.Outcome(Http.SeeOther("/login"), st)
    case Some(me) =>
      if !Models.FitsSqliteInteger(userId) then Http.Outcome(Http.ServerError, st)
      else match Models.GetUser(st, userId)
      case None => Http.Outcome(Http.SeeOther("/master"), st)
      case Some(u) =>
        if !Access.IsPlayerCaseless(u.role) then Http.Outcome(Http.SeeOther("/master"), st)
        else
          var temp := GenerateTempPassword(draw, TempPasswordLength);
          var st' := Models.UpdateUser(st, u.(passwordHash := hasher.hash(temp, salt), forcePasswordChange := true));
          Http.Outcome(Dashboard(st', me, 200, Http.SuccessNotice(ResetMessage(u.username, temp))), st')
  }

  /**
   * A reset player must change password, and the temporary password shown
   * is ten letters or digits and verifies against the new hash; a missing
   * or non-player target changes nothing, and an id SQLite cannot bind
   * fails with a 500.
   */
  lemma ResetForcesChange(hasher: Session.PassHasher, signer: Session.Signer, req: Http.Request, st: Models.Store,
                          userId: int, draw: nat -> nat, salt: Session.Salt)
    requires Models.Valid(st)
    requires Access.RequireMasterCaseless(signer, req, st).Some?
    requires Session.HasherRoundTrips(hasher, GenerateTempPassword(draw, TempPasswordLength), salt)
    ensures var o := ResetPlayerPassword(hasher, signer, req, st, userId, draw, salt);
            var temp := GenerateTempPassword(draw, TempPasswordLength);
            && (!Models.FitsSqliteInteger(userId) ==> o == Http.Outcome(Http.ServerError, st))
            && (Models.FitsSqliteInteger(userId) && userId in st.users && Access.IsPlayerCaseless(st.users[userId].role)
                ==> && o.store.users[userId].forcePasswordChange
                    && hasher.verify(temp, o.store.users[userId].passwordHash) == Some(true)
                    && o.store.users[userId].role == st.users[userId].role
                    && o.response.body.Page?
                    && o.response.body.notice == Http.SuccessNotice(ResetMessage(st.users[userId].username, temp)))
            && (Models.FitsSqliteInteger(userId) && (userId !in st.users || !Access.IsPlayerCaseless(st.users[userId].role))
                ==> o == Http.Outcome(Http.SeeOther("/master"), st))
  {
  }

  /** Without a master session every master route sends the caller to `/login` and changes nothing. */
  lemma NonMasterChangesNothing(hasher: Session.PassHasher, signer: Session.Signer, req: Http.Request, st: Models.Store,
                                username: string, password: string, userId: int, draw: nat -> nat, salt: Session.Salt)
    requires Models.Valid(st)
    requires Access.RequireMasterCaseless(signer, req, st).None?
    ensures MasterDashboard(signer, req, st) == Http.SeeOther("/login")
    ensures CreatePlayer(hasher, signer, req, st, username, password, salt) == Http.Outcome(Http.SeeOther("/login"), st)
    ensures DeletePlayer(signer, req, st, userId) == Http.Outcome(Http.SeeOther("/login"), st)
    ensures ResetPlayerPassword(hasher, signer, req, st, userId, draw, salt) == Http.Outcome(Http.SeeOther("/login"), st)
  {
  }
}

=== FILE: models.dfy ===
/**
 * The three tables of app/models.py as immutable values: users, their
 * characters (at most one each, deleted with the user) and cards, with the
 * uniqueness and cascade constraints the schema declares as store invariants.
 */
module Models {
  import opened Wrappers
  import Text

  const MasterRole := "master"
  const PlayerRole := "player"

  datatype User = User(id: int, username: string, passwordHash: string, role: string, forcePasswordChange: bool)

  datatype Character = Character(
    id: int,
    userId: int,
    name: string,
    age: string,
    occupation: string,
    level: string,
    affiliation: string,
    personality: string,
    heroism: int,
    agility: int,
    intellect: int,
    strength: int,
    willpower: int,
    vigor: int,
    hp: int,
    heroPoints: int,
    notes: string,
    inventoryText: string,
    skillsText: string)

  const DefaultCharacterName := "NOVO PERSONAGEM"
  const DefaultLevel := "1"
  const DefaultPersonality := "hero"
  const DefaultAttribute := 50
  const DefaultHp := 25
  const DefaultHeroPoints := 5

  /** The personalities a sheet may hold. */
  predicate IsPersonality(p: string) {
    p == "hero" || p == "antihero" || p == "villain"
  }

  predicate InRange(v: int, lo: int, hi: int) {
    lo <= v <= hi
  }

  /** The bounds a character sheet keeps: six attributes in 1..100, hit and hero points in 0..999, a known personality. */
  predicate WithinSheetBounds(c: Character) {
    && InRange(c.heroism, 1, 100)
    && InRange(c.agility, 1, 100)
    && InRange(c.intellect, 1, 100)
    && InRange(c.strength, 1, 100)
    && InRange(c.willpower, 1, 100)
    && InRange(c.vigor, 1, 100)
    && InRange(c.hp, 0, 999)
    && InRange(c.heroPoints, 0, 999)
    && IsPersonality(c.personality)
  }

  /**
   * `Character(user_id=..., name=...)`: a row with only its owner and name
   * given, every other column at its declared default.
   */
  function NewCharacter(id: int, userId: int, name: string): (c: Character)
    ensures WithinSheetBounds(c)
    ensures c.id == id && c.userId == userId && c.name == name
    ensures c.level == "1" && c.personality == "hero"
    ensures c.heroism == c.agility == c.intellect == c.strength == c.willpower == c.vigor == 50
    ensures c.hp == 25 && c.heroPoints == 5
    ensures c.age == c.occupation == c.affiliation == c.notes == c.inventoryText == c.skillsText == ""
  {
    Character(id, userId, name, "", "", DefaultLevel, "", DefaultPersonality,
              DefaultAttribute, DefaultAttribute, DefaultAttribute, DefaultAttribute, DefaultAttribute, DefaultAttribute,
              DefaultHp, DefaultHeroPoints, "", "", "")
  }

  /**
   * Users by primary key, the unique index on `username`, characters by their
   * unique `user_id`, and the next keys the database will hand out.
   */
  datatype Store = Store(
    users: map<int, User>,
    byName: map<string, int>,
    characters: map<int, Character>,
    nextUserId: int,
    nextCharacterId: int)

  const EmptyStore := Store(map[], map[], map[], 1, 1)

  /**
   * The schema's constraints: primary keys, the unique username index,
   * `characters.user_id` unique and referencing an existing user, and keys
   * below the next ones to be issued.
   */
  ghost predicate Valid(st: Store) {
    && 1 <= st.nextUserId && 1 <= st.nextCharacterId
    && (forall id :: id in st.users ==> st.users[id].id == id && 1 <= id < st.nextUserId)
    && (forall n :: n in st.byName ==> st.byName[n] in st.users && st.users[st.byName[n]].username == n)
    && (forall id :: id in st.users ==> st.users[id].username in st.byName && st.byName[st.users[id].username] == id)
    && (forall uid :: uid in st.characters ==> uid in st.users && st.characters[uid].userId == uid)
    && (forall uid :: uid in st.characters ==> 1 <= st.characters[uid].id < st.nextCharacterId)
    && (forall a, b :: a in st.characters && b in st.characters && a != b ==> st.characters[a].id != st.characters[b].id)
  }

  lemma EmptyStoreValid()
    ensures Valid(EmptyStore)
  {
  }

  /** No two users share a username (`unique=True` on `users.username`). */
  lemma UsernamesUnique(st: Store, a: int, b: int)
    requires Valid(st)
    requires a in st.users && b in st.users && a != b
    ensures st.users[a].username != st.users[b].username
  {
    assert st.byName[st.users[a].username] == a;
  }

  /** The range of an SQLite INTEGER: the sqlite3 driver refuses to bind a Python int outside it. */
  const SqliteMinInteger := -0x8000_0000_0000_0000
  const SqliteMaxInteger := 0x7fff_ffff_ffff_ffff

  predicate FitsSqliteInteger(n: int) {
    SqliteMinInteger <= n <= SqliteMaxInteger
  }

  /** `db.get(User, id)`. */
  function GetUser(st: Store, id: int): (r: Option<User>)
    ensures r.Some? <==> id in st.users
    ensures r.Some? ==> r.value == st.users[id]
  {
    if id in st.users then Some(st.users[id]) else None
  }

  /** `query(User).filter(User.username == name).first()`: an exact, case-sensitive match. */
  function FindByName(st: Store, name: string): (r: Option<User>)
    requires Valid(st)
    ensures r.Some? <==> exists id :: id in st.users && st.users[id].username == name
    ensures r.Some? ==> r.value.username == name && r.value.id in st.users && st.users[r.value.id] == r.value
  {
    assert forall id :: id in st.users && st.users[id].username == name ==> name in st.byName;
    if name in st.byName then
      var id := st.byName[name];
      assert id in st.users && st.users[id].username == name;
      Some(st.users[id])
    else None
  }

  /** `query(Character).filter(Character.user_id == uid).first()`. */
  function CharacterOf(st: Store, uid: int): (r: Option<Character>)
    ensures r.Some? <==> uid in st.characters
    ensures r.Some? ==> r.value == st.characters[uid]
  {
    if uid in st.characters then Some(st.characters[uid]) else None
  }

  /** Adding a `User` row with a fresh key; nothing else changes. */
  function InsertUser(st: Store, username: string, passwordHash: string, role: string, force: bool): (r: (Store, int))
    requires Valid(st)
    requires FindByName(st, username).None?
    ensures Valid(r.0)
    ensures r.1 !in st.users && r.1 in r.0.users
    ensures r.0.users[r.1] == User(r.1, username, passwordHash, role, force)
    ensures forall id :: id in st.users ==> id in r.0.users && r.0.users[id] == st.users[id]
    ensures forall id :: id in r.0.users ==> id in st.users || id == r.1
    ensures r.0.characters == st.characters
  {
    var id := st.nextUserId;
    var u := User(id, username, passwordHash, role, force);
    (st.(users := st.users[id := u], byName := st.byName[username := id], nextUserId := id + 1), id)
  }

  /** After an insert, the new name finds the new row and every other name finds what it found before. */
  lemma FindAfterInsert(st: Store, username: string, passwordHash: string, role: string, force: bool, other: string)
    requires Valid(st)
    requires FindByName(st, username).None?
    ensures var (r, id) := InsertUser(st, username, passwordHash, role, force);
            FindByName(r, username) == Some(r.users[id])
            && (other != username ==> FindByName(r, other) == FindByName(st, other))
  {
  }

  /** Writing back a user row under its own key; the username is not touched by any caller. */
  function UpdateUser(st: Store, u: User): (r: Store)
    requires Valid(st)
    requires u.id in st.users && u.username == st.users[u.id].username
    ensures Valid(r)
    ensures r.users.Keys == st.users.Keys && r.users[u.id] == u
    ensures forall id :: id in st.users && id != u.id ==> r.users[id] == st.users[id]
    ensures r.characters == st.characters
  {
    st.(users := st.users[u.id := u])
  }

  /** After writing back a row, its name finds the new row and every other name finds what it found before. */
  lemma FindAfterUpdate(st: Store, u: User, other: string)
    requires Valid(st)
    requires u.id in st.users && u.username == st.users[u.id].username
    ensures FindByName(UpdateUser(st, u), u.username) == Some(u)
    ensures other != u.username ==> FindByName(UpdateUser(st, u), other) == FindByName(st, other)
  {
    if other != u.username && other in st.byName {
      assert st.byName[other] != u.id;
    }
  }

  /** Deleting a user together with its character (the `cascade="all, delete"` relationship). */
  function DeleteUser(st: Store, id: int): (r: Store)
    requires Valid(st)
    requires id in st.users
    ensures Valid(r)
    ensures id !in r.users && id !in r.characters
    ensures r.users.Keys == st.users.Keys - {id}
    ensures forall k :: k in r.users ==> r.users[k] == st.users[k]
    ensures r.characters.Keys == st.characters.Keys - {id}
    ensures forall k :: k in r.characters ==> r.characters[k] == st.characters[k]
  {
    var name := st.users[id].username;
    st.(users := st.users - {id}, byName := st.byName - {name}, characters := st.characters - {id})
  }

  /** Adding the character of a user that has none, with a fresh key. */
  function InsertCharacter(st: Store, uid: int, name: string): (r: Store)
    requires Valid(st)
    requires uid in st.users && uid !in st.characters
    ensures Valid(r)
    ensures r.users == st.users
    ensures r.characters == st.characters[uid := NewCharacter(st.nextCharacterId, uid, name)]
  {
    var c := NewCharacter(st.nextCharacterId, uid, name);
    st.(characters := st.characters[uid := c], nextCharacterId := st.nextCharacterId + 1)
  }

  /** Writing back a character row; its key and owner are not touched by any caller. */
  function UpdateCharacter(st: Store, c: Character): (r: Store)
    requires Valid(st)
    requires c.userId in st.characters && c.id == st.characters[c.userId].id
    ensures Valid(r)
    ensures r.users == st.users
    ensures r.characters.Keys == st.characters.Keys && r.characters[c.userId] == c
    ensures forall k :: k in st.characters && k != c.userId ==> r.characters[k] == st.characters[k]
  {
    st.(characters := st.characters[c.userId := c])
  }

  // ---------------------------------------------------------------------------
  // cards

  datatype Card = Card(
    id: int,
    cardType: string,
    rarity: string,
    classType: Option<string>,
    name: string,
    orderName: string,
    slug: string,
    imagePath: string)

  /** The columns of `uq_card_identity`. */
  datatype CardKey = CardKey(cardType: string, rarity: string, classType: Option<string>, slug: string)

  function KeyOf(c: Card): CardKey {
    CardKey(c.cardType, c.rarity, c.classType, c.slug)
  }

  /** The `cards` table in insertion order, and the next primary key. */
  datatype CardTable = CardTable(rows: seq<Card>, nextId: int)

  /**
   * What the database enforces for `uq_card_identity`: SQL compares NULLs as
   * distinct, so two rows clash only when both have a `class_type`.
   */
  predicate SatisfiesIdentityConstraint(rows: seq<Card>) {
    forall i, j :: 0 <= i < j < |rows| && rows[i].classType.Some? && rows[j].classType.Some?
      ==> KeyOf(rows[i]) != KeyOf(rows[j])
  }

  /** The stronger invariant the importer keeps: no identity occurs twice, NULL class or not. */
  ghost predicate KeysUnique(rows: seq<Card>) {
    forall i, j :: 0 <= i < j < |rows| ==> KeyOf(rows[i]) != KeyOf(rows[j])
  }

  ghost predicate IdsFresh(t: CardTable) {
    && 1 <= t.nextId
    && (forall i :: 0 <= i < |t.rows| ==> 1 <= t.rows[i].id < t.nextId)
    && (forall i, j :: 0 <= i < j < |t.rows| ==> t.rows[i].id != t.rows[j].id)
  }

  lemma KeysUniqueSatisfiesConstraint(rows: seq<Card>)
    requires KeysUnique(rows)
    ensures SatisfiesIdentityConstraint(rows)
  {
  }

  /** NULL class types are why the database constraint is weaker: two enemy cards may share an identity. */
  lemma NullClassNotConstrained(a: Card, b: Card)
    requires KeyOf(a) == KeyOf(b) && a.classType.None?
    ensures SatisfiesIdentityConstraint([a, b]) && !KeysUnique([a, b])
  {
    assert KeyOf([a, b][0]) == KeyOf([a, b][1]);
  }
}

=== FILE: player_routes.dfy ===
/**
 * The character-sheet routes of app/routers/player.py: a player's own sheet
 * and its update, and the master's view and update of a player's sheet.
 * Only the first `POST /player/{user_id}/update` handler is modelled: the
 * framework routes every such request to it.
 */
module PlayerRoutes {
  import opened Wrappers
  import Text
  import Decimal
  import Models
  import Http
  import Session
  import Access
  import Sheet

  /**
   * The form fields of the two update routes, each defaulted by FastAPI
   * when absent (`Form("")`, `Form("hero")`, `Form(50)`, `Form(25)`, `Form(5)`),
   * the integers already parsed.
   */
  datatype SheetFields = SheetFields(
    name: string,
    age: string,
    occupation: string,
    level: string,
    affiliation: string,
    personality: string,
    heroism: int,
    agility: int,
    intellect: int,
    strength: int,
    willpower: int,
    vigor: int,
    hp: int,
    heroPoints: int,
    notes: string,
    inventoryText: string,
    skillsText: string)

  /** The dict the routes hand to `_apply_character_form`: every key present. */
  function AsForm(f: SheetFields): Sheet.Form {
    Sheet.Form(Some(f.name), Some(f.age), Some(f.occupation), Some(f.level), Some(f.affiliation), Some(f.personality),
               Some(f.heroism), Some(f.agility), Some(f.intellect), Some(f.strength), Some(f.willpower), Some(f.vigor),
               Some(f.hp), Some(f.heroPoints), Some(f.notes), Some(f.inventoryText), Some(f.skillsText))
  }

  /** `GET /player`: the caller's own sheet, created on first visit; masters are sent to their dashboard. */
  function PlayerSheet(signer: Session.Signer, req: Http.Request, st: Models.Store): (o: Http.Outcome)
    requires Models.Valid(st)
    ensures Models.Valid(o.store)
    ensures o.store.users == st.users
  {
    match Access.LoggedUser(signer, req, st)
    case None => Http.Outcome(Http.SeeOther("/login"), st)
    case Some(me) =>
      if Access.IsMasterCaseless(me.role) then Http.Outcome(Http.SeeOther("/master"), st)
      else
        var (st', c) := Sheet.GetOrCreateCharacter(st, me);
        Http.Outcome(Http.Render(200, Http.PlayerSheet(me, c, false), Http.NoNotice), st')
  }

  /** `POST /player/update`: the form applied to the caller's own character. */
  function PlayerUpdate(signer: Session.Signer, req: Http.Request, st: Models.Store, fields: SheetFields): (o: Http.Outcome)
    requires Models.Valid(st)
    ensures Models.Valid(o.store)
    ensures o.store.users == st.users
  {
    match Access.LoggedUser(signer, req, st)
    case None => Http.Outcome(Http.SeeOther("/login"), st)
    case Some(me) =>
      if Access.IsMasterCaseless(me.role) then Http.Outcome(Http.SeeOther("/master"), st)
      else
        var (st1, c) := Sheet.GetOrCreateCharacter(st, me);
        Http.Outcome(Http.SeeOther("/player"), Models.UpdateCharacter(st1, Sheet.ApplyCharacterForm(c, AsForm(fields))))
  }

  /**
   * Anonymous callers go to `/login` and masters to `/master`; neither
   * creates nor changes a character.
   */
  lemma OwnSheetRoutesGuarded(signer: Session.Signer, req: Http.Request, st: Models.Store, fields: SheetFields)
    requires Models.Valid(st)
    ensures Access.LoggedUser(signer, req, st).None?
            ==> PlayerSheet(signer, req, st) == Http.Outcome(Http.SeeOther("/login"), st)
                && PlayerUpdate(signer, req, st, fields) == Http.Outcome(Http.SeeOther("/login"), st)
    ensures Access.LoggedUser(signer, req, st).Some? && Access.IsMasterCaseless(Access.LoggedUser(signer, req, st).value.role)
            ==> PlayerSheet(signer, req, st) == Http.Outcome(Http.SeeOther("/master"), st)
                && PlayerUpdate(signer, req, st, fields) == Http.Outcome(Http.SeeOther("/master"), st)
  {
  }

  /**
   * A player's update changes only the player's own character, keeps it
   * within the sheet's bounds, and leaves every other character as it was.
   */
  lemma UpdateTouchesOnlyOwnSheet(signer: Session.Signer, req: Http.Request, st: Models.Store, fields: SheetFields)
    requires Models.Valid(st)
    requires Access.LoggedUser(signer, req, st).Some? && !Access.IsMasterCaseless(Access.LoggedUser(signer, req, st).value.role)
    ensures var me := Access.LoggedUser(signer, req, st).value;
            var o := PlayerUpdate(signer, req, st, fields);
            && o.response == Http.SeeOther("/player")
            && o.store.characters.Keys == st.characters.Keys + {me.id}
            && Models.WithinSheetBounds(o.store.characters[me.id])
            && (forall k :: k in st.characters && k != me.id ==> o.store.characters[k] == st.characters[k])
  {
  }

  /** The target of the master's sheet routes: an existing user whose lower-cased role is `"player"`. */
  function PlayerTarget(st: Models.Store, userId: int): (r: Option<Models.User>)
    ensures r.Some? <==> userId in st.users && Access.IsPlayerCaseless(st.users[userId].role)
    ensures r.Some? ==> r.value == st.users[userId]
  {
    match Models.GetUser(st, userId)
    case None => None
    case Some(u) => if Access.IsPlayerCaseless(u.role) then Some(u) else None
  }

  /**
   * `GET /player/{user_id}`: a master views a player's sheet, creating it if
   * missing; an id SQLite cannot bind answers 500.
   */
  function PlayerSheetForMaster(signer: Session.Signer, req: Http.Request, st: Models.Store, userId: int): (o: Http.Outcome)
    requires Models.Valid(st)
    ensures Models.Valid(o.store)
    ensures o.store.users == st.users
  {
    match Access.RequireMasterCaseless(signer, req, st)
    case None => Http.Outcome(Http.SeeOther("/login"), st)
    case Some(_) =>
      if !Models.FitsSqliteInteger(userId) then Http.Outcome(Http.ServerError, st)
      else match PlayerTarget(st, userId)
      case None => Http.Outcome(Http.SeeOther("/master"), st)
      case Some(u) =>
        var (st', c) := Sheet.GetOrCreateCharacter(st, u);
        Http.Outcome(Http.Render(200, Http.PlayerSheet(u, c, true), Http.NoNotice), st')
  }

  /** `POST /player/{user_id}/update`: a master applies the form to a player's character, then returns to that sheet. */
  function PlayerUpdateForMaster(signer: Session.Signer, req: Http.Request, st: Models.Store, userId: int, fields: SheetFields): (o: Http.Outcome)
    requires Models.Valid(st)
    ensures Models.Valid(o.store)
    ensures o.store.users == st.users
  {
    match Access.RequireMasterCaseless(signer, req, st)
    case None => Http.Outcome(Http.SeeOther("/login"), st)
    case Some(_) =>
      if !Models.FitsSqliteInteger(userId) then Http.Outcome(Http.ServerError, st)
      else match PlayerTarget(st, userId)
      case None => Http.Outcome(Http.SeeOther("/master"), st)
      case Some(u) =>
        var (st1, c) := Sheet.GetOrCreateCharacter(st, u);
        Http.Outcome(Http.SeeOther("/player/" + Decimal.Format(userId)),
                     Models.UpdateCharacter(st1, Sheet.ApplyCharacterForm(c, AsForm(fields))))
  }

  /**
   * The master's sheet routes send non-masters to `/login`, fail with a 500
   * on an id SQLite cannot bind, and send a missing or non-player target to
   * `/master`, changing nothing; otherwise only the target's character
   * changes.
   */
  lemma MasterSheetRoutesGuarded(signer: Session.Signer, req: Http.Request, st: Models.Store, userId: int, fields: SheetFields)
    requires Models.Valid(st)
    ensures Access.RequireMasterCaseless(signer, req, st).None?
            ==> PlayerSheetForMaster(signer, req, st, userId) == Http.Outcome(Http.SeeOther("/login"), st)
                && PlayerUpdateForMaster(signer, req, st, userId, fields) == Http.Outcome(Http.SeeOther("/login"), st)
    ensures Access.RequireMasterCaseless(signer, req, st).Some? && !Models.FitsSqliteInteger(userId)
            ==> PlayerSheetForMaster(signer, req, st, userId) == Http.Outcome(Http.ServerError, st)
                && PlayerUpdateForMaster(signer, req, st, userId, fields) == Http.Outcome(Http.ServerError, st)
    ensures Access.RequireMasterCaseless(signer, req, st).Some? && Models.FitsSqliteInteger(userId) && PlayerTarget(st, userId).None?
            ==> PlayerSheetForMaster(signer, req, st, userId) == Http.Outcome(Http.SeeOther("/master"), st)
                && PlayerUpdateForMaster(signer, req, st, userId, fields) == Http.Outcome(Http.SeeOther("/master"), st)
    ensures Access.RequireMasterCaseless(signer, req, st).Some? && Models.FitsSqliteInteger(userId) && PlayerTarget(st, userId).Some?
            ==> var o := PlayerUpdateForMaster(signer, req, st, userId, fields);
                && o.response == Http.SeeOther("/player/" + Decimal.Format(userId))
                && o.store.characters.Keys == st.characters.Keys + {userId}
                && (forall k :: k in st.characters && k != userId ==> o.store.characters[k] == st.characters[k])
  {
  }

  /** A master's own account is never a target: the master routes cannot edit the master's sheet. */
  lemma MasterIsNeverATarget(signer: Session.Signer, req: Http.Request, st: Models.Store)
    requires Models.Valid(st)
    requires Access.RequireMasterCaseless(signer, req, st).Some?
    ensures PlayerTarget(st, Access.RequireMasterCaseless(signer, req, st).value.id).None?
  {
    var me := Access.RequireMasterCaseless(signer, req, st).value;
    assert st.users[me.id] == me;
    assert Text.Lower(me.role)[0] == Models.MasterRole[0] != Models.PlayerRole[0];
  }
}

=== FILE: seed.dfy ===
/**
 * Seeding the two initial accounts (app/seed.py): an insert-or-update keyed
 * by the trimmed username, using the local PBKDF2 digest of module `Digest`.
 *
 * `secrets.token_bytes(16)` is a parameter `salt`; the environment variables
 * are the fields of `SeedEnv`, absent ones taking the documented defaults.
 */
module Seed {
  import opened Wrappers
  import Text
  import Models
  import Digest
  import Hex

  type Salt = s: seq<Hex.byte> | |s| == Digest.SaltLength witness seq(16, _ => 0)

  /** `hash_password(password)` with the default iteration count. */
  function Hash(kdf: Digest.Kdf, password: string, salt: Salt): string {
    Digest.HashPassword(kdf, password, salt, Digest.DefaultIterations)
  }

  /** The user with the given name is as an upsert of it would leave it. */
  ghost predicate Settled(kdf: Digest.Kdf, st: Models.Store, username: string, password: string, role: string)
    requires Models.Valid(st)
  {
    var name := Text.Strip(username);
    name == "" ||
      (Models.FindByName(st, name).Some?
       && Models.FindByName(st, name).value.role == role
       && (password == "" || Digest.VerifyPassword(kdf, password, Models.FindByName(st, name).value.passwordHash)))
  }

  /**
   * `_upsert_user`: nothing for a blank name; a new user with the given role
   * and flag for an unknown one; otherwise the role is set, and the password
   * and flag are replaced only when a non-empty password does not already verify.
   */
  function UpsertUser(kdf: Digest.Kdf, st: Models.Store, username: string, password: string, role: string, force: bool, salt: Salt): (r: Models.Store)
    requires Models.Valid(st)
    ensures Models.Valid(r)
    ensures r.characters == st.characters
    ensures Settled(kdf, r, username, password, role)
  {
    var name := Text.Strip(username);
    if name == "" then st
    else
      match Models.FindByName(st, name)
      case None =>
        Digest.VerifyHashed(kdf, password, salt, Digest.DefaultIterations);
        Models.InsertUser(st, name, Hash(kdf, password, salt), role, force).0
      case Some(u) =>
        var withRole := if u.role != role then u.(role := role) else u;
        var updated :=
          if password != "" && !Digest.VerifyPassword(kdf, password, u.passwordHash) then
            withRole.(passwordHash := Hash(kdf, password, salt), forcePasswordChange := force)
          else withRole;
        Digest.VerifyHashed(kdf, password, salt, Digest.DefaultIterations);
        Models.UpdateUser(st, updated)
  }

  /** A blank or all-whitespace username changes nothing. */
  lemma BlankUsernameIgnored(kdf: Digest.Kdf, st: Models.Store, username: string, password: string, role: string, force: bool, salt: Salt)
    requires Models.Valid(st)
    requires forall i :: 0 <= i < |username| ==> Text.IsSpace(username[i])
    ensures UpsertUser(kdf, st, username, password, role, force, salt) == st
  {
  }

  /**
   * An unknown name is inserted once, trimmed, with exactly the given role
   * and flag and a digest the password verifies against; no other user changes.
   */
  lemma NewUserInserted(kdf: Digest.Kdf, st: Models.Store, username: string, password: string, role: string, force: bool, salt: Salt)
    requires Models.Valid(st)
    requires Text.Strip(username) != "" && Models.FindByName(st, Text.Strip(username)).None?
    ensures var r := UpsertUser(kdf, st, username, password, role, force, salt);
            && Models.FindByName(r, Text.Strip(username)).Some?
            && var u := Models.FindByName(r, Text.Strip(username)).value;
            && u.id !in st.users
            && u.role == role && u.forcePasswordChange == force
            && Digest.VerifyPassword(kdf, password, u.passwordHash)
            && r.users.Keys == st.users.Keys + {u.id}
            && (forall id :: id in st.users ==> r.users[id] == st.users[id])
  {
    var name := Text.Strip(username);
    Digest.VerifyHashed(kdf, password, salt, Digest.DefaultIterations);
    Models.FindAfterInsert(st, name, Hash(kdf, password, salt), role, force, name);
  }

  /**
   * For a known name the role always ends as given, and the digest and flag
   * change only when a non-empty password does not verify against the
   * stored digest; the id, name and every other user stay as they were.
   */
  lemma ExistingUserUpdated(kdf: Digest.Kdf, st: Models.Store, username: string, password: string, role: string, force: bool, salt: Salt)
    requires Models.Valid(st)
    requires Text.Strip(username) != ""
    requires Models.FindByName(st, Text.Strip(username)).Some?
    ensures var u := Models.FindByName(st, Text.Strip(username)).value;
            var r := UpsertUser(kdf, st, username, password, role, force, salt);
            var rehash := password != "" && !Digest.VerifyPassword(kdf, password, u.passwordHash);
            && r.users.Keys == st.users.Keys
            && r.users[u.id].username == u.username
            && r.users[u.id].role == role
            && (rehash ==> r.users[u.id].forcePasswordChange == force && Digest.VerifyPassword(kdf, password, r.users[u.id].passwordHash))
            && (!rehash ==> r.users[u.id].passwordHash == u.passwordHash && r.users[u.id].forcePasswordChange == u.forcePasswordChange)
            && (forall id :: id in st.users && id != u.id ==> r.users[id] == st.users[id])
  {
    Digest.VerifyHashed(kdf, password, salt, Digest.DefaultIterations);
  }

  /** Upserting an account that is already settled changes nothing, whatever salt is drawn. */
  lemma SettledUpsertIsNoop(kdf: Digest.Kdf, st: Models.Store, username: string, password: string, role: string, force: bool, salt: Salt)
    requires Models.Valid(st)
    requires Settled(kdf, st, username, password, role)
    ensures UpsertUser(kdf, st, username, password, role, force, salt) == st
  {
    var name := Text.Strip(username);
    if name != "" {
      var u := Models.FindByName(st, name).value;
      assert st.users[u.id := u] == st.users;
    }
  }

  /** An upsert leaves every other name's account untouched. */
  lemma UpsertKeepsOthers(kdf: Digest.Kdf, st: Models.Store, username: string, password: string, role: string, force: bool, salt: Salt, other: string)
    requires Models.Valid(st)
    requires Text.Strip(other) != Text.Strip(username)
    ensures Models.FindByName(UpsertUser(kdf, st, username, password, role, force, salt), Text.Strip(other))
            == Models.FindByName(st, Text.Strip(other))
  {
    var name := Text.Strip(username);
    var n := Text.Strip(other);
    var r := UpsertUser(kdf, st, username, password, role, force, salt);
    if name != "" {
      match Models.FindByName(st, name)
      case None =>
        var (r', id) := Models.InsertUser(st, name, Hash(kdf, password, salt), role, force);
        assert r == r';
        assert n in r.byName <==> n in st.byName;
      case Some(u) =>
        assert n in r.byName <==> n in st.byName;
        if n in st.byName {
          assert st.byName[n] != u.id;
        }
    }
  }

  // ---------------------------------------------------------------------------
  // seed_users

  /** `SEED_ADMIN_USER`, `SEED_ADMIN_PASS`, `SEED_PLAYER_USER`, `SEED_PLAYER_PASS`, when set. */
  datatype SeedEnv = SeedEnv(adminUser: Option<string>, adminPass: Option<string>, playerUser: Option<string>, playerPass: Option<string>)

  function AdminUser(env: SeedEnv): string { env.adminUser.GetOr("master") }
  function AdminPass(env: SeedEnv): string { env.adminPass.GetOr("suaSenha") }
  function PlayerUser(env: SeedEnv): string { env.playerUser.GetOr("player") }
  function PlayerPass(env: SeedEnv): string { env.playerPass.GetOr("suaSenha") }

  /** `seed_users`: the admin account as master, then the player account as player, neither forced to change password. */
  function SeedUsers(kdf: Digest.Kdf, st: Models.Store, env: SeedEnv, adminSalt: Salt, playerSalt: Salt): (r: Models.Store)
    requires Models.Valid(st)
    ensures Models.Valid(r)
    ensures Settled(kdf, r, PlayerUser(env), PlayerPass(env), Models.PlayerRole)
  {
    var afterAdmin := UpsertUser(kdf, st, AdminUser(env), AdminPass(env), Models.MasterRole, false, adminSalt);
    UpsertUser(kdf, afterAdmin, PlayerUser(env), PlayerPass(env), Models.PlayerRole, false, playerSalt)
  }

  /**
   * Seeding twice is seeding once, whatever salts the second run draws,
   * provided the two configured usernames differ once trimmed (when they
   * coincide, the two upserts fight over one account).
   */
  lemma SeedUsersIdempotent(kdf: Digest.Kdf, st: Models.Store, env: SeedEnv, s1: Salt, s2: Salt, s3: Salt, s4: Salt)
    requires Models.Valid(st)
    requires Text.Strip(AdminUser(env)) != Text.Strip(PlayerUser(env))
    ensures SeedUsers(kdf, SeedUsers(kdf, st, env, s1, s2), env, s3, s4) == SeedUsers(kdf, st, env, s1, s2)
  {
    var a := UpsertUser(kdf, st, AdminUser(env), AdminPass(env), Models.MasterRole, false, s1);
    var b := UpsertUser(kdf, a, PlayerUser(env), PlayerPass(env), Models.PlayerRole, false, s2);
    UpsertKeepsOthers(kdf, a, PlayerUser(env), PlayerPass(env), Models.PlayerRole, false, s2, AdminUser(env));
    assert Settled(kdf, b, AdminUser(env), AdminPass(env), Models.MasterRole);
    SettledUpsertIsNoop(kdf, b, AdminUser(env), AdminPass(env), Models.MasterRole, false, s3);
    SettledUpsertIsNoop(kdf, b, PlayerUser(env), PlayerPass(env), Models.PlayerRole, false, s4);
  }

  /** The default usernames `master` and `player` differ, so seeding with an empty environment is idempotent. */
  lemma DefaultSeedIdempotent(kdf: Digest.Kdf, st: Models.Store, s1: Salt, s2: Salt, s3: Salt, s4: Salt)
    requires Models.Valid(st)
    ensures var env := SeedEnv(None, None, None, None);
            SeedUsers(kdf, SeedUsers(kdf, st, env, s1, s2), env, s3, s4) == SeedUsers(kdf, st, env, s1, s2)
  {
    var env := SeedEnv(None, None, None, None);
    assert Text.Strip("master") == "master";
    assert Text.Strip("player") == "player";
    SeedUsersIdempotent(kdf, st, env, s1, s2, s3, s4);
  }
}

=== FILE: session.dfy ===
/**
 * Sessions and passwords as app/auth.py handles them: a signed, timestamped
 * `rpg_session` cookie carrying the user id, the secure-flag rule for
 * deployments behind a proxy, and the passlib hasher the routers use.
 *
 * The itsdangerous serializer and passlib's `CryptContext` are parameters;
 * the round trips they promise appear as preconditions of the lemmas that
 * rely on them.
 */
module Session {
  import opened Wrappers
  import Text
  import Hex
  import Http

  const CookieName := "rpg_session"
  const CookiePath := "/"
  const SameSite := "lax"
  /** Fourteen days, both the cookie's lifetime and the oldest token `read_session` accepts. */
  const SessionMaxAge := 60 * 60 * 24 * 14

  /**
   * `URLSafeTimedSerializer(APP_SECRET, salt="rpg-session")`: `dumps(uid, t)`
   * signs `{"user_id": uid}` at time `t`; `loads(token, now, maxAge)` gives the
   * user id back, or `None` for a bad signature or a token older than `maxAge`
   * (`SignatureExpired` is a `BadSignature`).
   */
  datatype Signer = Signer(dumps: (int, int) -> string, loads: (string, int, int) -> Option<int>)

  /** The serializer's promise for one token: it is not empty, and read back within its age limit it yields what was signed. */
  ghost predicate SignerRoundTrips(signer: Signer, uid: int, issuedAt: int, now: int) {
    && signer.dumps(uid, issuedAt) != ""
    && (issuedAt <= now <= issuedAt + SessionMaxAge ==> signer.loads(signer.dumps(uid, issuedAt), now, SessionMaxAge) == Some(uid))
  }

  type Salt = seq<Hex.byte>

  /**
   * passlib's `CryptContext(schemes=["pbkdf2_sha256"])`: `hash` salts and
   * hashes a password; `verify` answers, or gives `None` where passlib raises
   * because it cannot identify the stored hash.
   */
  datatype PassHasher = PassHasher(hash: (string, Salt) -> string, verify: (string, string) -> Option<bool>)

  /** passlib's promise for one password: it verifies against a hash made from it. */
  ghost predicate HasherRoundTrips(hasher: PassHasher, password: string, salt: Salt) {
    hasher.verify(password, hasher.hash(password, salt)) == Some(true)
  }

  // ---------------------------------------------------------------------------
  // transport

  /**
   * `_is_https`: a non-empty `X-Forwarded-Proto` decides alone, by its first
   * comma-separated element, trimmed and lower-cased; otherwise the URL scheme does.
   */
  function IsHttps(req: Http.Request): (b: bool)
    ensures req.forwardedProto.None? || req.forwardedProto == Some("") ==> (b <==> Text.Lower(req.scheme) == "https")
  {
    if req.forwardedProto.Some? && req.forwardedProto.value != "" then
      Text.Lower(Text.Strip(Text.FirstField(req.forwardedProto.value, ','))) == "https"
    else
      Text.Lower(req.scheme) == "https"
  }

  /** A non-empty forwarded-proto header overrides the scheme the server saw. */
  lemma HeaderOverridesScheme(req: Http.Request, scheme: string)
    requires req.forwardedProto.Some? && req.forwardedProto.value != ""
    ensures IsHttps(req.(scheme := scheme)) == IsHttps(req)
  {
  }

  /** Only the first element of a proxy chain counts: whatever follows the first comma is ignored. */
  lemma FirstHopDecides(req: Http.Request, first: string, rest: string)
    requires ',' !in first && first != ""
    ensures IsHttps(req.(forwardedProto := Some(first + [','] + rest)))
            == IsHttps(req.(forwardedProto := Some(first)))
  {
    Text.FirstFieldOfJoin(first, rest, ',');
    assert Text.FirstField(first, ',') == first by {
      Text.FirstFieldOfJoin(first, [], ',');
      assert first + [','] + [] == first + [','];
      FirstFieldOfPrefix(first);
    }
  }

  lemma {:induction false} FirstFieldOfPrefix(s: string)
    requires ',' !in s
    ensures Text.FirstField(s, ',') == s
  {
    if |s| > 0 {
      FirstFieldOfPrefix(s[1..]);
    }
  }

  /** `X-Forwarded-Proto: https, <anything>` counts as HTTPS, `https, http` among them. */
  lemma HttpsFirstInChain(req: Http.Request, rest: string)
    ensures IsHttps(req.(forwardedProto := Some("https" + [','] + rest)))
  {
    Text.FirstFieldOfJoin("https", rest, ',');
    HttpsIsNormal();
  }

  /** `X-Forwarded-Proto: http, <anything>` does not, `http, https` among them: a later hop is never consulted. */
  lemma HttpFirstInChain(req: Http.Request, rest: string)
    ensures !IsHttps(req.(forwardedProto := Some("http" + [','] + rest)))
  {
    Text.FirstFieldOfJoin("http", rest, ',');
    assert |Text.Lower(Text.Strip("http"))| <= 4;
  }

  /**
   * The first hop decides by its trimmed, lower-cased text alone: padding
   * and capitals do not matter, and nothing else of the header does.
   */
  lemma FirstHopNormalised(req: Http.Request, first: string, rest: string)
    requires ',' !in first
    ensures IsHttps(req.(forwardedProto := Some(first + [','] + rest))) <==> Text.Lower(Text.Strip(first)) == "https"
  {
    Text.FirstFieldOfJoin(first, rest, ',');
  }

  /** `X-Forwarded-Proto: " HTTPS ,<anything>"` counts as HTTPS. */
  lemma PaddedUpperHttpsFirst(req: Http.Request, rest: string)
    ensures IsHttps(req.(forwardedProto := Some(" HTTPS " + [','] + rest)))
  {
    FirstHopNormalised(req, " HTTPS ", rest);
    PaddedUpperHttpsIsNormal();
  }

  lemma PaddedUpperHttpsIsNormal()
    ensures Text.Lower(Text.Strip(" HTTPS ")) == "https"
  {
    assert " HTTPS " == [' '] + "HTTPS" + [' '];
    Text.StripPadded("HTTPS");
    UpperHttpsLowers();
  }

  lemma UpperHttpsLowers()
    ensures Text.Lower("HTTPS") == "https"
  {
    var l := Text.Lower("HTTPS");
    assert l[0] == 'h' && l[1] == 't' && l[2] == 't' && l[3] == 'p' && l[4] == 's';
  }

  /** `"https"` is already trimmed and lower-case. */
  lemma HttpsIsNormal()
    ensures Text.Lower(Text.Strip("https")) == "https"
  {
    assert Text.Strip("https") == "https";
    assert Text.IsLowered("https");
    Text.LowerOfLowered("https");
  }

  // ---------------------------------------------------------------------------
  // the session cookie

  /**
   * `set_session`: a token for `uid` signed at the request's time, in an
   * HTTP-only, same-site-lax cookie on `/` that lives fourteen days and is
   * marked secure exactly when the request came over HTTPS.
   */
  function SetSession(signer: Signer, req: Http.Request, uid: int): (op: Http.CookieOp)
    ensures op.SetCookie?
    ensures op.cookie.name == CookieName && op.cookie.path == CookiePath
    ensures op.cookie.httpOnly && op.cookie.sameSite == SameSite && op.cookie.maxAge == 1209600
    ensures op.cookie.secure == IsHttps(req)
  {
    Http.SetCookie(Http.Cookie(CookieName, signer.dumps(uid, req.now), true, SameSite, IsHttps(req), SessionMaxAge, CookiePath))
  }

  /** `clear_session`: delete the session cookie on the path it was set on. */
  function ClearSession(): (op: Http.CookieOp)
    ensures op.DeleteCookie?
  {
    Http.DeleteCookie(CookieName, CookiePath)
  }

  /** Logging out removes exactly the cookie a login writes. */
  lemma ClearMatchesSet(signer: Signer, req: Http.Request, uid: int)
    ensures ClearSession().name == SetSession(signer, req, uid).cookie.name
    ensures ClearSession().path == SetSession(signer, req, uid).cookie.path
  {
  }

  /**
   * `read_session`: no cookie or an empty one gives `None`, as does a token
   * with a bad signature or older than fourteen days; otherwise the signed id.
   */
  function ReadSession(signer: Signer, req: Http.Request): (r: Option<int>)
    ensures req.sessionCookie.None? || req.sessionCookie == Some("") ==> r.None?
    ensures r.Some? ==> req.sessionCookie.Some? && signer.loads(req.sessionCookie.value, req.now, SessionMaxAge) == r
  {
    match req.sessionCookie
    case None => None
    case Some(token) =>
      if token == "" then None else signer.loads(token, req.now, SessionMaxAge)
  }

  /**
   * The cookie a browser sends after a response: what the response set for
   * `rpg_session` on `/`, nothing after it was deleted, else what it had.
   */
  function NextCookie(op: Http.CookieOp, current: Option<string>): (r: Option<string>)
  {
    match op
    case KeepCookies => current
    case SetCookie(c) => if c.name == CookieName && c.path == CookiePath then Some(c.value) else current
    case DeleteCookie(name, path) => if name == CookieName && path == CookiePath then None else current
  }

  /** Round trip: a session set for `uid` is read back as `uid` until it is fourteen days old. */
  lemma SessionRoundTrip(signer: Signer, req: Http.Request, uid: int, later: Http.Request)
    requires later.sessionCookie == NextCookie(SetSession(signer, req, uid), req.sessionCookie)
    requires req.now <= later.now <= req.now + SessionMaxAge
    requires SignerRoundTrips(signer, uid, req.now, later.now)
    ensures ReadSession(signer, later) == Some(uid)
  {
    assert later.sessionCookie == Some(signer.dumps(uid, req.now));
  }

  /**
   * The serializer's promise the other way: a token read back after more
   * than its age limit is refused.
   */
  ghost predicate SignerExpires(signer: Signer, uid: int, issuedAt: int, now: int) {
    now > issuedAt + SessionMaxAge ==> signer.loads(signer.dumps(uid, issuedAt), now, SessionMaxAge).None?
  }

  /** A session read more than fourteen days after it was set is gone. */
  lemma SessionExpires(signer: Signer, req: Http.Request, uid: int, later: Http.Request)
    requires later.sessionCookie == NextCookie(SetSession(signer, req, uid), req.sessionCookie)
    requires later.now > req.now + SessionMaxAge
    requires SignerExpires(signer, uid, req.now, later.now)
    ensures ReadSession(signer, later).None?
  {
    assert later.sessionCookie == Some(signer.dumps(uid, req.now));
  }

  /** A token the serializer refuses, for a bad signature or its age, gives no session. */
  lemma RefusedTokenIsAnonymous(signer: Signer, req: Http.Request)
    requires req.sessionCookie.Some? && signer.loads(req.sessionCookie.value, req.now, SessionMaxAge).None?
    ensures ReadSession(signer, req).None?
  {
  }

  /** After the session is cleared, the next request is anonymous. */
  lemma ClearedSessionIsAnonymous(signer: Signer, current: Option<string>, later: Http.Request)
    requires later.sessionCookie == NextCookie(ClearSession(), current)
    ensures ReadSession(signer, later).None?
  {
  }
}

=== FILE: sheet.dfy ===
/**
 * The character-sheet helpers of app/routers/player.py: clamping, applying a
 * submitted form to a character, and finding or creating a user's character.
 */
module Sheet {
  import opened Wrappers
  import Text
  import Models

  /** `_clamp(v, lo, hi)`, i.e. `max(lo, min(hi, v))`. */
  function Clamp(v: int, lo: int, hi: int): (r: int)
    ensures lo <= hi ==> lo <= r <= hi
    ensures lo <= v <= hi ==> r == v
    ensures lo <= hi && v < lo ==> r == lo
    ensures lo <= hi && hi < v ==> r == hi
    ensures hi < lo ==> r == lo
  {
    var m := if hi < v then hi else v;
    if lo < m then m else lo
  }

  /** Clamping a clamped value changes nothing. */
  lemma ClampIdempotent(v: int, lo: int, hi: int)
    ensures Clamp(Clamp(v, lo, hi), lo, hi) == Clamp(v, lo, hi)
  {
  }

  /**
   * The `form` dict `_apply_character_form` reads: `None` for a key that is
   * missing. A text key holding `None` reads like a missing one (`or ""`);
   * an integer key holding `None` would make `int()` raise, and no route
   * sends one.
   */
  datatype Form = Form(
    name: Option<string>,
    age: Option<string>,
    occupation: Option<string>,
    level: Option<string>,
    affiliation: Option<string>,
    personality: Option<string>,
    heroism: Option<int>,
    agility: Option<int>,
    intellect: Option<int>,
    strength: Option<int>,
    willpower: Option<int>,
    vigor: Option<int>,
    hp: Option<int>,
    heroPoints: Option<int>,
    notes: Option<string>,
    inventoryText: Option<string>,
    skillsText: Option<string>)

  /** `personality if personality in ("hero", "antihero", "villain") else "hero"`. */
  function Personality(p: string): (r: string)
    ensures Models.IsPersonality(r)
    ensures Models.IsPersonality(p) ==> r == p
  {
    if Models.IsPersonality(p) then p else Models.DefaultPersonality
  }

  function Attribute(v: Option<int>): int {
    Clamp(v.GetOr(Models.DefaultAttribute), 1, 100)
  }

  /**
   * `_apply_character_form(c, form)`: name and level replaced only by a
   * non-blank trimmed value; age, occupation and affiliation always
   * overwritten, trimmed; the personality whitelisted; the six attributes
   * clamped to 1..100 and the two pools to 0..999, missing keys taking the
   * column defaults; the three free texts stored verbatim.
   */
  function ApplyCharacterForm(c: Models.Character, f: Form): (r: Models.Character)
    ensures Models.WithinSheetBounds(r)
    ensures r.id == c.id && r.userId == c.userId
  {
    var name := Text.Strip(Text.OrElse(f.name, ""));
    var level := Text.Strip(Text.OrElse(f.level, ""));
    c.(
      name := if name != "" then name else c.name,
      age := Text.Strip(Text.OrElse(f.age, "")),
      occupation := Text.Strip(Text.OrElse(f.occupation, "")),
      level := if level != "" then level else c.level,
      affiliation := Text.Strip(Text.OrElse(f.affiliation, "")),
      personality := Personality(Text.Strip(Text.OrElse(f.personality, Models.DefaultPersonality))),
      heroism := Attribute(f.heroism),
      agility := Attribute(f.agility),
      intellect := Attribute(f.intellect),
      strength := Attribute(f.strength),
      willpower := Attribute(f.willpower),
      vigor := Attribute(f.vigor),
      hp := Clamp(f.hp.GetOr(Models.DefaultHp), 0, 999),
      heroPoints := Clamp(f.heroPoints.GetOr(Models.DefaultHeroPoints), 0, 999),
      notes := Text.OrElse(f.notes, ""),
      inventoryText := Text.OrElse(f.inventoryText, ""),
      skillsText := Text.OrElse(f.skillsText, ""))
  }

  /** Submitting the same form twice leaves the sheet as submitting it once did. */
  lemma ApplyIdempotent(c: Models.Character, f: Form)
    ensures ApplyCharacterForm(ApplyCharacterForm(c, f), f) == ApplyCharacterForm(c, f)
  {
  }

  /**
   * What a submitted form leaves on the sheet: a non-blank name or level,
   * trimmed, else the old one; age, occupation and affiliation trimmed,
   * blank or not; a whitelisted personality as given, anything else
   * `"hero"`; the free texts verbatim.
   */
  lemma SubmittedValuesKept(c: Models.Character, f: Form)
    ensures var r := ApplyCharacterForm(c, f);
            && (f.name.Some? && Text.Strip(f.name.value) != "" ==> r.name == Text.Strip(f.name.value))
            && (f.level.Some? && Text.Strip(f.level.value) != "" ==> r.level == Text.Strip(f.level.value))
            && (f.age.Some? ==> r.age == Text.Strip(f.age.value))
            && (f.occupation.Some? ==> r.occupation == Text.Strip(f.occupation.value))
            && (f.affiliation.Some? ==> r.affiliation == Text.Strip(f.affiliation.value))
            && (f.personality.Some? && Models.IsPersonality(Text.Strip(f.personality.value)) ==> r.personality == Text.Strip(f.personality.value))
            && (f.personality.Some? && f.personality.value != "" && !Models.IsPersonality(Text.Strip(f.personality.value))
                ==> r.personality == Models.DefaultPersonality)
            && (f.notes.Some? ==> r.notes == f.notes.value)
            && (f.inventoryText.Some? ==> r.inventoryText == f.inventoryText.value)
            && (f.skillsText.Some? ==> r.skillsText == f.skillsText.value)
  {
    assert Text.Strip("") == "";
  }

  /**
   * A number field's outcome: the column default when the key is missing,
   * the value itself when within `[lo, hi]`, else the bound it overshot.
   */
  predicate ClampedFrom(r: int, v: Option<int>, default: int, lo: int, hi: int) {
    && (v.None? ==> r == default)
    && (v.Some? && lo <= v.value <= hi ==> r == v.value)
    && (v.Some? && v.value < lo ==> r == lo)
    && (v.Some? && hi < v.value ==> r == hi)
  }

  /** A number taken from the form, or its in-range default, and clamped: `ClampedFrom` holds. */
  lemma ClampMeetsClampedFrom(v: Option<int>, default: int, lo: int, hi: int)
    requires lo <= default <= hi
    ensures ClampedFrom(Clamp(v.GetOr(default), lo, hi), v, default, lo, hi)
  {
  }

  /**
   * The eight numbers a submitted form leaves on the sheet: each as given
   * when in range, else the bound it overshot, and the column default when
   * the key is missing.
   */
  lemma SubmittedNumbersClamped(c: Models.Character, f: Form)
    ensures var r := ApplyCharacterForm(c, f);
            && ClampedFrom(r.heroism, f.heroism, Models.DefaultAttribute, 1, 100)
            && ClampedFrom(r.agility, f.agility, Models.DefaultAttribute, 1, 100)
            && ClampedFrom(r.intellect, f.intellect, Models.DefaultAttribute, 1, 100)
            && ClampedFrom(r.strength, f.strength, Models.DefaultAttribute, 1, 100)
            && ClampedFrom(r.willpower, f.willpower, Models.DefaultAttribute, 1, 100)
            && ClampedFrom(r.vigor, f.vigor, Models.DefaultAttribute, 1, 100)
            && ClampedFrom(r.hp, f.hp, Models.DefaultHp, 0, 999)
            && ClampedFrom(r.heroPoints, f.heroPoints, Models.DefaultHeroPoints, 0, 999)
  {
    ClampMeetsClampedFrom(f.heroism, Models.DefaultAttribute, 1, 100);
    ClampMeetsClampedFrom(f.agility, Models.DefaultAttribute, 1, 100);
    ClampMeetsClampedFrom(f.intellect, Models.DefaultAttribute, 1, 100);
    ClampMeetsClampedFrom(f.strength, Models.DefaultAttribute, 1, 100);
    ClampMeetsClampedFrom(f.willpower, Models.DefaultAttribute, 1, 100);
    ClampMeetsClampedFrom(f.vigor, Models.DefaultAttribute, 1, 100);
    ClampMeetsClampedFrom(f.hp, Models.DefaultHp, 0, 999);
    ClampMeetsClampedFrom(f.heroPoints, Models.DefaultHeroPoints, 0, 999);
  }

  /** Blank name and level keep the old values; the other text fields do not survive a blank. */
  lemma BlankFieldsKeepNameAndLevel(c: Models.Character, f: Form)
    requires forall i :: 0 <= i < |Text.OrElse(f.name, "")| ==> Text.IsSpace(Text.OrElse(f.name, "")[i])
    requires forall i :: 0 <= i < |Text.OrElse(f.level, "")| ==> Text.IsSpace(Text.OrElse(f.level, "")[i])
    requires f.age.None?
    ensures var r := ApplyCharacterForm(c, f);
            r.name == c.name && r.level == c.level && r.age == ""
  {
  }

  /** The form a sheet page submits back unchanged. */
  function FormOf(c: Models.Character): Form {
    Form(Some(c.name), Some(c.age), Some(c.occupation), Some(c.level), Some(c.affiliation), Some(c.personality),
         Some(c.heroism), Some(c.agility), Some(c.intellect), Some(c.strength), Some(c.willpower), Some(c.vigor),
         Some(c.hp), Some(c.heroPoints), Some(c.notes), Some(c.inventoryText), Some(c.skillsText))
  }

  predicate Trimmed(s: string) {
    Text.Strip(s) == s
  }

  /**
   * Saving a sheet without editing it changes nothing, when the sheet is
   * within bounds and its short text fields carry no surrounding whitespace.
   */
  lemma ResubmitKeepsSheet(c: Models.Character)
    requires Models.WithinSheetBounds(c)
    requires Trimmed(c.name) && Trimmed(c.age) && Trimmed(c.occupation) && Trimmed(c.level) && Trimmed(c.affiliation)
    ensures ApplyCharacterForm(c, FormOf(c)) == c
  {
    PersonalityTrimmed(c.personality);
    var r := ApplyCharacterForm(c, FormOf(c));
    assert r.personality == c.personality;
    assert r.name == c.name && r.level == c.level;
  }

  lemma PersonalityTrimmed(p: string)
    requires Models.IsPersonality(p)
    ensures Text.Strip(p) == p && p != ""
  {
    assert p[0] != ' ' && p[|p| - 1] != ' ';
    assert !Text.IsSpace(p[0]) && !Text.IsSpace(p[|p| - 1]);
  }

  /**
   * `_get_or_create_character`: the user's character if it has one, else a
   * new one named after the username in capitals, every other column at
   * its default.
   */
  function GetOrCreateCharacter(st: Models.Store, u: Models.User): (r: (Models.Store, Models.Character))
    requires Models.Valid(st) && u.id in st.users
    ensures Models.Valid(r.0)
    ensures r.0.users == st.users
    ensures u.id in r.0.characters && r.0.characters[u.id] == r.1
    ensures forall k :: k in st.characters ==> k in r.0.characters && r.0.characters[k] == st.characters[k]
    ensures r.0.characters.Keys == st.characters.Keys + {u.id}
  {
    match Models.CharacterOf(st, u.id)
    case Some(c) => (st, c)
    case None =>
      var st' := Models.InsertCharacter(st, u.id, Text.Upper(u.username));
      (st', st'.characters[u.id])
  }

  /** An existing character is returned as is; a missing one is created once, so a second call finds it. */
  lemma GetOrCreateIdempotent(st: Models.Store, u: Models.User)
    requires Models.Valid(st) && u.id in st.users
    ensures u.id in st.characters ==> GetOrCreateCharacter(st, u) == (st, st.characters[u.id])
    ensures u.id !in st.characters ==> GetOrCreateCharacter(st, u).1 == Models.NewCharacter(st.nextCharacterId, u.id, Text.Upper(u.username))
    ensures var (st', c) := GetOrCreateCharacter(st, u);
            GetOrCreateCharacter(st', u) == (st', c)
  {
  }
}

=== FILE: text.dfy ===
/**
 * The Python string operations the application relies on, over `string`
 * (a sequence of Unicode scalar values): `strip`, `lower`, `upper`,
 * `split(sep)[0]`, `split(sep, maxsplit)`, `endswith` and character `replace`.
 */
module Text {
  import opened Wrappers

  /** Python's `(v or default)` on an optional string: `None` and `""` give the default. */
  function OrElse(v: Option<string>, default: string): (r: string)
    ensures v.Some? && v.value != "" ==> r == v.value
    ensures v.None? || v.value == "" ==> r == default
  {
    match v
    case Some(s) => if s == "" then default else s
    case None => default
  }

  /** Python's `str.isspace()`: the characters `str.strip()` removes when it is given no argument. */
  predicate IsSpace(c: char) {
    || ('\t' <= c <= '\r')
    || ('\U{1C}' <= c <= ' ')
    || c == '\U{85}' || c == '\U{A0}' || c == '\U{1680}'
    || ('\U{2000}' <= c <= '\U{200A}')
    || c == '\U{2028}' || c == '\U{2029}' || c == '\U{202F}' || c == '\U{205F}' || c == '\U{3000}'
  }

  predicate IsAsciiDigit(c: char) {
    '0' <= c <= '9'
  }

  predicate IsAsciiUpper(c: char) {
    'A' <= c <= 'Z'
  }

  predicate IsAsciiLower(c: char) {
    'a' <= c <= 'z'
  }

  predicate IsAsciiLetter(c: char) {
    IsAsciiUpper(c) || IsAsciiLower(c)
  }

  predicate IsAsciiAlnum(c: char) {
    IsAsciiLetter(c) || IsAsciiDigit(c)
  }

  // ---------------------------------------------------------------------------
  // strip

  /** Number of leading characters of `s` that satisfy `sp`. */
  function LeadingCount(s: string, sp: char -> bool): (k: nat)
    ensures k <= |s|
    ensures forall i :: 0 <= i < k ==> sp(s[i])
    ensures k == |s| || !sp(s[k])
    decreases |s|
  {
    if |s| > 0 && sp(s[0]) then 1 + LeadingCount(s[1..], sp) else 0
  }

  /** Start of the run of trailing characters of `s[lo..]` that satisfy `sp`. */
  function TrailingStart(s: string, lo: nat, sp: char -> bool): (k: nat)
    requires lo <= |s|
    ensures lo <= k <= |s|
    ensures forall i :: k <= i < |s| ==> sp(s[i])
    ensures k == lo || !sp(s[k - 1])
    decreases |s|
  {
    if |s| > lo && sp(s[|s| - 1]) then TrailingStart(s[..|s| - 1], lo, sp) else |s|
  }

  /** Python's `s.strip()` with the set of removable characters given by `sp`. */
  function StripBy(s: string, sp: char -> bool): (r: string)
    ensures |r| <= |s|
    ensures |r| == 0 || (!sp(r[0]) && !sp(r[|r| - 1]))
    ensures r == [] <==> forall i :: 0 <= i < |s| ==> sp(s[i])
    ensures |s| == 0 || (!sp(s[0]) && !sp(s[|s| - 1])) ==> r == s
  {
    var a := LeadingCount(s, sp);
    var b := TrailingStart(s, a, sp);
    assert a < |s| ==> a < b;
    s[a..b]
  }

  /** Python's `s.strip()`. */
  function Strip(s: string): (r: string)
    ensures |r| <= |s|
    ensures |r| == 0 || (!IsSpace(r[0]) && !IsSpace(r[|r| - 1]))
    ensures r == [] <==> forall i :: 0 <= i < |s| ==> IsSpace(s[i])
    ensures |s| == 0 || (!IsSpace(s[0]) && !IsSpace(s[|s| - 1])) ==> r == s
  {
    StripBy(s, IsSpace)
  }

  lemma StripIdempotent(s: string)
    ensures Strip(Strip(s)) == Strip(s)
  {
  }

  // ---------------------------------------------------------------------------
  // lower / upper

  /** Case mapping of one character; only the ASCII letters change. */
  function LowerChar(c: char): (d: char)
    ensures IsAsciiUpper(c) ==> IsAsciiLower(d)
    ensures !IsAsciiUpper(c) ==> d == c
  {
    if IsAsciiUpper(c) then (c as int + 32) as char else c
  }

  function UpperChar(c: char): (d: char)
    ensures IsAsciiLower(c) ==> IsAsciiUpper(d)
    ensures !IsAsciiLower(c) ==> d == c
  {
    if IsAsciiLower(c) then (c as int - 32) as char else c
  }

  /** Python's `s.lower()` restricted to the ASCII letters. */
  function Lower(s: string): (r: string)
    ensures |r| == |s|
    ensures forall i :: 0 <= i < |s| ==> r[i] == LowerChar(s[i])
  {
    seq(|s|, i requires 0 <= i < |s| => LowerChar(s[i]))
  }

  /** Python's `s.upper()` restricted to the ASCII letters. */
  function Upper(s: string): (r: string)
    ensures |r| == |s|
    ensures forall i :: 0 <= i < |s| ==> r[i] == UpperChar(s[i])
  {
    seq(|s|, i requires 0 <= i < |s| => UpperChar(s[i]))
  }

  /** A string that `Lower` leaves alone has no ASCII capital letter. */
  predicate IsLowered(s: string) {
    forall i :: 0 <= i < |s| ==> !IsAsciiUpper(s[i])
  }

  lemma LowerOfLowered(s: string)
    requires IsLowered(s)
    ensures Lower(s) == s
  {
  }

  lemma LowerIsLowered(s: string)
    ensures IsLowered(Lower(s))
    ensures Lower(Lower(s)) == Lower(s)
  {
  }

  /** One space on each side of a string with no whitespace at its ends is all `strip` removes. */
  lemma StripPadded(a: string)
    requires |a| > 0 && !IsSpace(a[0]) && !IsSpace(a[|a| - 1])
    ensures Strip([' '] + a + [' ']) == a
  {
    var s := [' '] + a + [' '];
    assert s[1..][0] == a[0];
    assert LeadingCount(s[1..], IsSpace) == 0;
    assert LeadingCount(s, IsSpace) == 1;
    assert s[..|s| - 1][|s| - 2] == a[|a| - 1];
    assert TrailingStart(s[..|s| - 1], 1, IsSpace) == |s| - 1;
    assert TrailingStart(s, 1, IsSpace) == |s| - 1;
    assert s[1..|s| - 1] == a;
  }

  /** Trimming keeps a slice of the string, so it adds no capital letter. */
  lemma StripKeepsLowered(s: string)
    requires IsLowered(s)
    ensures IsLowered(Strip(s))
  {
    var a := LeadingCount(s, IsSpace);
    var b := TrailingStart(s, a, IsSpace);
    assert Strip(s) == s[a..b];
  }

  // ---------------------------------------------------------------------------
  // split

  /** Python's `s.split(sep)[0]`: everything before the first `sep`. */
  function FirstField(s: string, sep: char): (r: string)
    ensures |r| <= |s| && r == s[..|r|]
    ensures sep !in r
    ensures |r| < |s| ==> s[|r|] == sep
  {
    if |s| == 0 || s[0] == sep then [] else [s[0]] + FirstField(s[1..], sep)
  }

  /** Number of occurrences of `c` in `s`. */
  function Count(s: string, c: char): nat
  {
    multiset(s)[c]
  }

  function Min(a: nat, b: nat): nat {
    if a <= b then a else b
  }

  /**
   * Python's `s.split(sep, maxsplit)`: at most `maxsplit` cuts, at the leftmost
   * separators; the last piece keeps any separators left over.
   */
  function SplitMax(s: string, sep: char, maxsplit: nat): (parts: seq<string>)
    ensures 1 <= |parts| <= maxsplit + 1
    ensures forall i :: 0 <= i < |parts| - 1 ==> sep !in parts[i]
    ensures |parts| < maxsplit + 1 ==> sep !in parts[|parts| - 1]
    decreases |s|
  {
    if maxsplit == 0 then [s]
    else
      var head := FirstField(s, sep);
      if |head| == |s| then [s]
      else
        [head] + SplitMax(s[|head| + 1..], sep, maxsplit - 1)
  }

  /** With no cut left to make, or no separator to cut at, the whole string is the only piece. */
  lemma SplitMaxWhole(s: string, sep: char, maxsplit: nat)
    requires maxsplit == 0 || sep !in s
    ensures SplitMax(s, sep, maxsplit) == [s]
  {
    if maxsplit > 0 {
      assert |FirstField(s, sep)| == |s|;
    }
  }

  /** One cut at the leftmost separator. */
  lemma SplitMaxCut(s: string, sep: char, maxsplit: nat) returns (head: string, tail: string)
    requires maxsplit > 0 && sep in s
    ensures |tail| < |s| && Count(s, sep) == Count(tail, sep) + 1
    ensures SplitMax(s, sep, maxsplit) == [head] + SplitMax(tail, sep, maxsplit - 1)
  {
    head := FirstField(s, sep);
    tail := s[|head| + 1..];
    assert s == head + [sep] + tail;
    assert multiset(s) == multiset(head) + multiset{sep} + multiset(tail);
  }

  /** Python hands back one more piece than the cuts it makes, and it cuts at every separator up to `maxsplit`. */
  lemma {:induction false} SplitMaxLength(s: string, sep: char, maxsplit: nat)
    ensures |SplitMax(s, sep, maxsplit)| == Min(Count(s, sep), maxsplit) + 1
    decreases |s|
  {
    if maxsplit == 0 || sep !in s {
      SplitMaxWhole(s, sep, maxsplit);
    } else {
      var head, tail := SplitMaxCut(s, sep, maxsplit);
      SplitMaxLength(tail, sep, maxsplit - 1);
    }
  }

  lemma {:induction false} FirstFieldOfJoin(a: string, b: string, sep: char)
    requires sep !in a
    ensures FirstField(a + [sep] + b, sep) == a
  {
    if |a| > 0 {
      assert (a + [sep] + b)[1..] == a[1..] + [sep] + b;
      FirstFieldOfJoin(a[1..], b, sep);
    }
  }

  lemma SplitMaxOfCons(a: string, b: string, sep: char, maxsplit: nat)
    requires maxsplit > 0 && sep !in a
    ensures SplitMax(a + [sep] + b, sep, maxsplit) == [a] + SplitMax(b, sep, maxsplit - 1)
  {
    var s := a + [sep] + b;
    FirstFieldOfJoin(a, b, sep);
    assert s[|a| + 1..] == b;
  }

  /**
   * Splitting undoes joining: four fields of which the first three are free of
   * the separator come back unchanged from `split(sep, 3)`, whatever the fourth holds.
   */
  lemma SplitFourFields(a: string, b: string, c: string, d: string, sep: char)
    requires sep !in a && sep !in b && sep !in c
    ensures SplitMax(a + [sep] + b + [sep] + c + [sep] + d, sep, 3) == [a, b, c, d]
  {
    var cd := c + [sep] + d;
    var bcd := b + [sep] + cd;
    assert a + [sep] + b + [sep] + c + [sep] + d == a + [sep] + bcd;
    SplitMaxOfCons(a, bcd, sep, 3);
    SplitMaxOfCons(b, cd, sep, 2);
    SplitMaxOfCons(c, d, sep, 1);
    SplitMaxWhole(d, sep, 0);
  }

  // ---------------------------------------------------------------------------
  // endswith / replace

  /** Python's `s.endswith(suffix)`. */
  predicate EndsWith(s: string, suffix: string) {
    |suffix| <= |s| && s[|s| - |suffix|..] == suffix
  }

  /** Python's `s.replace(a, b)` for single characters. */
  function ReplaceChar(s: string, a: char, b: char): (r: string)
    ensures |r| == |s|
    ensures a !in r || a == b
    ensures forall i :: 0 <= i < |s| ==> r[i] == (if s[i] == a then b else s[i])
  {
    seq(|s|, i requires 0 <= i < |s| => if s[i] == a then b else s[i])
  }
}

=== FILE: wrappers.dfy ===
/** Failure-compatible datatypes shared by every module of the model. */
module Wrappers {

  /** A value that may be absent: Python's `None` versus a present value. */
  datatype Option<+T> = None | Some(value: T) {

    predicate IsFailure() {
      None?
    }

    function PropagateFailure<U>(): Option<U>
      requires None?
    {
      None
    }

    function Extract(): T
      requires Some?
    {
      value
    }

    /** Python's `x or default` for an optional value. */
    function GetOr(default: T): T {
      match this
      case Some(v) => v
      case None => default
    }
  }

  /** Either a value or the HTTP status code of the exception that aborts a request. */
  datatype Result<+R> = Success(value: R) | Failure(status: int) {

    predicate IsFailure() {
      Failure?
    }

    function PropagateFailure<U>(): Result<U>
      requires Failure?
    {
      Failure(status)
    }

    function Extract(): R
      requires Success?
    {
      value
    }
  }
}
